=== FILE: README.md ===
# thisisthesitebuilder — a Dafny model of the build's decision logic

thisisthesitebuilder turns authored travel data into a static site. The data is
places, dated locations, photos and clips, day summaries, experiences (eras) and
pages. This project models the part of the builder that decides things:

- **The change-detection ledger.** An era (`Era.absorb_happenings`) and a page
  (`Page.current_checksum`, `previous_checksum`, `render`) each compute digests of
  their content. They compare these with the record the previous build left in
  `compiled/…/*.json`. They write a new record only when something changed, or
  when a page rebuild is forced.
- **The experience association rules.**
  - Which locations fall in an era's closed window.
  - Which media and summaries fall in its open window.
  - How media are routed to sub-experiences by tag.
  - Which eras intersect it.
  - The de-duplicated location lists: `places`, `unique_locations_by_place` and
    `unique_locations_by_field`.
  - The three-column layout counter.
  - The `what_changed` line and the `Eras` pagination names.
- **Media metadata.**
  - `Image`/`Clip` file names, distinguishers and paths.
  - Loading a directory of per-day metadata into a `MultimediaCollection`, with its
    first-wins hash and slug indexes and the keys seen more than once.
  - `by_date`, and the day-by-day `intertwine` merge.
- **Places and locations.** Slugs, string forms, the "compiled is current" test,
  the `compile` decision, and building the place registry and the
  day → time → `Location` map from parsed YAML.
- **`month_day_maybe_year`.** The 45-week threshold that decides whether a date is
  written with its year.

Everything is functional. The filesystem is a `Json.Store`, a map from path to a
stored file that is either malformed or a parsed JSON value. A path that is absent
is a file that does not exist. Python exceptions become `Wrappers.Result` errors
that name the exception class.

Libraries the builder calls are parameters:

- MD5 over the `str()` of a Python value (`Env.md5`);
- maya's date parsing, as epoch seconds (`Env.parse`);
- `str()` of a context value, the Markdown/Django body parser, the US/Eastern
  build time and the template engine (`Pages.PageTools`);
- `strftime` in New York time (the `render` argument of
  `DateFormatting.MonthDayMaybeYear`).

Python's stable `sorted`/`list.sort`, code-point string order, the character-set
`strip`/`rstrip`, `str.replace` and `str(int)` are modelled in `Sorting` and
`Strings`.

Modules follow the source: `Ledger`, `Experiences`, `ExperienceMedia` and
`ExperienceLayout` (experiences/models.py), `Pages` (pages/models.py), `Images`
(images/models.py), `MediaCollections` (images/build.py), `Where`
(where/models.py), `WhereBuild` (where/build.py) and `DateFormatting`
(utils/datetime_formatting.py). Four modules support them: `Json`, `Wrappers`,
`Occurrences`, and `Sorting`/`Strings` for the Python semantics.

## Model

| member | source | states |
|---|---|---|
| Ledger.Compare | thisisthesitebuilder/experiences/models.py:67-74 | A stored record is comparable iff it is a JSON object holding all five keys. Each flag is then exactly "current digest differs from the stored one" for its key. A non-object record is a TypeError. |
| Ledger.FirstMissing | thisisthesitebuilder/experiences/models.py:67-74 | Finds the first digest key, in the order the source reads them, that the record lacks. None iff every key is present. |
| Ledger.CompareMissingKey | thisisthesitebuilder/experiences/models.py:67-74 | A record missing a key raises KeyError for the first missing key in reading order. |
| Ledger.Record | thisisthesitebuilder/experiences/models.py:86-97 | The written record holds the five current digests, `what_changed` as the five flags in the order [locations, multimedia, summaries, subs, text], the build's ISO datetime and the build's data checksum. |
| Ledger.Absorb | thisisthesitebuilder/experiences/models.py:51-53 | Locations, images and summaries are applied in this order. The first failure is the result. |
| Ledger.AbsorbHappenings | thisisthesitebuilder/experiences/models.py:46-103 | Any failure in absorbing propagates. On success the digests are those of what was absorbed. Change flags and `has_changed` exist exactly for persisting eras. `has_changed` is the OR of the five flags. |
| Ledger.Settle | thisisthesitebuilder/experiences/models.py:60-103 | A non-persisting era leaves the store untouched and has no flags. Failure comes only from reading an existing meta file. `has_changed` is the OR of the flags. A change writes a record that reads back as the new previous meta. No change keeps the store and returns the stored record. |
| Ledger.NoPersistLeavesStore | thisisthesitebuilder/experiences/models.py:60 | A non-persisting era never reads or writes the store and has no previous meta. |
| Ledger.FirstAbsorbRecordsAll | thisisthesitebuilder/experiences/models.py:76-98 | With no record on disk, all five flags are true and `has_changed` is true. The all-true record is written and becomes `previous_meta`. |
| Ledger.AbsorbComparesRecord | thisisthesitebuilder/experiences/models.py:64-103 | With a parsed record on disk, each flag is "digest differs from the record". On change the new record is written and kept as `previous_meta`. Otherwise nothing is written and `previous_meta` is the loaded record verbatim. |
| Ledger.AbsorbRejectsBadRecord | thisisthesitebuilder/experiences/models.py:61-75 | Only a missing file counts as "no record". Malformed JSON raises JSONDecodeError, a non-object raises TypeError, and the call fails iff some digest key is missing. |
| Ledger.CompareOwnRecord | thisisthesitebuilder/experiences/models.py:67-97 | Comparing digests with the record written for them reports nothing changed. |
| Ledger.SettleAgain | thisisthesitebuilder/experiences/models.py:60-103 | Settling the same digests against the store the first settlement left reports no change and writes nothing. |
| Ledger.AbsorbAgainUnchanged | thisisthesitebuilder/experiences/models.py:46-103 | Absorbing the same inputs again, against the store the first absorption left, gives `has_changed` false, the same store and the same `previous_meta`. |
| Ledger.RecordReportsChanges | thisisthesitebuilder/experiences/models.py:249-258 | `what_changed()` on a written record joins the labels of the locations, text and multimedia flags with ", ". |
| Ledger.LastUpdated | thisisthesitebuilder/experiences/models.py:105-106 | `last_updated()` succeeds iff the meta has a string `datetime` that parses. |
| Ledger.ChangedEraUpdatedNow | thisisthesitebuilder/experiences/models.py:105-106 | After a change, `last_updated()` is the current build's datetime. |
| Experiences.FirstUnparsable | thisisthesitebuilder/experiences/models.py:109-115 | Finds the first location entry whose day and time do not parse. None iff every entry parses. |
| Experiences.SortLocations | thisisthesitebuilder/experiences/models.py:123-124 | Sorting locations by string form is a permutation, ascending, or descending when reversed. |
| Experiences.MapLocationsMembership | thisisthesitebuilder/experiences/models.py:109-117 | A location is among those taken from the entries iff some entry carries it. |
| Experiences.ApplyLocationsFails | thisisthesitebuilder/experiences/models.py:112-115 | `apply_locations` fails iff some entry's date fails to parse, and the failure is a parse failure. |
| Experiences.ApplyLocationsContents | thisisthesitebuilder/experiences/models.py:113-127 | A location is in `all_locations` iff some entry carries it and its time lies in the closed window. It is in `specific_locations` iff it is in `all_locations` and listable (no subs, or its place is shown at top level). Both lists are sorted by string form, and the digest is over `all_locations`. |
| Experiences.SortedMembership | thisisthesitebuilder/experiences/models.py:123-124 | Sorting neither adds nor loses locations. |
| Experiences.ApplyLocations | thisisthesitebuilder/experiences/models.py:108-127 | Fails, with a parse failure, iff some entry's day and time do not parse. Otherwise both lists are sorted by string form and the digest is over `all_locations`. |
| Experiences.Register | thisisthesitebuilder/experiences/models.py:119-121 | A plain era's `add_location` registers nothing. |
| Experiences.RegisterEffect | thisisthesitebuilder/experiences/models.py:358-361 | An experience listing some locations is registered once on each of them, however often a location comes up. Every other location's `used_in_experiences` is unchanged. |
| Experiences.ApplyLocationsRegistering | thisisthesitebuilder/experiences/models.py:108-127 | `apply_locations` with its registrations fails exactly as `apply_locations` does. It returns the same lists, and a plain era registers nothing. |
| Experiences.ApplyLocationsRegisters | thisisthesitebuilder/experiences/models.py:116-121 | After `apply_locations` on an experience, each location it lists names the experience exactly once, after the experiences named before. A location it does not list is unchanged. A location no experience had listed has this one as its most significant experience. |
| Experiences.NewLocationUnused | thisisthesitebuilder/where/models.py:131-139 | A newly built location is used in no experience and has no most significant experience. |
| Experiences.OnceInNoRepeats | thisisthesitebuilder/experiences/models.py:360-361 | In a list without repeats, a member occurs exactly once. |
| Experiences.RegisteredOnce | thisisthesitebuilder/experiences/models.py:357-361 | Adding an experience to a location whose list has no repeats names it exactly once, after the earlier entries, with no repeat. On a location no experience named before, it becomes the most significant experience. |
| Experiences.SpecificIsListablePart | thisisthesitebuilder/experiences/models.py:116-124 | `specific_locations` holds exactly the listable locations of `all_locations`, counting multiplicity. |
| Experiences.LocationsIgnoreEntryOrder | thisisthesitebuilder/experiences/models.py:109-127 | Entries in any other enumeration order give the same success, the same locations digest and the same multiset of locations. |
| Experiences.AddLocation | thisisthesitebuilder/experiences/models.py:358-361 | Registering an experience on a location appends it once. The list keeps its order and stays duplicate-free. |
| Experiences.AddLocationIdempotent | thisisthesitebuilder/experiences/models.py:360-361 | Registering the same experience twice is the same as once. |
| Experiences.FindIntersecting | thisisthesitebuilder/experiences/models.py:140-151 | Keeps an era iff its start or its end lies strictly inside this era's window, as often as it occurs in the input. The era itself is never kept. |
| Experiences.FindIntersectingPrefix | thisisthesitebuilder/experiences/models.py:145-151 | Scanning a prefix of the list finds a prefix of the result: kept eras stay in input order. |
| Experiences.Intersection | thisisthesitebuilder/experiences/models.py:132-138 | TypeError iff `find_intersecting` has not run. Otherwise a permutation of what it found, sorted by start, with equal starts kept in found order. |
| Experiences.Places | thisisthesitebuilder/experiences/models.py:153-160 | The places listed are pairwise distinct. |
| Experiences.PlacesMembers | thisisthesitebuilder/experiences/models.py:153-160 | A place is listed iff some location of the era is at it. |
| Experiences.PlacesInSortedOrder | thisisthesitebuilder/experiences/models.py:153-160 | The places are those of the first location at each place in the sorted distinct locations, in that sorted order. |
| Experiences.PlacesOfKept | thisisthesitebuilder/experiences/models.py:157-159 | Collecting places not yet listed gives the places of the first location at each place, in order. |
| Experiences.UniqueLocationsByPlace | thisisthesitebuilder/experiences/models.py:162-172 | Keeps exactly the first specific location at each place, so no two kept locations share a place. |
| Experiences.UniqueLocationsByPlacePrefix | thisisthesitebuilder/experiences/models.py:166-172 | The result for a prefix of the locations is a prefix of the result, so the kept locations stay in their original order. |
| Experiences.FirstFieldError | thisisthesitebuilder/experiences/models.py:184-185 | Finds the first location whose place lacks the field. None iff every place has it. |
| Experiences.MaxWithKey | thisisthesitebuilder/experiences/models.py:202 | `max` by `significance()` over a group picks the first location, all being 0. An explicit significance reaches the misspelled attribute and fails with AttributeError. |
| Experiences.MostSignificant | thisisthesitebuilder/experiences/models.py:201-203 | One location per repeated value, the group's first. It fails iff some group's maximum fails. |
| Experiences.UniqueLocationsByField | thisisthesitebuilder/experiences/models.py:174-208 | The result is duplicate-free and sorted by string form, optionally reversed. |
| Experiences.RepeatedGroupHead | thisisthesitebuilder/experiences/models.py:187-194 | The group of a repeated value is non-empty and starts with the value's first location. |
| Experiences.RepeatedSignificanceFails | thisisthesitebuilder/experiences/models.py:187-203 | A location with an explicit significance whose value repeats makes the call fail. |
| Experiences.FailureHasWitness | thisisthesitebuilder/experiences/models.py:201-203 | When choosing the most significant locations fails, some location with an explicit significance has a repeated value. |
| Experiences.UniqueByFieldFails | thisisthesitebuilder/experiences/models.py:183-208 | The call fails iff some place lacks the field, or some location with an explicit significance shares its value with another. |
| Experiences.KeptAreCandidates | thisisthesitebuilder/experiences/models.py:199-205 | The result holds exactly the never-repeated locations plus the chosen location of each repeated value. |
| Experiences.UniqueIsFirst | thisisthesitebuilder/experiences/models.py:187-196 | A never-repeated location is the first with its value. |
| Experiences.FirstIsCandidate | thisisthesitebuilder/experiences/models.py:187-203 | The first location with each value is a candidate for the result. |
| Experiences.UniqueByFieldMembers | thisisthesitebuilder/experiences/models.py:174-208 | A location is in the result iff it is the first location with its field value. |
| Experiences.UniqueByFieldDistinctValues | thisisthesitebuilder/experiences/models.py:174-208 | No two locations in the result share a field value: exactly one per distinct value. |
| Experiences.UniqueLocationsByBigName | thisisthesitebuilder/experiences/models.py:214-216 | By `big_name`, the call fails iff an explicitly significant location repeats a big name. On success the big names are pairwise distinct. |
| Experiences.UniquePlacesByField | thisisthesitebuilder/experiences/models.py:210-212 | Succeeds iff `unique_locations_by_field` does, and the places' field values are pairwise distinct. |
| ExperienceLayout.PlaceRunShape | thisisthesitebuilder/experiences/models.py:227-235 | Each location gets a column from 1 to 3, in order. A clear happens only at the first location of a two- or three-location list that would start in column 3, and a cleared location takes column 1. |
| ExperienceLayout.PlaceRunCycles | thisisthesitebuilder/experiences/models.py:228-235 | Columns advance 1→2→3→1 from one location to the next. The counter handed on is the successor of the last column. |
| ExperienceLayout.PlaceRunWellPlaced | thisisthesitebuilder/experiences/models.py:227-235 | One experience's locations are placed well from any starting column. |
| ExperienceLayout.PlaceRun | thisisthesitebuilder/experiences/models.py:227-235 | Gives one placement per remaining location, in order. From a column in 1..3, every column and the column handed on stay in 1..3. |
| ExperienceLayout.LayoutGroups | thisisthesitebuilder/experiences/models.py:221-235 | One group per experience, in order, each with as many placements as it has locations. From a column in 1..3, the column carried on stays in 1..3. |
| ExperienceLayout.LayoutGroupsShape | thisisthesitebuilder/experiences/models.py:221-237 | One group per intersecting experience, in order, each well placed. |
| ExperienceLayout.PlaceRunPlaced | thisisthesitebuilder/experiences/models.py:227-235 | The exact columns of one experience's run from column q: the first takes q, or 1 with a clear when q is 3 and there are two or three locations; each later one takes the successor of the one before. The column handed on is the successor of the last. |
| ExperienceLayout.RunPlacedUnique | thisisthesitebuilder/experiences/models.py:227-235 | That description of a run fixes every placement: two placements that both meet it are equal. |
| ExperienceLayout.LayoutGroupsPlaced | thisisthesitebuilder/experiences/models.py:221-235 | The column is not reset between experiences: each experience's run is placed exactly from the column the previous experience handed on, and the layout ends with the column the last one hands on. |
| ExperienceLayout.LaidOutCons | thisisthesitebuilder/experiences/models.py:222-235 | A layout is the first experience's run from the starting column followed by the rest laid out from the column that run hands on. |
| ExperienceLayout.CollectLocations | thisisthesitebuilder/experiences/models.py:222-225 | Gathers each experience with its locations by big name. It succeeds iff every experience's list does. |
| ExperienceLayout.LocationsFromIntersecting | thisisthesitebuilder/experiences/models.py:218-237 | TypeError before `find_intersecting`. Otherwise one entry per intersecting era, in start order, each with a well-placed layout of its locations, laid out exactly as `LayoutGroupsPlaced` states from column 1. |
| ExperienceLayout.WhatChanged | thisisthesitebuilder/experiences/models.py:249-250 | A missing key propagates. Otherwise it succeeds iff the recorded value unpacks into five names: a five-item list, a five-character string or a five-key object (without an empty key). |
| ExperienceLayout.UnpackFlags | thisisthesitebuilder/experiences/models.py:250 | Unpacking gives five truth values. They are the items' truthiness for a list, and all true for a string's characters or an object's non-empty keys. A scalar is a TypeError. |
| ExperienceLayout.StripSeparator | thisisthesitebuilder/experiences/models.py:258 | `rstrip(", ")` removes exactly the trailing separator from a label list. |
| ExperienceLayout.SuffixedIsJoin | thisisthesitebuilder/experiences/models.py:251-258 | Appending "label, " for each label is the ", " join plus one trailing separator. |
| ExperienceLayout.WhatChangedJoinsLabels | thisisthesitebuilder/experiences/models.py:249-258 | For a recorded list, the line is the ", " join of "locations", "text" and "images and/or clips" for the truthy flags 0, 4 and 1, in that order. A string or object reports all three labels. |
| ExperienceLayout.LabelsLine | thisisthesitebuilder/experiences/models.py:251-258 | Building "label, " for each set flag and stripping ", " gives the labels joined by ", ". |
| ExperienceLayout.NewEras | thisisthesitebuilder/experiences/models.py:268-271 | A new `Eras` starts with one empty group. |
| ExperienceLayout.NextGroup | thisisthesitebuilder/experiences/models.py:273-275 | `next_group` appends one empty group. |
| ExperienceLayout.AddToGroup | thisisthesitebuilder/experiences/models.py:277-281 | An era is appended to the last group only. |
| ExperienceLayout.IndexOf | thisisthesitebuilder/experiences/models.py:284 | `list.index` finds the first group equal by value. None iff no group is equal. |
| ExperienceLayout.OutputFilenameForGroup | thisisthesitebuilder/experiences/models.py:283-288 | Group 0 is `page_name` and group i > 0 is `page_name-page-(i+1)`. An unknown group fails. |
| ExperienceLayout.PreviousGroup | thisisthesitebuilder/experiences/models.py:290-296 | Fails exactly for a group not in the list. |
| ExperienceLayout.FollowingGroup | thisisthesitebuilder/experiences/models.py:298-304 | Fails exactly for a group not in the list. |
| ExperienceLayout.PageNamesDistinct | thisisthesitebuilder/experiences/models.py:283-288 | Different group positions get different output names. |
| ExperienceLayout.NavigationOfDistinctGroups | thisisthesitebuilder/experiences/models.py:283-304 | For distinct groups: group i is named for i. Its previous is (None, None) for the first, else group i-1 and its name. Its next is (None, None) for the last, else group i+1 and its name. |
| ExperienceLayout.OutputFilenamesDistinct | thisisthesitebuilder/experiences/models.py:283-288 | Distinct groups are written to distinct files. |
| ExperienceMedia.FirstUnparsableMedium | thisisthesitebuilder/experiences/models.py:314-316 | Finds the first medium whose day, time and UTC offset do not parse. None iff all parse. |
| ExperienceMedia.MatchCountPositive | thisisthesitebuilder/experiences/models.py:322-325 | A sub-experience takes a medium at least once iff they share a tag. |
| ExperienceMedia.Distinguishers | thisisthesitebuilder/experiences/models.py:329-330 | Gives each medium's distinguisher, in order. It fails with RuntimeError iff some medium is of the base class. |
| ExperienceMedia.ApplyImages | thisisthesitebuilder/experiences/models.py:312-330 | There is one media list per sub-experience. A plain era absorbs nothing and its digest is None. |
| ExperienceMedia.ApplyImagesFails | thisisthesitebuilder/experiences/models.py:314-330 | `apply_images` fails iff some medium's date does not parse, or some in-window medium is of the base class. A parse failure is reported first. |
| ExperienceMedia.ApplyImagesAllParse | thisisthesitebuilder/experiences/models.py:317-330 | When every date parses, `apply_images` fails, with RuntimeError, iff an in-window medium has no distinguisher. |
| ExperienceMedia.DatedMembership | thisisthesitebuilder/experiences/models.py:314-315 | A dated medium is enumerated iff its day lists it. |
| ExperienceMedia.WindowMediaMembers | thisisthesitebuilder/experiences/models.py:314-318 | A medium is absorbed iff some day lists it and its time lies strictly inside the window. |
| ExperienceMedia.SubMediaMultiplicity | thisisthesitebuilder/experiences/models.py:321-325 | A sub-experience receives each medium once per matching tag. |
| ExperienceMedia.RepeatMultiplicity | thisisthesitebuilder/experiences/models.py:322-324 | Appending a medium n times adds n copies of it and nothing else. |
| ExperienceMedia.OwnImages | thisisthesitebuilder/experiences/models.py:320-327 | A medium is in the era's own images iff it is absorbed and no sub-experience shares a tag with it. |
| ExperienceMedia.SubImages | thisisthesitebuilder/experiences/models.py:321-325 | Sub j holds each absorbed medium as many times as it is absorbed times the number of its tags that match. |
| ExperienceMedia.ImagesCovered | thisisthesitebuilder/experiences/models.py:318-327 | Every absorbed medium lands in the era's own images or in some sub-experience. |
| ExperienceMedia.FirstUnparsableDay | thisisthesitebuilder/experiences/models.py:335-336 | Finds the first summary day that does not parse. None iff all parse. |
| ExperienceMedia.ApplySummaries | thisisthesitebuilder/experiences/models.py:332-340 | An experience fails, with a parse failure, iff some summary day does not parse. A plain era keeps nothing. |
| ExperienceMedia.SummariesKept | thisisthesitebuilder/experiences/models.py:332-340 | Exactly the summaries of days strictly inside the window are kept, with distinct days. The digest is over the kept dictionary. |
| ExperienceMedia.FilterKeepsDistinctKeys | thisisthesitebuilder/experiences/models.py:335-338 | A sub-dictionary of a dictionary still has distinct keys. |
| ExperienceMedia.ListCountConcat | thisisthesitebuilder/experiences/models.py:350-354 | Image and clip counts add up over concatenation. |
| ExperienceMedia.MediaCount | thisisthesitebuilder/experiences/models.py:342-356 | Succeeds iff the era and every sub-experience below it are experiences. A plain era anywhere in the tree has no `media_count` and raises AttributeError. |
| ExperienceMedia.MediaCountIsTreeCount | thisisthesitebuilder/experiences/models.py:342-356 | When it succeeds, `media_count()` counts the images and clips of the era and of all its sub-experiences, recursively. |
| ExperienceMedia.SubsCountIsTreeCount | thisisthesitebuilder/experiences/models.py:345-348 | When it succeeds, the running sum over the first n subs counts each sub's whole tree. |
| ExperienceMedia.SubsCount | thisisthesitebuilder/experiences/models.py:345-348 | The loop over the first n subs succeeds iff each of them is an experience all the way down. |
| Pages.PageNames | thisisthesitebuilder/pages/models.py:21-26 | A root page is "root!N.html" and written to "N.html". Any other page is "N.html" and written to "pages/N.html". The two full names differ. |
| Pages.JsonMetaFilenameKeepsSuffix | thisisthesitebuilder/pages/models.py:37-41 | The character-set `rstrip(".html")` removes nothing: the meta file is data_dir/compiled/pages/<full name>.json. |
| Pages.JsonMetaFilenameInjective | thisisthesitebuilder/pages/models.py:37-41 | Different pages never share a meta file. |
| Pages.SortedItemsSpec | thisisthesitebuilder/pages/models.py:47-48 | Every context key appears once, ascending, with the `str()` of its value, so insertion order is irrelevant. |
| Pages.CurrentChecksum | thisisthesitebuilder/pages/models.py:43-49 | RuntimeError iff the context is not built. Otherwise the digest of the key-sorted (key, str value) pairs. |
| Pages.PreviousMeta | thisisthesitebuilder/pages/models.py:59-73 | Memoised. A missing file gives None, malformed JSON propagates, and a stored `null` reads as None. |
| Pages.PreviousChecksum | thisisthesitebuilder/pages/models.py:51-80 | Memoised. Only the two caches of the page change. |
| Pages.PreviousChecksumCases | thisisthesitebuilder/pages/models.py:51-80 | No file or a `null` record gives None. A record gives its `page_checksum`, or KeyError without it, and TypeError if it is not an object. Malformed JSON propagates. |
| Pages.PreviousChecksumCached | thisisthesitebuilder/pages/models.py:51-57 | Once looked up, the previous checksum no longer depends on the store. |
| Pages.UpdateFromYamlAsWritten | thisisthesitebuilder/pages/models.py:82-118 | As written: no YAML just marks the context built. A YAML mapping without a truthy `body_content` reaches `self.data_dir` and fails. |
| Pages.UpdateFromYaml | thisisthesitebuilder/pages/models.py:82-118 | Corrected: no YAML marks the context built. A YAML mapping always succeeds. A non-mapping fails on `pop`. |
| Pages.UpdateFromYamlContext | thisisthesitebuilder/pages/models.py:88-111 | The title defaults to the page name. YAML keys override the context. `body_content` is the parsed given body, or the authored `-body.md` file when the given one is falsy and the file exists. |
| Pages.UpdateFromYamlKeys | thisisthesitebuilder/pages/models.py:88-111 | The new context's keys are the old ones, the YAML's except `body_content`, and the ones the method sets. Untouched keys keep their values. |
| Pages.UpdateFromYamlAgrees | thisisthesitebuilder/pages/models.py:95-111 | Wherever the as-written method succeeds, the corrected one gives the same page. |
| Pages.DataDirCounterexample | thisisthesitebuilder/pages/models.py:97-104 | A page YAML `{}` makes the as-written method fail on `data_dir`. The corrected one reads the authored body file. |
| Pages.ChooseTemplate | thisisthesitebuilder/pages/models.py:140-146 | The template is always one that exists, and the page-specific one when it exists. |
| Pages.Rebuild | thisisthesitebuilder/pages/models.py:128-149 | Writes {page_checksum, last_update} with the given checksum, adds `build_time` and the passive context, and never reports a skip. On success the page is updated and the HTML is the chosen template over the new context. |
| Pages.Render | thisisthesitebuilder/pages/models.py:120-124 | Rendering before the context is built fails with the checksum's RuntimeError and changes nothing. |
| Pages.RenderSkipsIffUnchanged | thisisthesitebuilder/pages/models.py:120-126 | Unforced, the render skips iff the recorded checksum equals the current one. |
| Pages.SkipChangesNothing | thisisthesitebuilder/pages/models.py:124-126 | A skipped render writes nothing and changes only the page's caches. |
| Pages.ForcedRenderRebuilds | thisisthesitebuilder/pages/models.py:121-124 | A forced render always rebuilds. |
| Pages.RenderRecordsChecksum | thisisthesitebuilder/pages/models.py:127-149 | A rebuild records the checksum of the context as it was before `build_time` and the passive context are merged. The merge is applied after that. |
| Pages.FirstRenderRebuilds | thisisthesitebuilder/pages/models.py:59-126 | With no meta file, the first render rebuilds. |
| Pages.RenderAgainSkips | thisisthesitebuilder/pages/models.py:120-134 | After a rebuild, a fresh page with the same context skips against the store that rebuild wrote. |
| Pages.ReadBackChecksum | thisisthesitebuilder/pages/models.py:51-134 | The checksum written by a rebuild is exactly what `previous_checksum` reads back. |
| Images.Construct | thisisthesitebuilder/images/models.py:105-109 | A record builds a medium iff it has no `date` key, every constructor argument and `ext`. The medium carries the day, hash, slug, time and tags. A clip stores "webm" and keeps `ext` as the former extension, and a clip without `ext` raises KeyError. |
| Images.Distinguisher | thisisthesitebuilder/images/models.py:99-122 | An image gives its hash and a clip gives the hash followed by its cut. The base class raises RuntimeError. |
| Images.Filename | thisisthesitebuilder/images/models.py:36-46 | (orig or date), then "__slug" only for a non-empty slug, then "__hash.ext". The orig-based name fails for the base class. |
| Images.FilenameEmbedsDistinguisher | thisisthesitebuilder/images/models.py:111-122 | For images and clips, the file name is date, optional slug, "__" + distinguisher, then "." + extension. |
| Images.ClipFilenameIgnoresOrig | thisisthesitebuilder/images/models.py:111-119 | A clip's file name ignores `orig` and always exists. |
| Images.Str | thisisthesitebuilder/images/models.py:16-17 | "date distinguisher (slug)", failing exactly when the distinguisher does. |
| Images.DateAndTime | thisisthesitebuilder/images/models.py:19-20 | The date, then 'T', then the time. |
| Images.UrlPath | thisisthesitebuilder/images/models.py:30-31 | The storage path + "/" + class name. It fails iff no storage path has been set. |
| Images.FullFilePath | thisisthesitebuilder/images/models.py:56-64 | No segment for an empty subdir, and the orig-based name exactly for "unchanged". It raises TypeError when the storage path is unset or an orig is needed but missing. |
| Images.UrlsAreSubdirPaths | thisisthesitebuilder/images/models.py:48-64 | `full_url`/`thumb_url` are the file paths in the "full" and "thumbs" subdirectories, and always exist once storage is set. |
| Images.FullUrl | thisisthesitebuilder/images/models.py:48-50 | Exists iff a storage path is set: the class path, then "/full/", then the file name. |
| Images.ThumbUrl | thisisthesitebuilder/images/models.py:52-54 | Exists iff a storage path is set: the class path, then "/thumbs/", then the file name. |
| Images.FullAndThumbUrls | thisisthesitebuilder/images/models.py:48-54 | The full and thumbnail URLs start with the same storage path and end with the same file name, and are never equal. |
| MediaCollections.SortByTime | thisisthesitebuilder/images/build.py:60 | Sorting by time is a permutation, ascending, and stable. |
| MediaCollections.TryAll | thisisthesitebuilder/images/build.py:39-43 | Building every record succeeds iff each one does, giving one medium per record in order. |
| MediaCollections.TryAllFirstError | thisisthesitebuilder/images/build.py:39-43 | On failure, the error is that of the first record that fails. |
| MediaCollections.ConstructAll | thisisthesitebuilder/images/build.py:39-43 | Builds a day's records in order. It succeeds iff every record fits the class. |
| MediaCollections.ConstructAllFirstError | thisisthesitebuilder/images/build.py:39-43 | The error raised is the first misfit record's. |
| MediaCollections.ParseDays | thisisthesitebuilder/images/build.py:32-37 | A malformed day file raises ValueError naming the file. |
| MediaCollections.ParseDaysFails | thisisthesitebuilder/images/build.py:29-43 | Loading fails iff some file is malformed or holds a record that does not fit. |
| MediaCollections.ParseDaysShape | thisisthesitebuilder/images/build.py:29-46 | One day per file, in listing order. The day key is the name with the characters of ".json" stripped, and its media are the file's records built in order. |
| MediaCollections.ByDateMap | thisisthesitebuilder/images/build.py:38-60 | A day file with no records gets no by-date entry. |
| MediaCollections.ByDateMapKeys | thisisthesitebuilder/images/build.py:38-60 | A day is indexed iff some file for it holds records. |
| MediaCollections.ByDateMapValues | thisisthesitebuilder/images/build.py:38-60 | A day's entry is the last non-empty file for it, stably sorted by time. |
| MediaCollections.IndexFirst | thisisthesitebuilder/images/build.py:47-58 | The index keeps the first medium for each key, and the duplicates list holds each later repeat's key in order. |
| MediaCollections.FlattenCount | thisisthesitebuilder/images/build.py:44 | The number of media equals the number of records across all files. |
| MediaCollections.WalkFiles | thisisthesitebuilder/images/build.py:28-60 | Fails exactly as loading does. Otherwise it indexes the loaded media by date, hash and slug with their duplicates, and counts every record. |
| MediaCollections.ByDate | thisisthesitebuilder/images/build.py:62-63 | The days in ascending order, each with its indexed media. |
| MediaCollections.ByDateSpec | thisisthesitebuilder/images/build.py:62-63 | Days are strictly ascending, and a day is listed iff it is indexed. |
| MediaCollections.LookupIndexed | thisisthesitebuilder/images/build.py:47-58 | An unseen key is absent from the index. A key is among the duplicates iff it occurs at least twice. A key seen once maps to its medium. |
| MediaCollections.LookupByHash | thisisthesitebuilder/images/build.py:65-69 | A hash marked non-unique is refused with ValueError before the index is consulted. Otherwise a hash not in the index is a KeyError, and an indexed one gives its medium. |
| MediaCollections.LookupBySlug | thisisthesitebuilder/images/build.py:71-75 | The same for slugs: ValueError for a non-unique slug, else KeyError or the indexed medium. |
| MediaCollections.LookupByHashSemantics | thisisthesitebuilder/images/build.py:65-69 | `lookup_by_hash`: KeyError iff unseen, ValueError iff seen twice or more, and otherwise the medium with that hash. |
| MediaCollections.LookupBySlugSemantics | thisisthesitebuilder/images/build.py:71-75 | `lookup_by_slug`: KeyError iff unseen, ValueError iff seen twice or more, and otherwise the medium with that slug. |
| MediaCollections.AllDays | thisisthesitebuilder/images/build.py:80-83 | The union of every collection's days. |
| MediaCollections.Concatenated | thisisthesitebuilder/images/build.py:86-89 | A day's media from each collection, concatenated in argument order. |
| MediaCollections.Intertwine | thisisthesitebuilder/images/build.py:78-95 | The union of days ascending, each with the concatenation sorted by time. |
| MediaCollections.IntertwineSpec | thisisthesitebuilder/images/build.py:78-95 | Days are strictly ascending, and a day is present iff some collection has it. Each day holds a stable, time-ordered permutation of the concatenation. |
| Where.NewPlace | thisisthesitebuilder/where/models.py:18-37 | A new place is unused and has no thumbnail yet. It keeps its names and checksum. |
| Where.NewPlaceIgnoresSignificance | thisisthesitebuilder/where/models.py:35 | The significance passed to a place is discarded. |
| Where.FieldValue | thisisthesitebuilder/where/models.py:22-37 | `place.__dict__[field]` gives the names for their fields and KeyError for an unknown field. |
| Where.PlaceStr | thisisthesitebuilder/where/models.py:39-40 | "small - big". |
| Where.Slug | thisisthesitebuilder/where/models.py:53-59 | The small name slugified, followed directly by the slugified big name when both names are used. Lower-casing is ASCII only. |
| Where.SlugCharacters | thisisthesitebuilder/where/models.py:53-59 | Character by character, spaces become '-' and ASCII capitals are lowered. Commas leave the big name. The slug has no space and no ASCII capital. |
| Where.SmallSlugCharacters | thisisthesitebuilder/where/models.py:54 | The small part keeps the name's length, maps each character, and has no space or ASCII capital. |
| Where.BigSlugCharacters | thisisthesitebuilder/where/models.py:57 | The big part is the comma-free name mapped character by character, with no space or ASCII capital. |
| Where.WithoutCommutesWithDash | thisisthesitebuilder/where/models.py:57 | Removing commas after the dash replacement equals removing them before it. |
| Where.CompiledIsCurrent | thisisthesitebuilder/where/models.py:64-79 | A missing file is stale. The result is current iff the stored object's `yaml_checksum` equals the place's, and then it returns that record. Malformed JSON or a non-object propagates. |
| Where.CompileDecision | thisisthesitebuilder/where/models.py:88-95 | A forced compile always fetches. Unforced, it skips iff the record is current and has `thumb_filename`, taking the thumbnail from it; a current record without one is a KeyError. A stale record fetches. |
| Where.Compile | thisisthesitebuilder/where/models.py:84-126 | Only the thumbnail name can change. A forced compile is a fetch. A fetch names the thumbnail slug + "." + the Content-Type's subtype and counts as new; a Content-Type without '/' is an IndexError. A skip always has a thumbnail name. |
| Where.Subtype | thisisthesitebuilder/where/models.py:115 | `split('/')[1]`: defined iff the type has a '/', and then slash-free. |
| Where.SubtypeOfMediaType | thisisthesitebuilder/where/models.py:115 | The subtype of "main/sub" followed by nothing or by a further "/..." is "sub". |
| Where.Fetch | thisisthesitebuilder/where/models.py:98-126 | Fails with IndexError iff the Content-Type has no '/'. Otherwise counts as new and sets only the thumbnail name, to slug + "." + subtype. |
| Where.FetchNamesThumbnail | thisisthesitebuilder/where/models.py:115 | A response of type "main/sub" names the thumbnail slug + "." + "sub". |
| Where.NewLocation | thisisthesitebuilder/where/models.py:131-139 | A location keeps day, time and significance, and marks its place used. |
| Where.LocationStr | thisisthesitebuilder/where/models.py:141-142 | "{day}T{time}: {place}". |
| Where.Significance | thisisthesitebuilder/where/models.py:144-148 | No override gives the place's significance, 0. An override reaches the misspelled attribute and fails. |
| Where.MostSignificantExperience | thisisthesitebuilder/where/models.py:150-154 | Given a location's `used_in_experiences` (from the registry kept in `Experiences`), it is the sole experience iff there is exactly one, otherwise None. |
| WhereBuild.PlaceKeyOfYamlFile | thisisthesitebuilder/where/build.py:57 | A place is keyed by its file name minus ".yaml". |
| WhereBuild.ProcessPlaces | thisisthesitebuilder/where/build.py:44-65 | Succeeds iff every place compiles, given each place's map Content-Type. Keys are the file names minus ".yaml", and the last file with a key wins. The count is the number of compiles that created. |
| WhereBuild.RegisterPlaces | thisisthesitebuilder/where/build.py:52-58 | The same registry and count for any compile decision. |
| WhereBuild.RegisterStep | thisisthesitebuilder/where/build.py:53-58 | Filing one more place keeps the registry exact for the files seen so far. |
| WhereBuild.ForceCreatesAll | thisisthesitebuilder/where/build.py:52-56 | A forced run whose map responses all have a media type counts every place as new. |
| WhereBuild.CreatedCountsAll | thisisthesitebuilder/where/build.py:50-56 | When every compile creates, the count is the number of places. |
| WhereBuild.CreatedCountsNone | thisisthesitebuilder/where/build.py:50-56 | When no compile creates, the count is 0. |
| WhereBuild.CurrentPlacesAreNotCreated | thisisthesitebuilder/where/build.py:52-56 | An unforced run over places whose records are current and name a thumbnail counts none as new. |
| WhereBuild.DayOfYamlFile | thisisthesitebuilder/where/build.py:20 | The character-set `rstrip(".yaml")` of a file name ending in a digit gives the day back. |
| WhereBuild.Resolve | thisisthesitebuilder/where/build.py:26-31 | A name gives that place with no significance; an unknown name is a KeyError on it. A list resolves as `ResolveListed` says. Any other hashable metadata value (a number, null or boolean) is a KeyError on itself, and an object is a KeyError on 0. |
| WhereBuild.ResolveListed | thisisthesitebuilder/where/build.py:29-31 | A list succeeds iff it has two items and the first names a known place, giving that place and the second item. An empty list is an IndexError. An unhashable first item is a TypeError. An unknown name, number, null or boolean first is a KeyError on itself. A known name alone is an IndexError. |
| WhereBuild.FileLocations | thisisthesitebuilder/where/build.py:25-33 | Over a mapping's items (times are distinct): fails iff some entry does not resolve. Otherwise exactly one location per time, with that day and time, built from the resolved place and significance. |
| WhereBuild.FileLocationsEntries | thisisthesitebuilder/where/build.py:25-33 | Each entry of a file that builds is filed under its own time as the location its metadata resolves to. |
| WhereBuild.LocationsByDay | thisisthesitebuilder/where/build.py:18-33 | Fails iff some file has an unresolved entry. Otherwise one day per file and each location carries its day and time. |
| WhereBuild.EntryKeysIff | thisisthesitebuilder/where/build.py:26-31 | A place key is used by a file iff some entry resolves to it. |
| WhereBuild.UsedKeysReferenced | thisisthesitebuilder/where/build.py:18-33 | A place key is used iff some location file references it. |
| WhereBuild.ProcessLocations | thisisthesitebuilder/where/build.py:11-41 | Fails exactly as building the map does. It keeps the registry's keys. |
| WhereBuild.UnusedIffUnreferenced | thisisthesitebuilder/where/build.py:35-37 | A place is reported unused iff it was unused before and no location references it. Nothing else about a place changes. |
| WhereBuild.LocationOrigin | thisisthesitebuilder/where/build.py:18-33 | Every location in the map is the one some file for its day builds for that time. |
| WhereBuild.LocationsHoldRegisteredPlaces | thisisthesitebuilder/where/build.py:27-37 | Every location's place is a registered place, marked used. |
| DateFormatting.ChooseFormat | thisisthesitebuilder/utils/datetime_formatting.py:4-7 | One of the two formats "%b %d %Y" and "%b %d". |
| DateFormatting.MonthDayMaybeYear | thisisthesitebuilder/utils/datetime_formatting.py:9 | The first moment rendered in one of the two formats. |
| DateFormatting.YearShownIff | thisisthesitebuilder/utils/datetime_formatting.py:4-7 | The year is shown iff the span is at least 27,216,001 s, and left out iff it is at most 27,216,000 s. |
| DateFormatting.BoundarySpans | thisisthesitebuilder/utils/datetime_formatting.py:4-7 | Exactly 45 weeks, 40 weeks plus a second, or a negative span: no year. 45 weeks plus a second: year. |
| DateFormatting.FormatDependsOnSpan | thisisthesitebuilder/utils/datetime_formatting.py:4 | Only the span matters, and a longer span never drops the year. |
| DateFormatting.SecondMomentOnlyChoosesFormat | thisisthesitebuilder/utils/datetime_formatting.py:9 | The second moment affects only the choice of format. |
| Sorting.SortBy | thisisthesitebuilder/experiences/models.py:123-124 | Python's `sort(key=…)`: a permutation, sorted by key, stable. |
| Sorting.SortedKeysDependOnlyOnMultiset | thisisthesitebuilder/experiences/models.py:123-127 | Sorting two permutations of a list gives the same key sequence, so the digest of the keys is order-independent. |
| Sorting.SortedSet | thisisthesitebuilder/images/build.py:95 | `sorted(d.items())` by key: every key once, strictly ascending. |
| Sorting.StringOrder | thisisthesitebuilder/experiences/models.py:123 | Python's string comparison is a strict total order. |
| Sorting.ConverseIsStrictTotal | thisisthesitebuilder/experiences/models.py:205-207 | `reverse=True` sorts under the converse order, which is again strict and total. |
| Strings.RStrip | thisisthesitebuilder/where/build.py:20 | `rstrip(chars)` removes the longest suffix made only of those characters. |
| Strings.LStrip | thisisthesitebuilder/images/build.py:30 | `lstrip(chars)` removes the longest prefix made only of those characters. |
| Strings.StripKeepsCleanEnds | thisisthesitebuilder/images/build.py:30 | A string whose ends are not among the characters is unchanged by `strip`. |
| Strings.Lower | thisisthesitebuilder/where/models.py:53-59 | `lower()` on ASCII capitals: it keeps the length, lowers each ASCII capital and leaves every other character as it is, so no ASCII capital remains. |
| Strings.ReplaceCharPointwise | thisisthesitebuilder/where/models.py:53-59 | Replacing one character by another maps the string position by position. |
| Strings.ReplaceCharRemoves | thisisthesitebuilder/where/models.py:57 | `replace(",", "")` deletes every comma. |
| Strings.ReplaceSuffix | thisisthesitebuilder/where/build.py:57 | `replace(".yaml", "")` on a name whose only ".yaml" is its suffix gives the bare name. |
| Strings.NatToString | thisisthesitebuilder/experiences/models.py:288 | `str(n)`: non-empty decimal digits with no leading zero. |
| Strings.NatToStringRoundTrip | thisisthesitebuilder/experiences/models.py:288 | Reading the digits back gives n. |
| Strings.NatToStringInjective | thisisthesitebuilder/experiences/models.py:288 | Different page numbers are written differently. |
| Occurrences.RepeatsIff | thisisthesitebuilder/images/build.py:50-58 | A key is recorded as non-unique iff it occurs at least twice. |
| Occurrences.FirstOccurrence | thisisthesitebuilder/images/build.py:50-56 | Every item's key has a first occurrence at or before it. |
| Occurrences.Distinct | thisisthesitebuilder/experiences/models.py:154 | `set()` keeps every element once. |
| Json.Load | thisisthesitebuilder/pages/models.py:61-62 | Reading a path: FileNotFoundError iff absent, JSONDecodeError iff malformed, and otherwise the stored value. |
| Json.Index | thisisthesitebuilder/experiences/models.py:67-74 | `d[key]`: the value iff d is an object holding the key, and KeyError iff it is an object without it. |
| Json.Write | thisisthesitebuilder/pages/models.py:133-134 | A written document reads back as itself, and every other path is untouched. |

## Left out

- **I/O collaborators.** The filesystem is a map. Directory listings are sequences in listing order. Opening, reading, `yaml.load` and `json.loads` happen before the model starts, so each file arrives parsed or marked malformed.
- **MD5 and digests.** MD5 (RFC 1321) is the uninterpreted `Env.md5` over the Python value whose `str()` is hashed. No digest is computed, so two different contents are never proved to hash differently.
- **Dates and times.** maya parsing, ISO 8601 formatting, timezone conversion, `strftime` and `slang_date` are collaborators. Parsing gives epoch seconds, or nothing on failure.
- **The `print` calls.** The progress messages in `render`, `compile`, `process_places` and `process_locations` are dropped, as is the warning of `most_significant_experience`.
- Where.Compile: a fetch does not set `map_uri` (where/models.py:105-107). That URL formats the place's floating-point coordinates and is only written into the place record, which is left out. A response with no Content-Type header (a KeyError) is not modelled, because the header is a parameter.
- **Numbers.** `Json.JVal` has integers only (`JNum(n: int)`). YAML floats cannot be represented: a place's `lat` and `lon` (where/models.py:18-23) are not fields of the model's `Place`, and a page context value that is a float, whose `str()` enters the digest at pages/models.py:48, is not modelled.
- WhereBuild.FileLocations: a location file's entries are the items of the decoded YAML mapping, so no time appears twice. PyYAML keeps the last value of a repeated key; the model takes the mapping after that step.
- **HTTP and file writes.** The Mapbox request, the thumbnail write and the place-record write in `Place.compile` (where/models.py:98-126) are left out. The response's Content-Type header is a parameter of `Compile`, and `Compile` returns only the decision and the updated place. `Image.check_existence` and `checksum_of_unchanged_file` are filesystem checks and are left out too.
- **Page templates.** `get_template`, template rendering, the Markdown/Django body parser and `str()` of context values are the `PageTools` collaborators. The page-specific template exists iff its name is in the given set.
- **Other modules.** pages/build.py, images/image_parser.py, where/location.py, utils/questions.py, the templatetags modules, utils/yaml_loader.py, pages/parsers.py and utils/file_utils.py are not part of this model. They are I/O glue, interactive prompts, image processing or library wrappers.
- **Display-only members.** `Era.__str__`, `pretty_name`, `url` and `MultimediaCollection.__str__` only format strings for display. `Place.filename`/`thumb_path` only join paths. `set_storage_url_path`/`set_instance_template` set class attributes; the storage path is the `Option<string>` argument of `Images.UrlPath`.
- **Identity and hashing of objects.** Python compares places, locations and eras by object identity. The model compares them by value, and gives each place the name it is filed under, which is unique in one build. `set()` is modelled as de-duplication in first-occurrence order. Its iteration order could show only between locations with equal string forms, and those sort stably.
- **Shared mutation.** Python shares objects between eras and mutates them in place. The model returns the results as values instead:
  - `apply_images` sets `image.is_used`: `ExperienceMedia.MarkUsed` gives the set of used media.
  - `apply_images` appends to the sub-experiences' `images`: `ApplyImages` returns one list per sub-experience.
  - `apply_locations` registers an experience on the locations it lists, through `add_location`: `Experiences.ApplyLocationsRegistering` returns the registry of every location's `used_in_experiences` (`Experiences.UsedIn`).
- **Ledger.Absorb** and **Ledger.AbsorbHappenings** use `Experiences.ApplyLocations` and do not return the registry. The registrations one era makes are stated by `Experiences.ApplyLocationsRegistering` and `Experiences.ApplyLocationsRegisters`.
- Experiences.ApplyLocations: returns the two location lists and the digest, not the registrations. `Experiences.ApplyLocationsRegistering` adds them.
- Where.NewLocation: the empty `used_in_experiences` a location starts with is not a field of the `Location` value. It is the location's absence from the registry, stated by `Experiences.NewLocationUnused`.
- Strings.Lower: lowers ASCII capitals only. Python's `str.lower()` also lowers non-ASCII capitals ("Ö" to "ö"), and may turn one character into several ("İ" becomes two). Unicode case mapping is not modelled.
- Where.Slug: lowers with the ASCII-only `Strings.Lower`. A name with non-ASCII capitals keeps them in the model's slug, where Python would lower them.
- Where.SlugCharacters: "letters are lowered" and "no capital" hold for ASCII capitals only, because the lowering is `Strings.Lower`.
- Where.SmallSlugCharacters: "clean" and "keeps the length" rest on the ASCII-only `Strings.Lower`. Python's `lower()` can lengthen a name with "İ".
- Where.BigSlugCharacters: "clean" rests on the ASCII-only `Strings.Lower`.
- ExperienceLayout.WhatChanged: a recorded five-key object with an empty-string key is treated as failing. Python would unpack it, but which flag gets the one falsy key depends on key order, which the decoded-JSON model does not keep. The builder itself always records a list.
- **Partial state on exceptions.** When a Python method raises half-way, the attributes it set before stay set. The model returns only the error and the unchanged inputs.
- **Re-absorbing.** `absorb_happenings` appends to the era's lists. Calling it twice on the same object would duplicate them. The model always absorbs into a fresh era, as the builder does.
- ExperienceLayout.LayoutGroups: its own contract states only lengths, locations and the column bounds. The exact columns, and the carry of the column from one experience to the next, are stated by `ExperienceLayout.LayoutGroupsPlaced`.
- MediaCollections.ParseDaysFails: a day file is modelled as a list of objects with string values, or as malformed. Other decoded shapes are not representable. In Python a list item that is not an object, or a top-level number or null, raises TypeError; a top-level `{}` gives no media; a non-empty top-level object raises TypeError; and a string `tags` value is matched by substring (experiences/models.py:323).
- MediaCollections.ParseDays: the ValueError text stops at the file name. Python appends ": " and the decoder's message, which depends on the JSON library.
- Pages.CurrentChecksum: context keys are strings only. A YAML mapping that mixes integer and string keys would make `sorted` raise TypeError (pages/models.py:48), and that case is not modelled.
- **Known-broken paths.** Raising a bare string at experiences/models.py:115 becomes a parse failure. The misspelled `_significacne` at where/models.py:148 becomes an AttributeError.
- **Python truthiness.** `Truthy` follows Python for the JSON values that can occur. The conflation of `1` with `True` in dictionary keys is not modelled.
- **Pages.Render**: its own contract states only the unbuilt-context failure. The skip, rebuild and write behaviour is stated by the lemmas named `Render…`, `SkipChangesNothing`, `ForcedRenderRebuilds`, `FirstRenderRebuilds` and `ReadBackChecksum`.
- **Experiences.Places**: its own contract states only that the places are distinct. Membership is stated by `Experiences.PlacesMembers` and order by `Experiences.PlacesInSortedOrder`. Python sorts the iteration order of a `set`, which is arbitrary; the model sorts the distinct locations in first-occurrence order with a stable sort, so only locations whose strings are equal can be ordered differently from a given Python run.
- **ExperienceLayout.PreviousGroup / ExperienceLayout.FollowingGroup**: their own contracts state only the failure case. The values are stated by `ExperienceLayout.NavigationOfDistinctGroups`, for group lists without duplicates. With duplicate groups, `list.index` finds the first equal group, and that case is not stated beyond `ExperienceLayout.IndexOf`.
- **The comment on 40 weeks.** The comment at utils/datetime_formatting.py:4 says "More than 40 weeks" but the constant is 45 weeks. The model follows the constant, and `DateFormatting.BoundarySpans` shows that a span of 40 weeks plus a second gets no year.

## Findings

| source | as written | input that shows it | evidently intended | confidence | as-written member | corrected member |
|---|---|---|---|---|---|---|
| thisisthesitebuilder/pages/models.py:97-104 | With no truthy `body_content` in the page YAML, the code builds the body file name from `self.data_dir`. `Page` never sets `data_dir` (it lives in `build_meta['data_dir']`), so this raises AttributeError. The surrounding `except FileNotFoundError` does not catch it. | A page "about" whose YAML is `{}` | Read `<data_dir>/authored/pages/about-body.md` from the build's data directory, and use an empty body when that file is missing | not executed | Pages.UpdateFromYamlAsWritten, Pages.DataDirCounterexample | Pages.UpdateFromYaml, Pages.UpdateFromYamlAgrees |

=== FILE: date_formatting.dfy ===
/** `month_day_maybe_year(dt1, dt2)` (thisisthesitebuilder/utils/datetime_formatting.py):
    the first moment is written as month and day, with the year added only when
    the second moment lies more than 45 weeks after it.

    Moments are whole seconds since the epoch; converting to New York time and
    `strftime` are the caller's `render` collaborator.
 */
module DateFormatting {

  const SecondsPerWeek: int := 60 * 60 * 24 * 7

  /** 45 weeks in seconds (the source's comment speaks of 40 weeks; the constant
      it uses is 45). */
  const YearThreshold: int := SecondsPerWeek * 45

  const WithYear: string := "%b %d %Y"
  const WithoutYear: string := "%b %d"

  /** The format chosen for a span from `epoch1` to `epoch2`. */
  function ChooseFormat(epoch1: int, epoch2: int): (f: string)
    ensures f == WithYear || f == WithoutYear
  {
    if epoch2 - epoch1 > YearThreshold then WithYear else WithoutYear
  }

  /** The first moment rendered in the chosen format; the second moment only
      decides the format. */
  function MonthDayMaybeYear(render: (int, string) -> string, epoch1: int, epoch2: int): (r: string)
    ensures exists f | f == WithYear || f == WithoutYear :: r == render(epoch1, f)
  {
    render(epoch1, ChooseFormat(epoch1, epoch2))
  }

  /** The year is shown exactly when the span is at least 27,216,001 seconds,
      one second beyond 45 weeks. */
  lemma YearShownIff(epoch1: int, epoch2: int)
    ensures ChooseFormat(epoch1, epoch2) == WithYear <==> epoch2 - epoch1 >= 27216001
    ensures ChooseFormat(epoch1, epoch2) == WithoutYear <==> epoch2 - epoch1 <= 27216000
  {
  }

  /** A span of exactly 45 weeks, and any span that runs backwards, leaves the
      year out; a span between 40 and 45 weeks leaves it out too. */
  lemma BoundarySpans(epoch1: int)
    ensures ChooseFormat(epoch1, epoch1 + 45 * SecondsPerWeek) == WithoutYear
    ensures ChooseFormat(epoch1, epoch1 + 45 * SecondsPerWeek + 1) == WithYear
    ensures ChooseFormat(epoch1, epoch1 + 40 * SecondsPerWeek + 1) == WithoutYear
    ensures forall epoch2 | epoch2 < epoch1 :: ChooseFormat(epoch1, epoch2) == WithoutYear
  {
  }

  /** Only the span matters: moving both moments by the same amount keeps the
      format, and a longer span never drops a year a shorter one showed. */
  lemma FormatDependsOnSpan(epoch1: int, epoch2: int, shift: int, longer: int)
    requires longer >= epoch2
    ensures ChooseFormat(epoch1 + shift, epoch2 + shift) == ChooseFormat(epoch1, epoch2)
    ensures ChooseFormat(epoch1, epoch2) == WithYear ==> ChooseFormat(epoch1, longer) == WithYear
  {
  }

  /** Two second moments on the same side of the threshold give the same text. */
  lemma SecondMomentOnlyChoosesFormat(render: (int, string) -> string, epoch1: int, epoch2: int, epoch3: int)
    requires (epoch2 - epoch1 > YearThreshold) == (epoch3 - epoch1 > YearThreshold)
    ensures MonthDayMaybeYear(render, epoch1, epoch2) == MonthDayMaybeYear(render, epoch1, epoch3)
  {
  }
}

=== FILE: experience_layout.dfy ===
/** How experiences are laid out on pages (thisisthesitebuilder/experiences/models.py):
    the three-column placement of the locations of intersecting experiences,
    the "what changed" line, and the pagination of eras into groups.
 */
module ExperienceLayout {
  import opened Wrappers
  import opened Strings
  import opened Json
  import opened Where
  import opened Experiences

  // ---------------------------------------------------------------------------
  // locations_from_intersecting_experiences
  // ---------------------------------------------------------------------------

  /** A location with the column (1 to 3) it is shown in, and whether a new
      row must be started before it. */
  datatype Placement = Placement(location: Location, position: int, mustClear: bool)

  /** A group of two or three locations that would start after column 2 of a
      row is moved to a fresh row. */
  predicate MustClear(position: int, counter: nat, count: nat)
  {
    position - counter > 2 && 1 < count < 4
  }

  /** Places `ls[counter..]`, starting in column `position`; gives the
      placements and the column the next location would take. */
  function PlaceRun(ls: seq<Location>, counter: nat, position: int): (r: (seq<Placement>, int))
    requires counter <= |ls|
    ensures |r.0| == |ls| - counter
    ensures forall k | 0 <= k < |r.0| :: r.0[k].location == ls[counter + k]
    ensures 1 <= position <= 3 ==> 1 <= r.1 <= 3 && forall k | 0 <= k < |r.0| :: 1 <= r.0[k].position <= 3
    decreases |ls| - counter
  {
    if counter == |ls| then ([], position)
    else
      var clear := MustClear(position, counter, |ls|);
      var p := if clear then 1 else position;
      var next := if p == 3 then 1 else p + 1;
      var rest := PlaceRun(ls, counter + 1, next);
      var r := ([Placement(ls[counter], p, clear)] + rest.0, rest.1);
      assert forall k | 0 < k < |r.0| :: r.0[k] == rest.0[k - 1];
      r
  }

  /** The placement loop over the experiences: the column carries over from one
      experience to the next. */
  function LayoutGroups(groups: seq<(Era, seq<Location>)>, position: int): (r: (seq<(Era, seq<Placement>)>, int))
    ensures |r.0| == |groups|
    ensures forall g | 0 <= g < |groups| :: r.0[g].0 == groups[g].0 && |r.0[g].1| == |groups[g].1|
    ensures 1 <= position <= 3 ==> 1 <= r.1 <= 3
  {
    if |groups| == 0 then ([], position)
    else
      var run := PlaceRun(groups[0].1, 0, position);
      var rest := LayoutGroups(groups[1..], run.1);
      var r := ([(groups[0].0, run.0)] + rest.0, rest.1);
      assert forall g | 1 <= g < |groups| :: r.0[g] == rest.0[g - 1] && groups[g] == groups[1..][g - 1];
      r
  }

  /** The column after `p`. */
  function Succ(p: int): int
  {
    if p == 3 then 1 else p + 1
  }

  /** `ps` places `ls` in order, in columns 1..3, clearing a row only before
      the first location of a run of two or three, which then takes column 1. */
  predicate WellPlaced(ls: seq<Location>, ps: seq<Placement>)
  {
    && |ps| == |ls|
    && forall k | 0 <= k < |ps| ::
      && ps[k].location == ls[k]
      && 1 <= ps[k].position <= 3
      && (ps[k].mustClear ==> k == 0 && ps[k].position == 1 && 2 <= |ls| <= 3)
  }

  /** Placing a run from a column in 1..3: every location keeps its place in
      the run, columns stay in 1..3, and a row is cleared exactly before the
      first location of a run of two or three that would start in column 3. */
  lemma {:induction false} PlaceRunShape(ls: seq<Location>, counter: nat, position: int)
    requires counter <= |ls| && 1 <= position <= 3
    ensures var r := PlaceRun(ls, counter, position);
      && |r.0| == |ls| - counter
      && 1 <= r.1 <= 3
      && (forall k | 0 <= k < |r.0| :: r.0[k].location == ls[counter + k] && 1 <= r.0[k].position <= 3)
      && (forall k | 0 <= k < |r.0| ::
            r.0[k].mustClear <==> counter + k == 0 && position == 3 && 2 <= |ls| <= 3)
      && (forall k | 0 <= k < |r.0| :: r.0[k].mustClear ==> r.0[k].position == 1)
    decreases |ls| - counter
  {
    if counter < |ls| {
      var clear := MustClear(position, counter, |ls|);
      var p := if clear then 1 else position;
      PlaceRunShape(ls, counter + 1, Succ(p));
      var rest := PlaceRun(ls, counter + 1, Succ(p));
      var r := PlaceRun(ls, counter, position);
      assert r.0 == [Placement(ls[counter], p, clear)] + rest.0;
      assert forall k | 0 < k < |r.0| :: r.0[k] == rest.0[k - 1];
    }
  }

  /** A run starts in the given column unless the row is cleared. */
  lemma PlaceRunStart(ls: seq<Location>, counter: nat, position: int)
    requires counter < |ls|
    ensures PlaceRun(ls, counter, position).0[0].position == (if MustClear(position, counter, |ls|) then 1 else position)
  {
  }

  /** Within a run each column is the one after its predecessor's. */
  lemma {:induction false} PlaceRunSteps(ls: seq<Location>, counter: nat, position: int)
    requires counter <= |ls| && 1 <= position <= 3
    ensures var r := PlaceRun(ls, counter, position);
      forall k | 0 < k < |r.0| :: r.0[k].position == Succ(r.0[k - 1].position)
    decreases |ls| - counter
  {
    if counter < |ls| {
      var clear := MustClear(position, counter, |ls|);
      var p := if clear then 1 else position;
      var next := Succ(p);
      PlaceRunSteps(ls, counter + 1, next);
      var rest := PlaceRun(ls, counter + 1, next);
      var r := PlaceRun(ls, counter, position);
      assert r.0 == [Placement(ls[counter], p, clear)] + rest.0;
      if |rest.0| > 0 {
        PlaceRunStart(ls, counter + 1, next);
        assert !MustClear(next, counter + 1, |ls|);
      }
      assert forall k | 0 < k < |r.0| :: r.0[k] == rest.0[k - 1];
    }
  }

  /** A run hands on the column after its last location's. */
  lemma {:induction false} PlaceRunNext(ls: seq<Location>, counter: nat, position: int)
    requires counter <= |ls| && 1 <= position <= 3
    ensures var r := PlaceRun(ls, counter, position);
      r.1 == (if |r.0| == 0 then position else Succ(r.0[|r.0| - 1].position))
    decreases |ls| - counter
  {
    if counter < |ls| {
      var clear := MustClear(position, counter, |ls|);
      var p := if clear then 1 else position;
      var next := Succ(p);
      PlaceRunNext(ls, counter + 1, next);
      var rest := PlaceRun(ls, counter + 1, next);
      var r := PlaceRun(ls, counter, position);
      assert r.0 == [Placement(ls[counter], p, clear)] + rest.0;
      assert r.1 == rest.1;
    }
  }

  /** Columns advance cyclically 1, 2, 3, 1, ... through a run, starting from
      the given column unless the row is cleared, and the run hands on the
      column after its last location. */
  lemma PlaceRunCycles(ls: seq<Location>, counter: nat, position: int)
    requires counter <= |ls| && 1 <= position <= 3
    ensures var r := PlaceRun(ls, counter, position);
      && (|r.0| > 0 ==> r.0[0].position == (if MustClear(position, counter, |ls|) then 1 else position))
      && (forall k | 0 < k < |r.0| :: r.0[k].position == Succ(r.0[k - 1].position))
      && r.1 == (if |r.0| == 0 then position else Succ(r.0[|r.0| - 1].position))
  {
    if counter < |ls| {
      PlaceRunStart(ls, counter, position);
    }
    PlaceRunSteps(ls, counter, position);
    PlaceRunNext(ls, counter, position);
  }

  lemma PlaceRunWellPlaced(ls: seq<Location>, position: int)
    requires 1 <= position <= 3
    ensures WellPlaced(ls, PlaceRun(ls, 0, position).0)
    ensures 1 <= PlaceRun(ls, 0, position).1 <= 3
  {
    PlaceRunShape(ls, 0, position);
  }

  /** `ps` is exactly how a run `ls` is placed when it is handed column `q`: a
      row is cleared before the first location exactly when the run has two or
      three locations and would start in column 3; the first location takes
      column 1 after a clear and `q` otherwise, and each later one the column
      after its predecessor's. */
  predicate RunPlaced(ls: seq<Location>, ps: seq<Placement>, q: int)
  {
    && |ps| == |ls|
    && forall k | 0 <= k < |ps| :: PlacedAt(ls, ps, q, k)
  }

  /** The `k`-th placement of a run placed from column `q`. */
  predicate PlacedAt(ls: seq<Location>, ps: seq<Placement>, q: int, k: int)
    requires |ps| == |ls| && 0 <= k < |ps|
  {
    && ps[k].location == ls[k]
    && (ps[k].mustClear <==> k == 0 && q == 3 && 2 <= |ls| <= 3)
    && ps[k].position == (if k == 0 then (if ps[k].mustClear then 1 else q) else Succ(ps[k - 1].position))
  }

  /** The column a placed run hands on to the next experience. */
  function HandOn(q: int, ps: seq<Placement>): int
  {
    if |ps| == 0 then q else Succ(ps[|ps| - 1].position)
  }

  /** A run placed from a column in 1..3 is placed as `RunPlaced` says, and hands
      on the column after its last one. */
  lemma PlaceRunPlaced(ls: seq<Location>, q: int)
    requires 1 <= q <= 3
    ensures RunPlaced(ls, PlaceRun(ls, 0, q).0, q)
    ensures PlaceRun(ls, 0, q).1 == HandOn(q, PlaceRun(ls, 0, q).0)
  {
    PlaceRunShape(ls, 0, q);
    PlaceRunCycles(ls, 0, q);
  }

  /** `RunPlaced` leaves no choice: it describes one placement only. */
  lemma RunPlacedUnique(ls: seq<Location>, ps1: seq<Placement>, ps2: seq<Placement>, q: int)
    requires RunPlaced(ls, ps1, q) && RunPlaced(ls, ps2, q)
    ensures ps1 == ps2
  {
    var k := 0;
    while k < |ps1|
      invariant 0 <= k <= |ps1|
      invariant forall m | 0 <= m < k :: ps1[m] == ps2[m]
    {
      assert PlacedAt(ls, ps1, q, k) && PlacedAt(ls, ps2, q, k);
      if k > 0 {
        assert ps1[k - 1] == ps2[k - 1];
      }
      k := k + 1;
    }
  }

  /** The column handed to experience `g` of a layout started in column `p`:
      `p` for the first, and what the previous one hands on for the others. */
  function Carried(out: seq<(Era, seq<Placement>)>, p: int, g: nat): int
    requires g <= |out|
  {
    if g == 0 then p else HandOn(Carried(out, p, g - 1), out[g - 1].1)
  }

  /** `out` lays out `groups` from column `p`: each experience in its place, its
      locations placed from the column the previous experience handed on. */
  predicate LaidOut(groups: seq<(Era, seq<Location>)>, out: seq<(Era, seq<Placement>)>, p: int)
  {
    && |out| == |groups|
    && forall g | 0 <= g < |groups| :: GroupPlaced(groups, out, p, g)
  }

  /** Experience `g` of `out` keeps its place in `groups` and has its run
      placed from the column carried to it. */
  predicate GroupPlaced(groups: seq<(Era, seq<Location>)>, out: seq<(Era, seq<Placement>)>, p: int, g: int)
    requires |out| == |groups| && 0 <= g < |groups|
  {
    out[g].0 == groups[g].0 && RunPlaced(groups[g].1, out[g].1, Carried(out, p, g))
  }

  /** Dropping the first experience: the second then receives what the first
      handed on. */
  lemma {:induction false} CarriedShift(head: (Era, seq<Placement>), rest: seq<(Era, seq<Placement>)>, p: int, g: nat)
    requires g <= |rest|
    ensures Carried([head] + rest, p, g + 1) == Carried(rest, HandOn(p, head.1), g)
  {
    var out := [head] + rest;
    if g > 0 {
      CarriedShift(head, rest, p, g - 1);
      assert out[g] == rest[g - 1];
    }
  }

  /** Laying out one more experience in front: its run placed from `p`, and
      the rest laid out from the column it hands on. */
  lemma LaidOutCons(groups: seq<(Era, seq<Location>)>, p: int, run: seq<Placement>, rest: seq<(Era, seq<Placement>)>)
    requires |groups| > 0
    requires RunPlaced(groups[0].1, run, p)
    requires LaidOut(groups[1..], rest, HandOn(p, run))
    ensures LaidOut(groups, [(groups[0].0, run)] + rest, p)
    ensures Carried([(groups[0].0, run)] + rest, p, |groups|) == Carried(rest, HandOn(p, run), |groups| - 1)
  {
    var head := (groups[0].0, run);
    var out := [head] + rest;
    forall g | 0 <= g < |groups|
      ensures GroupPlaced(groups, out, p, g)
    {
      if g > 0 {
        LaidOutConsAt(groups, p, run, rest, g);
      }
    }
    CarriedShift(head, rest, p, |groups| - 1);
  }

  /** One experience after the first, in `LaidOutCons`. */
  lemma LaidOutConsAt(groups: seq<(Era, seq<Location>)>, p: int, run: seq<Placement>, rest: seq<(Era, seq<Placement>)>, g: int)
    requires 0 < g < |groups|
    requires LaidOut(groups[1..], rest, HandOn(p, run))
    ensures GroupPlaced(groups, [(groups[0].0, run)] + rest, p, g)
  {
    var head := (groups[0].0, run);
    var out := [head] + rest;
    var c := Carried(rest, HandOn(p, run), g - 1);
    assert Carried(out, p, g) == c by {
      CarriedShift(head, rest, p, g - 1);
    }
    assert out[g] == rest[g - 1];
    assert rest[g - 1].0 == groups[g].0 && RunPlaced(groups[g].1, rest[g - 1].1, c) by {
      assert GroupPlaced(groups[1..], rest, HandOn(p, run), g - 1);
      assert groups[1..][g - 1] == groups[g];
    }
  }

  /** The layout of all the experiences, started in column `p`, places every
      experience's run from the column the previous one handed on, and ends
      with the column the last one hands on. */
  lemma {:induction false} LayoutGroupsPlaced(groups: seq<(Era, seq<Location>)>, p: int)
    requires 1 <= p <= 3
    ensures var r := LayoutGroups(groups, p);
      LaidOut(groups, r.0, p) && r.1 == Carried(r.0, p, |groups|)
  {
    if |groups| > 0 {
      var run := PlaceRun(groups[0].1, 0, p);
      PlaceRunPlaced(groups[0].1, p);
      LayoutGroupsPlaced(groups[1..], run.1);
      var rest := LayoutGroups(groups[1..], run.1);
      assert LayoutGroups(groups, p) == ([(groups[0].0, run.0)] + rest.0, rest.1);
      LaidOutCons(groups, p, run.0, rest.0);
    }
  }

  /** Over all the experiences: each keeps its place and gets its locations
      well placed, and the column carried between them stays in 1..3. */
  lemma {:induction false} LayoutGroupsShape(groups: seq<(Era, seq<Location>)>, position: int)
    requires 1 <= position <= 3
    ensures var r := LayoutGroups(groups, position);
      && |r.0| == |groups|
      && 1 <= r.1 <= 3
      && forall g | 0 <= g < |groups| :: r.0[g].0 == groups[g].0 && WellPlaced(groups[g].1, r.0[g].1)
  {
    if |groups| > 0 {
      var run := PlaceRun(groups[0].1, 0, position);
      PlaceRunWellPlaced(groups[0].1, position);
      LayoutGroupsShape(groups[1..], run.1);
      var r := LayoutGroups(groups, position);
      var rest := LayoutGroups(groups[1..], run.1);
      assert r.0 == [(groups[0].0, run.0)] + rest.0;
      assert forall g | 1 <= g < |groups| :: r.0[g] == rest.0[g - 1] && groups[g] == groups[1..][g - 1];
    }
  }

  /** Each experience's locations, stopping at the first experience whose
      locations cannot be computed. */
  function CollectLocations(eras: seq<Era>, locationsOf: Era -> Result<seq<Location>>)
    : (r: Result<seq<(Era, seq<Location>)>>)
    ensures r.Ok? <==> forall i | 0 <= i < |eras| :: locationsOf(eras[i]).Ok?
    ensures r.Ok? ==> |r.value| == |eras|
    ensures r.Ok? ==> forall i | 0 <= i < |eras| :: r.value[i] == (eras[i], locationsOf(eras[i]).value)
  {
    if |eras| == 0 then Ok([])
    else
      var ls :- locationsOf(eras[0]);
      assert forall i | 1 <= i < |eras| :: eras[i] == eras[1..][i - 1];
      var rest :- CollectLocations(eras[1..], locationsOf);
      Ok([(eras[0], ls)] + rest)
  }

  /** `locations_from_intersecting_experiences()`: the intersecting experiences
      by start, each with its placed locations; `locationsOf` stands for each
      experience's `unique_locations_by_big_name()`. */
  function LocationsFromIntersecting(found: Option<seq<Era>>, locationsOf: Era -> Result<seq<Location>>)
    : (r: Result<seq<(Era, seq<Placement>)>>)
    ensures found.None? ==> r.Err? && r.error.TypeError?
    ensures r.Ok? ==> |r.value| == |Intersection(found).value|
    ensures r.Ok? ==> forall i | 0 <= i < |r.value| ::
      && r.value[i].0 == Intersection(found).value[i]
      && locationsOf(r.value[i].0).Ok?
      && WellPlaced(locationsOf(r.value[i].0).value, r.value[i].1)
    ensures r.Ok? ==>
      && CollectLocations(Intersection(found).value, locationsOf).Ok?
      && LaidOut(CollectLocations(Intersection(found).value, locationsOf).value, r.value, 1)
  {
    var eras :- Intersection(found);
    var groups :- CollectLocations(eras, locationsOf);
    LayoutGroupsShape(groups, 1);
    LayoutGroupsPlaced(groups, 1);
    Ok(LayoutGroups(groups, 1).0)
  }

  // ---------------------------------------------------------------------------
  // what_changed
  // ---------------------------------------------------------------------------

  const StripComma: set<char> := {',', ' '}

  /** The labels of the three kinds of change and the separator between them. */
  const LocationsLabel: string := "locations"
  const TextLabel: string := "text"
  const MediaLabel: string := "images and/or clips"
  const Separator: string := ", "

  /** The labels of the reported changes, in report order. Summaries and
      sub-experiences are recorded but never reported. */
  function ChangedLabels(locations: bool, text: bool, multimedia: bool): seq<string>
  {
    (if locations then [LocationsLabel] else []) +
    (if text then [TextLabel] else []) +
    (if multimedia then [MediaLabel] else [])
  }

  /** A value Python can unpack into exactly five names: a list of five items,
      a string of five characters, or an object with five keys. An object with
      an empty key is left out: which of the five names receives the one falsy
      key depends on the object's key order, which the decoded-JSON model does
      not keep. */
  predicate UnpacksToFive(wc: JVal)
  {
    || (wc.JArr? && |wc.items| == 5)
    || (wc.JStr? && |wc.s| == 5)
    || (wc.JObj? && |wc.fields| == 5 && "" !in wc.fields)
  }

  /** The truthiness of the five unpacked values: a list's items; a string's
      characters and an object's keys, which are non-empty strings and so all
      true. Anything else fails as Python's unpacking does: a scalar is not
      iterable, a collection of another size has the wrong number of values. */
  function UnpackFlags(wc: JVal): (r: Result<seq<bool>>)
    ensures r.Ok? <==> UnpacksToFive(wc)
    ensures r.Ok? ==> |r.value| == 5
    ensures r.Ok? && wc.JArr? ==> forall i | 0 <= i < 5 :: r.value[i] == Truthy(wc.items[i])
    ensures r.Ok? && !wc.JArr? ==> forall i | 0 <= i < 5 :: r.value[i]
    ensures r.Err? && (wc.JNull? || wc.JBool? || wc.JNum?) ==> r.error.TypeError?
  {
    match wc
    case JArr(items) =>
      if |items| == 5 then Ok(seq(5, i requires 0 <= i < 5 => Truthy(items[i])))
      else Err(ValueError("wrong number of values to unpack"))
    case JStr(text) =>
      if |text| == 5 then Ok([true, true, true, true, true])
      else Err(ValueError("wrong number of values to unpack"))
    case JObj(fields) =>
      if |fields| == 5 && "" !in fields then Ok([true, true, true, true, true])
      else Err(ValueError("wrong number of values to unpack"))
    case _ => Err(TypeError("cannot unpack non-iterable object"))
  }

  /** `what_changed()`: unpacks the five recorded flags and lists the labels of
      locations, text and media that changed, comma separated. */
  function WhatChanged(previousMeta: JVal): (r: Result<string>)
    ensures Index(previousMeta, "what_changed").Err? ==> r == Err(Index(previousMeta, "what_changed").error)
    ensures r.Ok? <==>
      && Index(previousMeta, "what_changed").Ok?
      && UnpacksToFive(Index(previousMeta, "what_changed").value)
  {
    var wc :- Index(previousMeta, "what_changed");
    var f :- UnpackFlags(wc);
    var text := (if f[0] then LocationsLabel + Separator else "") +
                (if f[4] then TextLabel + Separator else "") +
                (if f[1] then MediaLabel + Separator else "");
    Ok(RStrip(text, StripComma))
  }

  lemma StripSeparator(s: string)
    requires |s| > 0 && s[|s| - 1] !in StripComma
    ensures RStrip(s + Separator, StripComma) == s
  {
    var t := s + Separator;
    assert t[..|t| - 1] == s + ",";
    assert (s + ",")[..|s|] == s;
  }

  /** Each label followed by ", ". */
  function Suffixed(labels: seq<string>): string
  {
    if |labels| == 0 then "" else labels[0] + Separator + Suffixed(labels[1..])
  }

  lemma {:induction false} SuffixedConcat(a: seq<string>, b: seq<string>)
    ensures Suffixed(a + b) == Suffixed(a) + Suffixed(b)
  {
    if |a| > 0 {
      assert (a + b)[1..] == a[1..] + b;
      SuffixedConcat(a[1..], b);
    } else {
      assert a + b == b;
    }
  }

  /** Labels that end in a character the strip leaves alone. */
  predicate CleanEnds(labels: seq<string>)
  {
    forall i | 0 <= i < |labels| :: |labels[i]| > 0 && labels[i][|labels[i]| - 1] !in StripComma
  }

  lemma {:induction false} SuffixedIsJoin(labels: seq<string>)
    requires |labels| > 0 && CleanEnds(labels)
    ensures Suffixed(labels) == Join(labels, Separator) + Separator
    ensures var j := Join(labels, Separator); |j| > 0 && j[|j| - 1] !in StripComma
  {
    if |labels| > 1 {
      SuffixedIsJoin(labels[1..]);
    }
  }

  lemma ChangedLabelsClean(a: bool, b: bool, c: bool)
    ensures CleanEnds(ChangedLabels(a, b, c))
  {
    var labels := ChangedLabels(a, b, c);
    var L, T, M := LocationsLabel, TextLabel, MediaLabel;
    assert L[|L| - 1] == 's' && T[|T| - 1] == 't' && M[|M| - 1] == 's';
    assert forall i | 0 <= i < |labels| :: labels[i] in {L, T, M};
  }

  /** The line equals the changed labels joined with ", ": stripping the
      trailing separator never eats into a label. A recorded list gives the
      labels of its truthy flags 0, 4 and 1; a five-character string or a
      five-key object unpacks into truthy values only, so it reports all three. */
  lemma WhatChangedJoinsLabels(previousMeta: JVal)
    requires WhatChanged(previousMeta).Ok?
    ensures var wc := Index(previousMeta, "what_changed").value;
      wc.JArr? ==> var f := wc.items;
        WhatChanged(previousMeta).value == Join(ChangedLabels(Truthy(f[0]), Truthy(f[4]), Truthy(f[1])), Separator)
    ensures var wc := Index(previousMeta, "what_changed").value;
      !wc.JArr? ==> WhatChanged(previousMeta).value == Join(ChangedLabels(true, true, true), Separator)
  {
    var f := UnpackFlags(Index(previousMeta, "what_changed").value).value;
    LabelsLine(f[0], f[4], f[1]);
  }

  /** An optional label, suffixed, is the label and the separator or nothing. */
  lemma SuffixedOptional(present: bool, name: string)
    ensures Suffixed(if present then [name] else []) == (if present then name + Separator else "")
  {
    if present {
      assert [name][1..] == [];
    }
  }

  /** The line built from three flags is their labels joined with ", ". */
  lemma LabelsLine(a: bool, b: bool, c: bool)
    ensures RStrip((if a then LocationsLabel + Separator else "") + (if b then TextLabel + Separator else "") +
                   (if c then MediaLabel + Separator else ""), StripComma)
      == Join(ChangedLabels(a, b, c), Separator)
  {
    var la: seq<string> := if a then [LocationsLabel] else [];
    var lb: seq<string> := if b then [TextLabel] else [];
    var lc: seq<string> := if c then [MediaLabel] else [];
    var labels := ChangedLabels(a, b, c);
    assert labels == la + lb + lc;
    SuffixedConcat(la + lb, lc);
    SuffixedConcat(la, lb);
    SuffixedOptional(a, LocationsLabel);
    SuffixedOptional(b, TextLabel);
    SuffixedOptional(c, MediaLabel);
    if |labels| > 0 {
      ChangedLabelsClean(a, b, c);
      SuffixedIsJoin(labels);
      StripSeparator(Join(labels, Separator));
    }
  }

  // ---------------------------------------------------------------------------
  // Eras: pagination into groups
  // ---------------------------------------------------------------------------

  /** A list of groups of eras and the page name its pages are derived from. */
  datatype Eras = Eras(pageName: string, groups: seq<seq<Era>>)

  /** `Eras(page_name)`: starts with one empty group. */
  function NewEras(pageName: string): (r: Eras)
    ensures |r.groups| == 1 && r.groups[0] == [] && r.pageName == pageName
  {
    Eras(pageName, [[]])
  }

  /** `next_group()`: a new empty group becomes the current (last) one. */
  function NextGroup(e: Eras): (r: Eras)
    ensures r.groups == e.groups + [[]] && r.pageName == e.pageName
  {
    e.(groups := e.groups + [[]])
  }

  /** `add_to_group(era)`: appends to the current group, which is always the
      last one. */
  function AddToGroup(e: Eras, era: Era): (r: Eras)
    requires |e.groups| > 0
    ensures |r.groups| == |e.groups| && r.pageName == e.pageName
    ensures r.groups[|e.groups| - 1] == e.groups[|e.groups| - 1] + [era]
    ensures forall i | 0 <= i < |e.groups| - 1 :: r.groups[i] == e.groups[i]
  {
    var n := |e.groups| - 1;
    e.(groups := e.groups[n := e.groups[n] + [era]])
  }

  /** `list.index(group)`: the first position holding an equal group. */
  function IndexOf(groups: seq<seq<Era>>, g: seq<Era>): (r: Option<nat>)
    ensures r.None? <==> g !in groups
    ensures r.Some? ==> r.value < |groups| && groups[r.value] == g
    ensures r.Some? ==> forall j | 0 <= j < r.value :: groups[j] != g
  {
    if |groups| == 0 then None
    else if groups[0] == g then Some(0)
    else
      var rest := IndexOf(groups[1..], g);
      assert forall j | 1 <= j < |groups| :: groups[j] == groups[1..][j - 1];
      if rest.None? then None else Some(rest.value + 1)
  }

  /** The page name of the group at position `i`. */
  function PageNameAt(pageName: string, i: nat): string
  {
    if i == 0 then pageName else pageName + "-page-" + NatToString(i + 1)
  }

  /** `output_filename_for_group(group)`: ValueError for a group not in the list. */
  function OutputFilenameForGroup(e: Eras, g: seq<Era>): (r: Result<string>)
    ensures r.Err? <==> g !in e.groups
    ensures r.Ok? ==> r.value == PageNameAt(e.pageName, IndexOf(e.groups, g).value)
  {
    var i := IndexOf(e.groups, g);
    if i.None? then Err(ValueError("is not in list"))
    else Ok(PageNameAt(e.pageName, i.value))
  }

  /** `output_filename_and_previous_group(group)`: None for the first group. */
  function PreviousGroup(e: Eras, g: seq<Era>): (r: Result<Option<(seq<Era>, string)>>)
    ensures r.Err? <==> g !in e.groups
  {
    var i := IndexOf(e.groups, g);
    if i.None? then Err(ValueError("is not in list"))
    else if i.value == 0 then Ok(None)
    else
      var prev := e.groups[i.value - 1];
      var name := OutputFilenameForGroup(e, prev);
      Ok(Some((prev, name.value)))
  }

  /** `output_filename_and_next_group(group)`: None for the last group. */
  function FollowingGroup(e: Eras, g: seq<Era>): (r: Result<Option<(seq<Era>, string)>>)
    ensures r.Err? <==> g !in e.groups
  {
    var i := IndexOf(e.groups, g);
    if i.None? then Err(ValueError("is not in list"))
    else if i.value + 1 >= |e.groups| then Ok(None)
    else
      var next := e.groups[i.value + 1];
      var name := OutputFilenameForGroup(e, next);
      Ok(Some((next, name.value)))
  }

  /** Groups that differ pairwise. */
  predicate DistinctGroups(groups: seq<seq<Era>>)
  {
    forall i, j | 0 <= i < j < |groups| :: groups[i] != groups[j]
  }

  /** Different positions have different page names. */
  lemma PageNamesDistinct(pageName: string, i: nat, j: nat)
    requires i != j
    ensures PageNameAt(pageName, i) != PageNameAt(pageName, j)
  {
    if i > 0 && j > 0 {
      var a, b := NatToString(i + 1), NatToString(j + 1);
      var p := pageName + "-page-";
      if p + a == p + b {
        assert a == (p + a)[|p|..];
        assert b == (p + b)[|p|..];
        NatToStringInjective(i + 1, j + 1);
      }
    } else if i > 0 {
      assert |PageNameAt(pageName, i)| > |pageName|;
    } else {
      assert |PageNameAt(pageName, j)| > |pageName|;
    }
  }

  /** With distinct groups, each group gets its own page name, its position's
      name, and the previous and next links point at the neighbouring groups
      under their own names. */
  lemma NavigationOfDistinctGroups(e: Eras, i: int)
    requires DistinctGroups(e.groups)
    requires 0 <= i < |e.groups|
    ensures OutputFilenameForGroup(e, e.groups[i]) == Ok(PageNameAt(e.pageName, i))
    ensures i == 0 ==> PreviousGroup(e, e.groups[i]) == Ok(None)
    ensures i > 0 ==>
      PreviousGroup(e, e.groups[i]) == Ok(Some((e.groups[i - 1], PageNameAt(e.pageName, i - 1))))
    ensures i + 1 == |e.groups| ==> FollowingGroup(e, e.groups[i]) == Ok(None)
    ensures i + 1 < |e.groups| ==>
      FollowingGroup(e, e.groups[i]) == Ok(Some((e.groups[i + 1], PageNameAt(e.pageName, i + 1))))
  {
    forall k | 0 <= k < |e.groups| ensures IndexOf(e.groups, e.groups[k]) == Some(k) {
      var r := IndexOf(e.groups, e.groups[k]);
      assert r.value <= k;
    }
  }

  /** With distinct groups, no two groups share a page name. */
  lemma OutputFilenamesDistinct(e: Eras, i: int, j: int)
    requires DistinctGroups(e.groups)
    requires 0 <= i < j < |e.groups|
    ensures OutputFilenameForGroup(e, e.groups[i]).value != OutputFilenameForGroup(e, e.groups[j]).value
  {
    NavigationOfDistinctGroups(e, i);
    NavigationOfDistinctGroups(e, j);
    PageNamesDistinct(e.pageName, i, j);
  }
}

=== FILE: experience_media.dfy ===
/** The media and summaries an experience absorbs
    (thisisthesitebuilder/experiences/models.py): which photos and clips fall
    inside its open window, which of them go to its sub-experiences by tag, the
    summaries of the days inside the window, and the recursive media count.
 */
module ExperienceMedia {
  import opened Wrappers
  import opened Sorting
  import opened Json
  import opened Collaborators
  import opened Images
  import opened MediaCollections
  import opened Experiences

  // ---------------------------------------------------------------------------
  // apply_images
  // ---------------------------------------------------------------------------

  /** A medium with the day it is filed under. */
  datatype DatedMedium = DatedMedium(day: string, medium: Multimedia)

  function Stamp(day: string, ms: seq<Multimedia>): (r: seq<DatedMedium>)
    ensures |r| == |ms|
    ensures forall i | 0 <= i < |ms| :: r[i] == DatedMedium(day, ms[i])
  {
    if |ms| == 0 then [] else [DatedMedium(day, ms[0])] + Stamp(day, ms[1..])
  }

  /** Every medium of the intertwined collection, day by day in `by_date()`
      order. */
  function Dated(days: seq<DayMedia>): seq<DatedMedium>
  {
    if |days| == 0 then [] else Stamp(days[0].day, days[0].media) + Dated(days[1..])
  }

  /** The text handed to the date parser: day, "T", time of day, UTC offset. */
  function MediumText(env: Env, d: DatedMedium): string
  {
    d.day + "T" + d.medium.time + env.utcOffset
  }

  predicate MediumParses(env: Env, d: DatedMedium)
  {
    env.parse(MediumText(env, d)).Some?
  }

  predicate MediumWithin(env: Env, era: Era, d: DatedMedium)
  {
    var t := env.parse(MediumText(env, d));
    t.Some? && InOpen(era, t.value)
  }

  function MediumWithinTest(env: Env, era: Era): DatedMedium -> bool
  {
    d => MediumWithin(env, era, d)
  }

  function MediumOf(d: DatedMedium): Multimedia { d.medium }

  /** The first medium whose date text does not parse. */
  function FirstUnparsableMedium(env: Env, ds: seq<DatedMedium>): (r: Option<string>)
    ensures r.None? <==> forall i | 0 <= i < |ds| :: MediumParses(env, ds[i])
    ensures r.Some? ==> exists i | 0 <= i < |ds| :: !MediumParses(env, ds[i]) && r.value == MediumText(env, ds[i])
  {
    if |ds| == 0 then None
    else if !MediumParses(env, ds[0]) then Some(MediumText(env, ds[0]))
    else
      assert forall i | 1 <= i < |ds| :: ds[i] == ds[1..][i - 1];
      FirstUnparsableMedium(env, ds[1..])
  }

  /** The media inside the open window, in `by_date()` order. */
  function WindowMedia(env: Env, era: Era, days: seq<DayMedia>): seq<Multimedia>
  {
    MapSeq(MediumOf, Filter(MediumWithinTest(env, era), Dated(days)))
  }

  /** How many of a sub-experience's tags the medium carries: the medium is
      appended once per such tag. */
  function MatchCount(subTags: seq<string>, mediumTags: seq<string>): nat
  {
    if |subTags| == 0 then 0
    else (if subTags[0] in mediumTags then 1 else 0) + MatchCount(subTags[1..], mediumTags)
  }

  lemma {:induction false} MatchCountPositive(subTags: seq<string>, mediumTags: seq<string>)
    ensures MatchCount(subTags, mediumTags) > 0 <==> exists t | t in subTags :: t in mediumTags
  {
    if |subTags| > 0 {
      MatchCountPositive(subTags[1..], mediumTags);
      assert forall t | t in subTags :: t == subTags[0] || t in subTags[1..];
    }
  }

  function Repeat(m: Multimedia, n: nat): (r: seq<Multimedia>)
    ensures |r| == n && forall i | 0 <= i < n :: r[i] == m
  {
    if n == 0 then [] else [m] + Repeat(m, n - 1)
  }

  /** What a sub-experience with these tags receives from `all`. */
  function SubMedia(all: seq<Multimedia>, subTags: seq<string>): seq<Multimedia>
  {
    if |all| == 0 then []
    else Repeat(all[0], MatchCount(subTags, all[0].tags)) + SubMedia(all[1..], subTags)
  }

  /** Some sub-experience shares a tag with the medium. */
  predicate Routed(subs: seq<Era>, m: Multimedia)
  {
    exists j | 0 <= j < |subs| :: MatchCount(subs[j].tags, m.tags) > 0
  }

  function OwnTest(subs: seq<Era>): Multimedia -> bool
  {
    m => !Routed(subs, m)
  }

  /** Each distinguisher, stopping at the first medium that has none. */
  function Distinguishers(ms: seq<Multimedia>): (r: Result<seq<string>>)
    ensures r.Err? <==> exists i | 0 <= i < |ms| :: ms[i].kind.Base?
    ensures r.Err? ==> r.error.RuntimeError?
    ensures r.Ok? ==> |r.value| == |ms| && forall i | 0 <= i < |ms| :: r.value[i] == Distinguisher(ms[i]).value
  {
    if |ms| == 0 then Ok([])
    else
      var d :- Distinguisher(ms[0]);
      assert forall i | 1 <= i < |ms| :: ms[i] == ms[1..][i - 1];
      var rest :- Distinguishers(ms[1..]);
      Ok([d] + rest)
  }

  /** The outcome of `apply_images()`: the media inside the window (each marked
      as used), the ones kept by the experience itself, what each
      sub-experience receives, and the digest. */
  datatype ImagesApplied = ImagesApplied(
    all: seq<Multimedia>,
    own: seq<Multimedia>,
    perSub: seq<seq<Multimedia>>,
    digest: JVal)

  /** `apply_images()`: a plain era absorbs no media and has no digest. */
  function ApplyImages(env: Env, era: Era, days: seq<DayMedia>): (r: Result<ImagesApplied>)
    ensures r.Ok? ==> |r.value.perSub| == |era.subs|
    ensures era.kind.PlainEra? ==> r == Ok(ImagesApplied([], [], seq(|era.subs|, _ => []), JNull))
  {
    if era.kind.PlainEra? then Ok(ImagesApplied([], [], seq(|era.subs|, _ => []), JNull))
    else
      var bad := FirstUnparsableMedium(env, Dated(days));
      if bad.Some? then Err(ParseFailure(bad.value))
      else
        var all := WindowMedia(env, era, days);
        var own := Filter(OwnTest(era.subs), all);
        var perSub := seq(|era.subs|, j requires 0 <= j < |era.subs| => SubMedia(all, era.subs[j].tags));
        var ds :- Distinguishers(all);
        Ok(ImagesApplied(all, own, perSub, JStr(env.md5(StrList(ds)))))
  }

  /** An experience's `apply_images` fails exactly when some medium's date text
      does not parse (the first such text is reported), or, failing that, when a
      medium inside the window is of the base class, which has no
      distinguisher. */
  lemma ApplyImagesFails(env: Env, era: Era, days: seq<DayMedia>)
    requires era.kind.ExperienceEra?
    ensures ApplyImages(env, era, days).Err? <==>
      || (exists i | 0 <= i < |Dated(days)| :: !MediumParses(env, Dated(days)[i]))
      || (exists m | m in WindowMedia(env, era, days) :: m.kind.Base?)
    ensures ApplyImages(env, era, days).Err? ==>
      if forall i | 0 <= i < |Dated(days)| :: MediumParses(env, Dated(days)[i])
      then ApplyImages(env, era, days).error.RuntimeError?
      else ApplyImages(env, era, days).error.ParseFailure?
  {
    var ds := Dated(days);
    if FirstUnparsableMedium(env, ds).None? {
      ApplyImagesAllParse(env, era, days);
    } else {
      var i :| 0 <= i < |ds| && !MediumParses(env, ds[i]);
      assert exists i | 0 <= i < |Dated(days)| :: !MediumParses(env, Dated(days)[i]);
      assert ApplyImages(env, era, days) == Err(ParseFailure(FirstUnparsableMedium(env, ds).value));
    }
  }

  lemma ApplyImagesAllParse(env: Env, era: Era, days: seq<DayMedia>)
    requires era.kind.ExperienceEra? && FirstUnparsableMedium(env, Dated(days)).None?
    ensures ApplyImages(env, era, days).Err? <==> exists m | m in WindowMedia(env, era, days) :: m.kind.Base?
    ensures ApplyImages(env, era, days).Err? ==> ApplyImages(env, era, days).error.RuntimeError?
  {
    var all := WindowMedia(env, era, days);
    assert ApplyImages(env, era, days).Err? <==> Distinguishers(all).Err?;
    assert ApplyImages(env, era, days).Err? ==> ApplyImages(env, era, days).error == Distinguishers(all).error;
    BaseMember(all);
  }

  lemma BaseMember(ms: seq<Multimedia>)
    ensures (exists m | m in ms :: m.kind.Base?) <==> exists i | 0 <= i < |ms| :: ms[i].kind.Base?
  {
    if exists m | m in ms :: m.kind.Base? {
      var m :| m in ms && m.kind.Base?;
      var i :| 0 <= i < |ms| && ms[i] == m;
    }
  }

  /** The value of a successful `apply_images` on an experience; this unfolds
      `ApplyImages` for the proofs below. */
  lemma ApplyImagesValue(env: Env, era: Era, days: seq<DayMedia>)
    requires era.kind.ExperienceEra? && ApplyImages(env, era, days).Ok?
    ensures var a := ApplyImages(env, era, days).value;
      && a.all == WindowMedia(env, era, days)
      && a.own == Filter(OwnTest(era.subs), a.all)
      && (forall j | 0 <= j < |era.subs| :: a.perSub[j] == SubMedia(a.all, era.subs[j].tags))
      && a.digest == JStr(env.md5(StrList(Distinguishers(a.all).value)))
  {
  }

  lemma {:induction false} DatedMembership(days: seq<DayMedia>, d: DatedMedium)
    ensures d in Dated(days) <==> exists i | 0 <= i < |days| :: days[i].day == d.day && d.medium in days[i].media
  {
    if |days| > 0 {
      DatedMembership(days[1..], d);
      assert forall i | 1 <= i < |days| :: days[i] == days[1..][i - 1];
      var s := Stamp(days[0].day, days[0].media);
      if d in s {
        var k :| 0 <= k < |s| && s[k] == d;
      }
      if d.medium in days[0].media && d.day == days[0].day {
        var k :| 0 <= k < |days[0].media| && days[0].media[k] == d.medium;
        assert s[k] == d;
      }
    }
  }

  /** The window media are exactly the media filed under some day whose instant
      lies strictly inside the era. */
  lemma WindowMediaMembers(env: Env, era: Era, days: seq<DayMedia>, m: Multimedia)
    ensures m in WindowMedia(env, era, days) <==>
      exists i | 0 <= i < |days| :: m in days[i].media && MediumWithin(env, era, DatedMedium(days[i].day, m))
  {
    var f := Filter(MediumWithinTest(env, era), Dated(days));
    if m in WindowMedia(env, era, days) {
      var k :| 0 <= k < |f| && f[k].medium == m;
      assert f[k] in f;
      DatedMembership(days, f[k]);
    }
    if exists i | 0 <= i < |days| :: m in days[i].media && MediumWithin(env, era, DatedMedium(days[i].day, m)) {
      var i :| 0 <= i < |days| && m in days[i].media && MediumWithin(env, era, DatedMedium(days[i].day, m));
      DatedMembership(days, DatedMedium(days[i].day, m));
      var k :| 0 <= k < |f| && f[k] == DatedMedium(days[i].day, m);
      assert MapSeq(MediumOf, f)[k] == m;
    }
  }

  /** A sub-experience receives each window medium once per tag of its own
      that the medium carries. */
  lemma {:induction false} SubMediaMultiplicity(all: seq<Multimedia>, subTags: seq<string>, m: Multimedia)
    ensures multiset(SubMedia(all, subTags))[m] == multiset(all)[m] * MatchCount(subTags, m.tags)
  {
    if |all| > 0 {
      var c := MatchCount(subTags, m.tags);
      var k := multiset(all[1..])[m];
      var n := MatchCount(subTags, all[0].tags);
      SubMediaMultiplicity(all[1..], subTags, m);
      RepeatMultiplicity(all[0], n, m);
      ConcatCount(Repeat(all[0], n), SubMedia(all[1..], subTags), m);
      ConsCount(all, m);
      if all[0] == m {
        OneMore(k, c);
      }
    }
  }

  lemma ConcatCount(a: seq<Multimedia>, b: seq<Multimedia>, m: Multimedia)
    ensures multiset(a + b)[m] == multiset(a)[m] + multiset(b)[m]
  {
  }

  lemma ConsCount(s: seq<Multimedia>, m: Multimedia)
    requires |s| > 0
    ensures multiset(s)[m] == (if s[0] == m then 1 else 0) + multiset(s[1..])[m]
  {
    assert s == [s[0]] + s[1..];
  }

  lemma OneMore(k: nat, c: nat)
    ensures (1 + k) * c == c + k * c
  {
  }

  lemma PositiveProduct(a: nat, b: nat)
    requires a >= 1 && b >= 1
    ensures a * b >= 1
  {
  }

  lemma {:induction false} RepeatMultiplicity(x: Multimedia, n: nat, m: Multimedia)
    ensures multiset(Repeat(x, n))[m] == if x == m then n else 0
  {
    if n > 0 {
      RepeatMultiplicity(x, n - 1, m);
      assert Repeat(x, n) == [x] + Repeat(x, n - 1);
    }
  }

  /** Tag routing, first half: a window medium stays with the experience
      exactly when no sub-experience shares a tag with it. */
  lemma OwnImages(env: Env, era: Era, days: seq<DayMedia>, m: Multimedia)
    requires era.kind.ExperienceEra? && ApplyImages(env, era, days).Ok?
    ensures var a := ApplyImages(env, era, days).value;
      m in a.own <==> m in a.all && forall j | 0 <= j < |era.subs| :: MatchCount(era.subs[j].tags, m.tags) == 0
  {
    ApplyImagesValue(env, era, days);
  }

  /** Tag routing, second half: each sub-experience receives a window medium
      once per tag of its own that the medium carries. */
  lemma SubImages(env: Env, era: Era, days: seq<DayMedia>, j: int, m: Multimedia)
    requires era.kind.ExperienceEra? && ApplyImages(env, era, days).Ok?
    requires 0 <= j < |era.subs|
    ensures var a := ApplyImages(env, era, days).value;
      multiset(a.perSub[j])[m] == multiset(a.all)[m] * MatchCount(era.subs[j].tags, m.tags)
  {
    ApplyImagesValue(env, era, days);
    SubMediaMultiplicity(ApplyImages(env, era, days).value.all, era.subs[j].tags, m);
  }

  /** No window medium is lost: it stays with the experience or goes to some
      sub-experience. */
  lemma ImagesCovered(env: Env, era: Era, days: seq<DayMedia>, m: Multimedia)
    requires era.kind.ExperienceEra? && ApplyImages(env, era, days).Ok?
    ensures var a := ApplyImages(env, era, days).value;
      m in a.all ==> m in a.own || exists j | 0 <= j < |era.subs| :: m in a.perSub[j]
  {
    var a := ApplyImages(env, era, days).value;
    OwnImages(env, era, days, m);
    if m in a.all && m !in a.own {
      var j :| 0 <= j < |era.subs| && MatchCount(era.subs[j].tags, m.tags) > 0;
      SubImages(env, era, days, j, m);
      assert multiset(a.all)[m] >= 1;
      PositiveProduct(multiset(a.all)[m], MatchCount(era.subs[j].tags, m.tags));
      assert multiset(a.perSub[j])[m] >= 1;
    }
  }

  /** `image.is_used = True` for each window medium. */
  function MarkUsed(used: set<Multimedia>, a: ImagesApplied): set<Multimedia>
  {
    used + set m | m in a.all
  }

  // ---------------------------------------------------------------------------
  // apply_summaries
  // ---------------------------------------------------------------------------

  /** A dictionary read as its pairs in iteration order: keys differ. */
  predicate DistinctKeys(pairs: seq<(string, string)>)
  {
    forall i, j | 0 <= i < j < |pairs| :: pairs[i].0 != pairs[j].0
  }

  predicate SummaryWithin(env: Env, era: Era, p: (string, string))
  {
    var t := env.parse(p.0);
    t.Some? && InOpen(era, t.value)
  }

  function SummaryTest(env: Env, era: Era): ((string, string)) -> bool
  {
    p => SummaryWithin(env, era, p)
  }

  datatype SummariesApplied = SummariesApplied(summaries: seq<(string, string)>, digest: JVal)

  /** The first day whose text does not parse. */
  function FirstUnparsableDay(env: Env, pairs: seq<(string, string)>): (r: Option<string>)
    ensures r.None? <==> forall i | 0 <= i < |pairs| :: env.parse(pairs[i].0).Some?
    ensures r.Some? ==> exists i | 0 <= i < |pairs| :: env.parse(pairs[i].0).None? && r.value == pairs[i].0
  {
    if |pairs| == 0 then None
    else if env.parse(pairs[0].0).None? then Some(pairs[0].0)
    else
      assert forall i | 1 <= i < |pairs| :: pairs[i] == pairs[1..][i - 1];
      FirstUnparsableDay(env, pairs[1..])
  }

  /** `apply_summaries()`: the day summaries strictly inside the window, in the
      summaries' own order, and the MD5 of their dictionary's `str()`. A plain
      era keeps none and has no digest. */
  function ApplySummaries(env: Env, era: Era, all: seq<(string, string)>): (r: Result<SummariesApplied>)
    requires DistinctKeys(all)
    ensures r.Err? <==> era.kind.ExperienceEra? && exists i | 0 <= i < |all| :: env.parse(all[i].0).None?
    ensures r.Err? ==> r.error.ParseFailure?
    ensures era.kind.PlainEra? ==> r == Ok(SummariesApplied([], JNull))
  {
    if era.kind.PlainEra? then Ok(SummariesApplied([], JNull))
    else
      var bad := FirstUnparsableDay(env, all);
      if bad.Some? then Err(ParseFailure(bad.value))
      else
        var kept := Filter(SummaryTest(env, era), all);
        Ok(SummariesApplied(kept, JStr(env.md5(DictRepr(kept)))))
  }

  /** What an experience keeps: the pairs whose day lies strictly inside its
      window, still a dictionary, and the digest of exactly those. */
  lemma SummariesKept(env: Env, era: Era, all: seq<(string, string)>)
    requires DistinctKeys(all)
    requires era.kind.ExperienceEra? && ApplySummaries(env, era, all).Ok?
    ensures var r := ApplySummaries(env, era, all).value;
      && DistinctKeys(r.summaries)
      && (forall p :: p in r.summaries <==> p in all && SummaryWithin(env, era, p))
      && r.digest == JStr(env.md5(DictRepr(r.summaries)))
  {
    FilterKeepsDistinctKeys(SummaryTest(env, era), all);
  }

  lemma {:induction false} FilterKeepsDistinctKeys(p: ((string, string)) -> bool, s: seq<(string, string)>)
    requires DistinctKeys(s)
    ensures DistinctKeys(Filter(p, s))
  {
    if |s| > 0 {
      FilterKeepsDistinctKeys(p, s[1..]);
      var rest := Filter(p, s[1..]);
      assert forall x | x in rest :: x in s[1..];
      assert forall x | x in s[1..] :: x.0 != s[0].0;
    }
  }

  // ---------------------------------------------------------------------------
  // media_count
  // ---------------------------------------------------------------------------

  datatype Counts = Counts(images: nat, clips: nat)

  function Plus(a: Counts, b: Counts): Counts
  {
    Counts(a.images + b.images, a.clips + b.clips)
  }

  predicate IsImage(m: Multimedia) { m.kind.Image? }
  predicate IsClip(m: Multimedia) { m.kind.Clip? }

  /** Photos and clips in a list: the base class counts as neither. */
  function ListCount(ms: seq<Multimedia>): Counts
  {
    Counts(|Filter(IsImage, ms)|, |Filter(IsClip, ms)|)
  }

  /** The era and every sub-experience below it are experiences: only
      `Experience` defines `media_count()`. */
  predicate AllExperiences(e: Era)
    decreases e, 1
  {
    e.kind.ExperienceEra? && SubsAreExperiences(e, |e.subs|)
  }

  predicate SubsAreExperiences(e: Era, n: nat)
    requires n <= |e.subs|
    decreases e, 0, n
  {
    n == 0 || (SubsAreExperiences(e, n - 1) && AllExperiences(e.subs[n - 1]))
  }

  /** `media_count()`: the counts of every sub-experience, recursively, plus
      those of the era's own media. A plain era anywhere in the tree has no
      such method, so the call raises AttributeError. */
  function MediaCount(e: Era): (r: Result<Counts>)
    ensures r.Ok? <==> AllExperiences(e)
    ensures r.Err? ==> r.error == AttributeError("media_count")
    decreases e, 1
  {
    if e.kind.PlainEra? then Err(AttributeError("media_count"))
    else
      var subs :- SubsCount(e, |e.subs|);
      Ok(Plus(subs, ListCount(e.images)))
  }

  function SubsCount(e: Era, n: nat): (r: Result<Counts>)
    requires n <= |e.subs|
    ensures r.Ok? <==> SubsAreExperiences(e, n)
    ensures r.Err? ==> r.error == AttributeError("media_count")
    decreases e, 0, n
  {
    if n == 0 then Ok(Counts(0, 0))
    else
      var before :- SubsCount(e, n - 1);
      var last :- MediaCount(e.subs[n - 1]);
      Ok(Plus(before, last))
  }

  /** Every medium of the era's tree: the sub-experiences' in order, then its own. */
  function TreeMedia(e: Era): seq<Multimedia>
    decreases e, 1
  {
    SubsMedia(e, |e.subs|) + e.images
  }

  function SubsMedia(e: Era, n: nat): seq<Multimedia>
    requires n <= |e.subs|
    decreases e, 0, n
  {
    if n == 0 then [] else SubsMedia(e, n - 1) + TreeMedia(e.subs[n - 1])
  }

  lemma {:induction false} ListCountConcat(a: seq<Multimedia>, b: seq<Multimedia>)
    ensures ListCount(a + b) == Plus(ListCount(a), ListCount(b))
  {
    var images := |Filter(IsImage, a)| + |Filter(IsImage, b)|;
    var clips := |Filter(IsClip, a)| + |Filter(IsClip, b)|;
    assert |Filter(IsImage, a + b)| == images by {
      FilterConcat(IsImage, a, b);
    }
    assert |Filter(IsClip, a + b)| == clips by {
      FilterConcat(IsClip, a, b);
    }
    assert ListCount(a + b) == Counts(images, clips);
    assert Plus(ListCount(a), ListCount(b)) == Counts(images, clips);
  }

  /** The recursive count is the count over the whole tree of media. */
  lemma {:induction false} MediaCountIsTreeCount(e: Era)
    ensures MediaCount(e).Ok? ==> MediaCount(e).value == ListCount(TreeMedia(e))
    decreases e, 1
  {
    if MediaCount(e).Ok? {
      SubsCountIsTreeCount(e, |e.subs|);
      ListCountConcat(SubsMedia(e, |e.subs|), e.images);
    }
  }

  lemma {:induction false} SubsCountIsTreeCount(e: Era, n: nat)
    requires n <= |e.subs|
    ensures SubsCount(e, n).Ok? ==> SubsCount(e, n).value == ListCount(SubsMedia(e, n))
    decreases e, 0, n
  {
    if n > 0 && SubsCount(e, n).Ok? {
      SubsCountIsTreeCount(e, n - 1);
      MediaCountIsTreeCount(e.subs[n - 1]);
      ListCountConcat(SubsMedia(e, n - 1), TreeMedia(e.subs[n - 1]));
    }
  }
}

=== FILE: experiences.dfy ===
/** Eras and experiences (thisisthesitebuilder/experiences/models.py): which
    locations fall inside an era's time window, which other eras intersect it,
    and the de-duplicated location lists the pages are drawn from.

    Instants are epoch seconds as produced by the date parser collaborator; the
    era's own `start` and `end` are already instants.
 */
module Experiences {
  import opened Wrappers
  import opened Strings
  import opened Sorting
  import opened Occurrences
  import opened Json
  import opened Collaborators
  import opened Images
  import opened Where
  import WhereBuild

  /** `Era` is the plain base class; `Experience` adds media, summaries and the
      registration of itself on the locations it lists. */
  datatype EraKind = PlainEra | ExperienceEra

  /** An era: its window, texts, tags, sub-experiences and the media list that
      media are appended to (`images`). */
  datatype Era = Era(
    kind: EraKind,
    name: string,
    slug: string,
    start: int,
    end: int,
    description: string,
    summary: string,
    tags: seq<string>,
    subs: seq<Era>,
    persist: bool,
    images: seq<Multimedia>)

  /** The closed window used for locations. */
  predicate InClosed(era: Era, t: int) { era.start <= t <= era.end }

  /** The open window used for media, summaries and intersections. */
  predicate InOpen(era: Era, t: int) { era.start < t < era.end }

  // ---------------------------------------------------------------------------
  // apply_locations
  // ---------------------------------------------------------------------------

  /** One entry of the locations table, in the table's iteration order: the day
      key it is filed under, its time key and the location built for it. */
  datatype LocEntry = LocEntry(dayKey: string, time: string, location: Location)

  /** The text handed to the date parser: the key with ".yaml" characters
      stripped from its end, "T", the time. */
  function EntryText(e: LocEntry): string
  {
    WhereBuild.DayOfFile(e.dayKey) + "T" + e.time
  }

  predicate Parses(env: Env, e: LocEntry)
  {
    env.parse(EntryText(e)).Some?
  }

  predicate LocatedWithin(env: Env, era: Era, e: LocEntry)
  {
    var t := env.parse(EntryText(e));
    t.Some? && InClosed(era, t.value)
  }

  /** An era with sub-experiences lists only the places shown at the top level. */
  predicate Listable(era: Era, l: Location)
  {
    |era.subs| == 0 || l.place.showOnTopLevelExperience
  }

  predicate ListedWithin(env: Env, era: Era, e: LocEntry)
  {
    LocatedWithin(env, era, e) && Listable(era, e.location)
  }

  function LocationOf(e: LocEntry): Location { e.location }

  function WithinTest(env: Env, era: Era): LocEntry -> bool
  {
    e => LocatedWithin(env, era, e)
  }

  function ListedTest(env: Env, era: Era): LocEntry -> bool
  {
    e => ListedWithin(env, era, e)
  }

  /** The entries whose instant lies in the closed window, in table order. */
  function WithinEntries(env: Env, era: Era, entries: seq<LocEntry>): seq<LocEntry>
  {
    Filter(WithinTest(env, era), entries)
  }

  /** The entries the era also lists as its own, in table order. */
  function ListedEntries(env: Env, era: Era, entries: seq<LocEntry>): seq<LocEntry>
  {
    Filter(ListedTest(env, era), entries)
  }

  /** The first entry whose date text does not parse: parsing is the only step
      of the loop that can fail, and it stops the loop. */
  function FirstUnparsable(env: Env, entries: seq<LocEntry>): (r: Option<string>)
    ensures r.None? <==> forall i | 0 <= i < |entries| :: Parses(env, entries[i])
    ensures r.Some? ==> exists i | 0 <= i < |entries| :: !Parses(env, entries[i]) && r.value == EntryText(entries[i])
  {
    if |entries| == 0 then None
    else if !Parses(env, entries[0]) then Some(EntryText(entries[0]))
    else
      var rest := FirstUnparsable(env, entries[1..]);
      assert forall i | 1 <= i < |entries| :: entries[i] == entries[1..][i - 1];
      rest
  }

  /** Locations ordered by `str(location)`, ascending or, with `reverse`, as
      Python's stable `reverse=True` sort orders them. */
  function SortLocations(ls: seq<Location>, reverse: bool): (r: seq<Location>)
    ensures multiset(r) == multiset(ls)
    ensures !reverse ==> SortedBy(r, LocationStr, StrLt)
    ensures reverse ==> SortedBy(r, LocationStr, Converse(StrLt))
  {
    StringOrder();
    if reverse then
      ConverseIsStrictTotal(StrLt);
      SortBy(ls, LocationStr, Converse(StrLt))
    else SortBy(ls, LocationStr, StrLt)
  }

  /** The digest of the era's locations: MD5 of `str([str(l) for l in all])`. */
  function LocationsDigest(env: Env, all: seq<Location>): JVal
  {
    JStr(env.md5(StrList(MapSeq(LocationStr, all))))
  }

  datatype LocationsApplied = LocationsApplied(all: seq<Location>, specific: seq<Location>, digest: JVal)

  /** `apply_locations()`: every entry whose instant lies in the closed window
      goes to `all`; those that can be listed on this era also go to
      `specific`; both are sorted by their string form. */
  function ApplyLocations(env: Env, era: Era, entries: seq<LocEntry>): (r: Result<LocationsApplied>)
    ensures r.Err? <==> exists i | 0 <= i < |entries| :: !Parses(env, entries[i])
    ensures r.Err? ==> r.error.ParseFailure?
    ensures r.Ok? ==> SortedBy(r.value.all, LocationStr, StrLt) && SortedBy(r.value.specific, LocationStr, StrLt)
    ensures r.Ok? ==> r.value.digest == LocationsDigest(env, r.value.all)
  {
    var bad := FirstUnparsable(env, entries);
    if bad.Some? then Err(ParseFailure(bad.value))
    else
      var all := SortLocations(MapSeq(LocationOf, WithinEntries(env, era, entries)), false);
      var specific := SortLocations(MapSeq(LocationOf, ListedEntries(env, era, entries)), false);
      Ok(LocationsApplied(all, specific, LocationsDigest(env, all)))
  }

  lemma {:induction false} MapLocationsMembership(s: seq<LocEntry>, l: Location)
    ensures l in MapSeq(LocationOf, s) <==> exists e | e in s :: e.location == l
  {
    if l in MapSeq(LocationOf, s) {
      var i :| 0 <= i < |s| && MapSeq(LocationOf, s)[i] == l;
      assert s[i] in s;
    }
  }

  /** `apply_locations` fails exactly when some entry's date text does not parse. */
  lemma ApplyLocationsFails(env: Env, era: Era, entries: seq<LocEntry>)
    ensures ApplyLocations(env, era, entries).Err? <==>
      exists i | 0 <= i < |entries| :: !Parses(env, entries[i])
    ensures ApplyLocations(env, era, entries).Err? ==> ApplyLocations(env, era, entries).error.ParseFailure?
  {
  }

  /** Otherwise `all` holds exactly the locations whose instant lies in the
      closed window and `specific` exactly those of them the era may list, both
      sorted by string form, and the digest covers `all`. */
  lemma ApplyLocationsContents(env: Env, era: Era, entries: seq<LocEntry>, l: Location)
    requires ApplyLocations(env, era, entries).Ok?
    ensures var r := ApplyLocations(env, era, entries).value;
      && SortedBy(r.all, LocationStr, StrLt)
      && SortedBy(r.specific, LocationStr, StrLt)
      && (l in r.all <==> exists e | e in entries :: e.location == l && LocatedWithin(env, era, e))
      && (l in r.specific <==> l in r.all && Listable(era, l))
      && r.digest == LocationsDigest(env, r.all)
  {
    var r := ApplyLocations(env, era, entries).value;
    var within := WithinEntries(env, era, entries);
    var listed := ListedEntries(env, era, entries);
    SortedMembership(MapSeq(LocationOf, within), l);
    SortedMembership(MapSeq(LocationOf, listed), l);
    MapLocationsMembership(within, l);
    MapLocationsMembership(listed, l);
  }

  lemma SortedMembership(ls: seq<Location>, l: Location)
    ensures l in SortLocations(ls, false) <==> l in ls
  {
    var r := SortLocations(ls, false);
    assert l in r <==> l in multiset(r);
    assert l in ls <==> l in multiset(ls);
  }

  /** `specific` is, as a multiset, the listable part of `all`. */
  lemma SpecificIsListablePart(env: Env, era: Era, entries: seq<LocEntry>)
    requires ApplyLocations(env, era, entries).Ok?
    ensures var r := ApplyLocations(env, era, entries).value;
      multiset(r.specific) == multiset(Filter(l => Listable(era, l), r.all))
  {
    var r := ApplyLocations(env, era, entries).value;
    var within := WithinEntries(env, era, entries);
    var listable := (l: Location) => Listable(era, l);
    var listableEntry := (e: LocEntry) => listable(LocationOf(e));
    FilterMapSeq(listable, LocationOf, listableEntry, within);
    FilterFilter(listableEntry, WithinTest(env, era), ListedTest(env, era), entries);
    FilterPermutation(listable, r.all, MapSeq(LocationOf, within));
  }

  /** The locations digest does not depend on the order the table is walked in. */
  lemma LocationsIgnoreEntryOrder(env: Env, era: Era, e1: seq<LocEntry>, e2: seq<LocEntry>)
    requires multiset(e1) == multiset(e2)
    ensures ApplyLocations(env, era, e1).Ok? <==> ApplyLocations(env, era, e2).Ok?
    ensures ApplyLocations(env, era, e1).Ok? ==>
      && ApplyLocations(env, era, e1).value.digest == ApplyLocations(env, era, e2).value.digest
      && multiset(ApplyLocations(env, era, e1).value.all) == multiset(ApplyLocations(env, era, e2).value.all)
  {
    ApplyLocationsFails(env, era, e1);
    ApplyLocationsFails(env, era, e2);
    forall i | 0 <= i < |e1| ensures e1[i] in e2 { assert e1[i] in multiset(e2); }
    forall i | 0 <= i < |e2| ensures e2[i] in e1 { assert e2[i] in multiset(e1); }
    if ApplyLocations(env, era, e1).Ok? {
      assert ApplyLocations(env, era, e2).Ok? by {
        forall i | 0 <= i < |e2| ensures Parses(env, e2[i]) {
          var j :| 0 <= j < |e1| && e1[j] == e2[i];
        }
      }
      var p := WithinTest(env, era);
      var w1, w2 := MapSeq(LocationOf, Filter(p, e1)), MapSeq(LocationOf, Filter(p, e2));
      FilterPermutation(p, e1, e2);
      MapSeqPermutation(LocationOf, Filter(p, e1), Filter(p, e2));
      StringOrder();
      SortedKeysDependOnlyOnMultiset(w1, w2, LocationStr, StrLt);
    } else {
      var i :| 0 <= i < |e1| && !Parses(env, e1[i]);
      var j :| 0 <= j < |e2| && e2[j] == e1[i];
    }
  }

  /** `add_location()` on an experience: the experience is remembered on the
      location once, after those already there. */
  function AddLocation(usedIn: seq<Era>, e: Era): (r: seq<Era>)
    ensures e in r && usedIn <= r && |r| <= |usedIn| + 1
    ensures forall x | x in r :: x in usedIn || x == e
    ensures (forall i, j | 0 <= i < j < |usedIn| :: usedIn[i] != usedIn[j]) ==>
      forall i, j | 0 <= i < j < |r| :: r[i] != r[j]
  {
    if e in usedIn then usedIn else usedIn + [e]
  }

  /** Listing a location twice on the same experience changes nothing. */
  lemma AddLocationIdempotent(usedIn: seq<Era>, e: Era)
    ensures AddLocation(AddLocation(usedIn, e), e) == AddLocation(usedIn, e)
  {
  }

  /** `location.used_in_experiences` for every location. Python keeps the list
      on the shared `Location` object; the model keeps it beside the locations,
      keyed by location. A location is constructed with an empty list, so one
      the registry does not mention has none, and a build starts from the
      empty registry. (Two locations of a build never compare equal: each has
      its own day and time.) */
  type UsedIn = map<Location, seq<Era>>

  function ExperiencesOf(reg: UsedIn, l: Location): seq<Era>
  {
    if l in reg then reg[l] else []
  }

  predicate NoRepeats(s: seq<Era>)
  {
    forall i, j | 0 <= i < j < |s| :: s[i] != s[j]
  }

  /** The registrations `add_location` makes while `apply_locations` lists the
      locations `ls` on `era`, one after another. */
  function Register(reg: UsedIn, era: Era, ls: seq<Location>): (r: UsedIn)
    ensures era.kind.PlainEra? ==> r == reg
  {
    if |ls| == 0 || era.kind.PlainEra? then reg
    else
      var before := Register(reg, era, ls[..|ls| - 1]);
      before[ls[|ls| - 1] := AddLocation(ExperiencesOf(before, ls[|ls| - 1]), era)]
  }

  /** An experience remembers itself once on each location it lists, however
      often the location comes up; the plain `Era.add_location` registers
      nothing. No other location's list changes. */
  lemma {:induction false} RegisterEffect(reg: UsedIn, era: Era, ls: seq<Location>, l: Location)
    ensures era.kind.ExperienceEra? && l in ls ==>
      ExperiencesOf(Register(reg, era, ls), l) == AddLocation(ExperiencesOf(reg, l), era)
    ensures era.kind.PlainEra? || l !in ls ==>
      ExperiencesOf(Register(reg, era, ls), l) == ExperiencesOf(reg, l)
  {
    if |ls| > 0 && era.kind.ExperienceEra? {
      var n := |ls| - 1;
      var before := Register(reg, era, ls[..n]);
      RegisterEffect(reg, era, ls[..n], l);
      assert ls == ls[..n] + [ls[n]];
      assert l in ls <==> l == ls[n] || l in ls[..n];
      if l == ls[n] && l in ls[..n] {
        AddLocationIdempotent(ExperiencesOf(reg, l), era);
      }
    }
  }

  /** `apply_locations()` together with the registrations it makes on the
      shared locations: the era is registered on every location it lists. */
  function ApplyLocationsRegistering(env: Env, era: Era, entries: seq<LocEntry>, reg: UsedIn)
    : (r: Result<(LocationsApplied, UsedIn)>)
    ensures r.Ok? <==> ApplyLocations(env, era, entries).Ok?
    ensures r.Ok? ==> r.value.0 == ApplyLocations(env, era, entries).value
    ensures r.Ok? && era.kind.PlainEra? ==> r.value.1 == reg
  {
    var applied :- ApplyLocations(env, era, entries);
    Ok((applied, Register(reg, era, applied.specific)))
  }

  /** A location that has just been constructed is used in no experience, so it
      has no most significant experience. */
  lemma NewLocationUnused(day: string, time: string, place: Place, significance: JVal)
    ensures ExperiencesOf(map[], NewLocation(day, time, place, significance)) == []
    ensures MostSignificantExperience(ExperiencesOf(map[], NewLocation(day, time, place, significance))).None?
  {
  }

  /** After `apply_locations` on an experience, each location it lists names
      the experience exactly once, after the experiences named before; every
      other location (in the window but not listable here, or outside it) is
      left as it was. A location no experience had listed before has this one
      as its most significant experience. */
  lemma {:induction false} ApplyLocationsRegisters(env: Env, era: Era, entries: seq<LocEntry>, reg: UsedIn, l: Location)
    requires era.kind.ExperienceEra?
    requires ApplyLocations(env, era, entries).Ok?
    requires NoRepeats(ExperiencesOf(reg, l))
    ensures var (a, r) := ApplyLocationsRegistering(env, era, entries, reg).value;
      && (l in a.specific ==>
            && multiset(ExperiencesOf(r, l))[era] == 1
            && ExperiencesOf(reg, l) <= ExperiencesOf(r, l)
            && NoRepeats(ExperiencesOf(r, l)))
      && (l !in a.specific ==> ExperiencesOf(r, l) == ExperiencesOf(reg, l))
      && (l in a.specific && ExperiencesOf(reg, l) == [] ==>
            MostSignificantExperience(ExperiencesOf(r, l)) == Some(era))
  {
    var (a, r) := ApplyLocationsRegistering(env, era, entries, reg).value;
    assert r == Register(reg, era, a.specific);
    RegisterEffect(reg, era, a.specific, l);
    if l in a.specific {
      RegisteredOnce(ExperiencesOf(reg, l), era);
    }
  }

  /** Adding an experience to a list without repeats names it exactly once,
      keeps the list's earlier entries first and adds no repeat; on an empty
      list it becomes the only, hence most significant, experience. */
  lemma RegisteredOnce(usedIn: seq<Era>, era: Era)
    requires NoRepeats(usedIn)
    ensures var s := AddLocation(usedIn, era);
      && multiset(s)[era] == 1
      && usedIn <= s
      && NoRepeats(s)
      && (usedIn == [] ==> MostSignificantExperience(s) == Some(era))
  {
    var s := AddLocation(usedIn, era);
    assert NoRepeats(s);
    OnceInNoRepeats(s, era);
  }

  /** An item of a sequence without repeats occurs in it exactly once. */
  lemma {:induction false} OnceInNoRepeats(s: seq<Era>, e: Era)
    requires NoRepeats(s) && e in s
    ensures multiset(s)[e] == 1
  {
    var i :| 0 <= i < |s| && s[i] == e;
    assert s == s[..i] + [e] + s[i + 1..];
    assert e !in s[..i] by {
      forall k | 0 <= k < i ensures s[..i][k] != e { assert s[k] != s[i]; }
    }
    var after := s[i + 1..];
    assert e !in after by {
      forall k | 0 <= k < |after| ensures after[k] != e { assert after[k] == s[i + 1 + k]; }
    }
    assert multiset(s) == multiset(s[..i]) + multiset([e]) + multiset(s[i + 1..]);
  }

  // ---------------------------------------------------------------------------
  // find_intersecting / intersection
  // ---------------------------------------------------------------------------

  /** `other` starts or ends strictly inside `era`'s window. */
  predicate Intersects(era: Era, other: Era)
  {
    InOpen(era, other.start) || InOpen(era, other.end)
  }

  /** `find_intersecting(experiences)`: the eras that begin or end strictly
      within this one, in the order given. */
  function FindIntersecting(era: Era, eras: seq<Era>): (r: seq<Era>)
    ensures forall x :: x in r <==> x in eras && Intersects(era, x)
    ensures forall x :: multiset(r)[x] == if Intersects(era, x) then multiset(eras)[x] else 0
    ensures era !in r
  {
    forall x ensures multiset(Filter(x => Intersects(era, x), eras))[x] ==
      if Intersects(era, x) then multiset(eras)[x] else 0
    {
      FilterCount(x => Intersects(era, x), eras, x);
    }
    Filter(x => Intersects(era, x), eras)
  }

  /** Each experience is appended as the loop reaches it: what a prefix of the
      list finds is a prefix of what the whole list finds. */
  lemma FindIntersectingPrefix(era: Era, eras: seq<Era>, m: nat)
    requires m <= |eras|
    ensures FindIntersecting(era, eras[..m]) <= FindIntersecting(era, eras)
  {
    FilterPrefix(x => Intersects(era, x), eras, m);
  }

  function StartOf(e: Era): int { e.start }

  /** `intersection()`: TypeError before `find_intersecting` ran, otherwise the
      intersecting eras by start, equal starts in found order. */
  function Intersection(found: Option<seq<Era>>): (r: Result<seq<Era>>)
    ensures r.Err? <==> found.None?
    ensures r.Err? ==> r.error.TypeError?
    ensures r.Ok? ==> multiset(r.value) == multiset(found.value)
    ensures r.Ok? ==> SortedBy(r.value, StartOf, IntLt) && StableFor(r.value, found.value, StartOf)
  {
    if found.None? then Err(TypeError("You need to find_intersecting experiences first."))
    else
      IntOrder();
      Ok(SortBy(found.value, StartOf, IntLt))
  }

  // ---------------------------------------------------------------------------
  // places / unique_locations_by_place / unique_locations_by_field
  // ---------------------------------------------------------------------------

  function PlaceOf(l: Location): Place { l.place }

  /** `places(reverse_order)`: the distinct places of the era's locations, taken
      in the order of the distinct locations sorted by string form. */
  function Places(all: seq<Location>, reverse: bool): (r: seq<Place>)
    ensures forall i, j | 0 <= i < j < |r| :: r[i] != r[j]
  {
    Distinct(MapSeq(PlaceOf, SortLocations(Distinct(all), reverse)))
  }

  /** A place is listed exactly when some location of the era is at it. */
  lemma PlacesMembers(all: seq<Location>, reverse: bool, p: Place)
    ensures p in Places(all, reverse) <==> exists l | l in all :: l.place == p
  {
    var unique := Distinct(all);
    MapSeqMembers(PlaceOf, SortLocations(unique, reverse), unique, p);
    if exists l | l in unique :: l.place == p {
      var l :| l in unique && l.place == p;
      assert l in all;
    }
    if exists l | l in all :: l.place == p {
      var l :| l in all && l.place == p;
      assert l in unique;
    }
  }

  /** The loop of `unique_locations_by_place()`: a location is appended when
      no earlier one was at its place. */
  function KeepFirstByPlace(specific: seq<Location>): seq<Location>
  {
    if |specific| == 0 then []
    else
      var n := |specific| - 1;
      var prefix := KeepFirstByPlace(specific[..n]);
      if IsFirst(specific, PlaceOf, n) then prefix + [specific[n]] else prefix
  }

  /** `unique_locations_by_place()`: the first location of each place, in order. */
  function UniqueLocationsByPlace(specific: seq<Location>): (r: seq<Location>)
    ensures forall i, j | 0 <= i < j < |r| :: r[i].place != r[j].place
    ensures forall i | 0 <= i < |specific| && IsFirst(specific, PlaceOf, i) :: specific[i] in r
    ensures forall l | l in r :: exists i | 0 <= i < |specific| :: specific[i] == l && IsFirst(specific, PlaceOf, i)
  {
    KeepFirstByPlaceKeeps(specific);
    KeepFirstByPlace(specific)
  }

  lemma KeepFirstByPlaceKeeps(specific: seq<Location>)
    ensures var r := KeepFirstByPlace(specific);
      && (forall i, j | 0 <= i < j < |r| :: r[i].place != r[j].place)
      && (forall i | 0 <= i < |specific| && IsFirst(specific, PlaceOf, i) :: specific[i] in r)
      && (forall l | l in r :: exists i | 0 <= i < |specific| :: specific[i] == l && IsFirst(specific, PlaceOf, i))
  {
    KeptAreFirstAtPlace(specific);
    KeptPlacesDistinct(specific);
    FirstAtPlaceKept(specific);
  }

  /** Every kept location is the first at its place. */
  lemma {:induction false} KeptAreFirstAtPlace(specific: seq<Location>)
    ensures forall l | l in KeepFirstByPlace(specific) ::
      exists i | 0 <= i < |specific| :: specific[i] == l && IsFirst(specific, PlaceOf, i)
  {
    if |specific| > 0 {
      var n := |specific| - 1;
      KeptAreFirstAtPlace(specific[..n]);
      forall l | l in KeepFirstByPlace(specific)
        ensures exists i | 0 <= i < |specific| :: specific[i] == l && IsFirst(specific, PlaceOf, i)
      {
        if l in KeepFirstByPlace(specific[..n]) {
          var i :| 0 <= i < n && specific[..n][i] == l && IsFirst(specific[..n], PlaceOf, i);
          assert specific[i] == l;
          assert IsFirst(specific, PlaceOf, i);
        } else {
          assert specific[n] == l && IsFirst(specific, PlaceOf, n);
        }
      }
    }
  }

  /** No two of the locations share a place. */
  predicate DistinctPlaces(ls: seq<Location>)
  {
    forall i, j | 0 <= i < j < |ls| :: ls[i].place != ls[j].place
  }

  /** No two kept locations share a place. */
  lemma {:induction false} KeptPlacesDistinct(specific: seq<Location>)
    ensures DistinctPlaces(KeepFirstByPlace(specific))
  {
    if |specific| > 0 {
      var n := |specific| - 1;
      KeptPlacesDistinct(specific[..n]);
      var prefix := KeepFirstByPlace(specific[..n]);
      if IsFirst(specific, PlaceOf, n) {
        KeptAreFirstAtPlace(specific[..n]);
        forall l | l in prefix ensures l.place != specific[n].place {
          var i :| 0 <= i < n && specific[..n][i] == l && IsFirst(specific[..n], PlaceOf, i);
          assert specific[i] == l;
        }
        var r := prefix + [specific[n]];
        assert KeepFirstByPlace(specific) == r;
        forall i, j | 0 <= i < j < |r| ensures r[i].place != r[j].place {
          if j == |prefix| {
            assert r[i] == prefix[i] && prefix[i] in prefix && r[j] == specific[n];
          } else {
            assert r[i] == prefix[i] && r[j] == prefix[j];
          }
        }
      } else {
        assert KeepFirstByPlace(specific) == prefix;
      }
    }
  }

  /** The first location at each place is kept. */
  lemma {:induction false} FirstAtPlaceKept(specific: seq<Location>)
    ensures forall i | 0 <= i < |specific| && IsFirst(specific, PlaceOf, i) :: specific[i] in KeepFirstByPlace(specific)
  {
    if |specific| > 0 {
      var n := |specific| - 1;
      FirstAtPlaceKept(specific[..n]);
      forall i | 0 <= i < |specific| && IsFirst(specific, PlaceOf, i)
        ensures specific[i] in KeepFirstByPlace(specific)
      {
        if i < n {
          assert specific[..n][i] == specific[i];
          assert IsFirst(specific[..n], PlaceOf, i);
        }
      }
    }
  }

  /** The kept locations keep the order of `specific_locations`: the locations
      kept from the first `m` specific locations are the first ones kept
      overall, as the loop only ever appends. */
  lemma UniqueLocationsByPlacePrefix(specific: seq<Location>, m: nat)
    requires m <= |specific|
    ensures UniqueLocationsByPlace(specific[..m]) <= UniqueLocationsByPlace(specific)
  {
    KeepFirstByPlacePrefix(specific, m);
  }

  lemma {:induction false} KeepFirstByPlacePrefix(specific: seq<Location>, m: nat)
    requires m <= |specific|
    ensures KeepFirstByPlace(specific[..m]) <= KeepFirstByPlace(specific)
    decreases |specific|
  {
    if m < |specific| {
      var n := |specific| - 1;
      KeepFirstByPlacePrefix(specific[..n], m);
      assert specific[..n][..m] == specific[..m];
    } else {
      assert specific[..m] == specific;
    }
  }

  /** `places(reverse_order)` lists the place of each location that
      `unique_locations_by_place` would keep from the sorted distinct locations:
      places come in the order of their first location in that sorting, which
      `reverse_order` turns around. */
  lemma PlacesInSortedOrder(all: seq<Location>, reverse: bool)
    ensures Places(all, reverse) == MapSeq(PlaceOf, UniqueLocationsByPlace(SortLocations(Distinct(all), reverse)))
  {
    PlacesOfKept(SortLocations(Distinct(all), reverse));
  }

  /** The distinct places of a list of locations, in first-occurrence order, are
      the places of the first location at each place. */
  lemma {:induction false} PlacesOfKept(ls: seq<Location>)
    ensures Distinct(MapSeq(PlaceOf, ls)) == MapSeq(PlaceOf, KeepFirstByPlace(ls))
    decreases |ls|
  {
    if |ls| > 0 {
      var n := |ls| - 1;
      var ps := MapSeq(PlaceOf, ls);
      PlacesOfKept(ls[..n]);
      assert ps[..n] == MapSeq(PlaceOf, ls[..n]);
      assert ps[n] in ps[..n] <==> !IsFirst(ls, PlaceOf, n) by {
        if ps[n] in ps[..n] {
          var j :| 0 <= j < n && ps[..n][j] == ps[n];
          assert ls[j].place == ls[n].place;
        }
        if !IsFirst(ls, PlaceOf, n) {
          var j :| 0 <= j < n && PlaceOf(ls[j]) == PlaceOf(ls[n]);
          assert ps[..n][j] == ps[n];
        }
      }
      var kept := KeepFirstByPlace(ls[..n]);
      assert MapSeq(PlaceOf, kept + [ls[n]]) == MapSeq(PlaceOf, kept) + [ls[n].place];
    }
  }

  /** Whether a value can be a dictionary key: lists and mappings cannot. */
  predicate Hashable(v: JVal)
  {
    !v.JArr? && !v.JObj?
  }

  /** `place.__dict__[field]`, kept as a result so that equal results mean equal
      values. */
  function FieldKey(field: string): Location -> Result<JVal>
  {
    (l: Location) => FieldValue(l.place, field)
  }

  /** The first loop of `unique_locations_by_field` gets past this location:
      the field exists and its value can key a dictionary. */
  predicate FieldUsable(field: string, l: Location)
  {
    FieldValue(l.place, field).Ok? && Hashable(FieldValue(l.place, field).value)
  }

  /** The error the first loop stops at, if any. */
  function FirstFieldError(all: seq<Location>, field: string): (r: Option<Error>)
    ensures r.None? <==> forall i | 0 <= i < |all| :: FieldUsable(field, all[i])
  {
    if |all| == 0 then None
    else
      var v := FieldValue(all[0].place, field);
      if v.Err? then Some(v.error)
      else if !Hashable(v.value) then Some(TypeError("unhashable type"))
      else
        assert forall i | 1 <= i < |all| :: all[i] == all[1..][i - 1];
        FirstFieldError(all[1..], field)
  }

  /** `max(locations, key=significance)`: every key is computed once, in
      order, and the first location with the greatest key wins; the pair holds
      the winner and its key. */
  function MaxWithKey(ls: seq<Location>): (r: Result<(Location, int)>)
    requires |ls| > 0
    ensures r.Ok? <==> forall i | 0 <= i < |ls| :: ls[i].significance == JNull
    ensures r.Ok? ==> r.value == (ls[0], PlaceSignificance)
    ensures r.Err? ==> r.error == AttributeError("_significacne")
  {
    var n := |ls| - 1;
    if n == 0 then
      var s :- Significance(ls[0]);
      Ok((ls[0], s))
    else
      assert forall i | 0 <= i < n :: ls[..n][i] == ls[i];
      var best :- MaxWithKey(ls[..n]);
      var last := ls[n];
      var s :- Significance(last);
      Ok(if s > best.1 then (last, s) else best)
  }

  function MaxBySignificance(ls: seq<Location>): (r: Result<Location>)
    requires |ls| > 0
  {
    var best :- MaxWithKey(ls);
    Ok(best.0)
  }

  function HasKey(field: string, v: Result<JVal>): Location -> bool
  {
    (l: Location) => FieldKey(field)(l) == v
  }

  /** The locations whose field has value `v`, in order. */
  function GroupOf(all: seq<Location>, field: string, v: Result<JVal>): seq<Location>
  {
    Filter(HasKey(field, v), all)
  }

  /** The most significant location of each repeated value, values in the order
      they were first repeated in. */
  function MostSignificant(all: seq<Location>, field: string, vs: seq<Result<JVal>>): (r: Result<seq<Location>>)
    ensures r.Ok? <==> forall k | 0 <= k < |vs| ::
      |GroupOf(all, field, vs[k])| > 0 && MaxBySignificance(GroupOf(all, field, vs[k])).Ok?
    ensures r.Ok? ==> |r.value| == |vs|
    ensures r.Ok? ==> forall k | 0 <= k < |vs| :: r.value[k] == GroupOf(all, field, vs[k])[0]
  {
    if |vs| == 0 then Ok([])
    else
      var g := GroupOf(all, field, vs[0]);
      if |g| == 0 then Err(ValueError("max() arg is an empty sequence"))
      else
        var best :- MaxBySignificance(g);
        assert forall k | 1 <= k < |vs| :: vs[k] == vs[1..][k - 1];
        var rest :- MostSignificant(all, field, vs[1..]);
        Ok([best] + rest)
  }

  function SingleTest(all: seq<Location>, field: string): Location -> bool
  {
    (l: Location) => CountKey(all, FieldKey(field), FieldKey(field)(l)) == 1
  }

  /** `unique_locations_by_field(field, reverse_order)`: one location per value
      of the place field; a value met once keeps its location, a repeated value
      keeps the most significant of its locations; the survivors are sorted by
      string form. */
  function UniqueLocationsByField(all: seq<Location>, field: string, reverse: bool): (r: Result<seq<Location>>)
    ensures r.Ok? ==> forall i, j | 0 <= i < j < |r.value| :: r.value[i] != r.value[j]
    ensures r.Ok? && !reverse ==> SortedBy(r.value, LocationStr, StrLt)
    ensures r.Ok? && reverse ==> SortedBy(r.value, LocationStr, Converse(StrLt))
  {
    var err := FirstFieldError(all, field);
    if err.Some? then Err(err.value)
    else
      var uniques := Uniques(all, field);
      var bests :- MostSignificant(all, field, RepeatedValues(all, field));
      var survivors := Distinct(uniques + bests);
      var r := SortLocations(survivors, reverse);
      assert forall i, j | 0 <= i < j < |r| :: r[i] != r[j] by {
        DistinctPermutation(survivors, r);
      }
      Ok(r)
  }

  /** A permutation of a sequence without repeats has no repeats. */
  lemma DistinctPermutation(s: seq<Location>, r: seq<Location>)
    requires forall i, j | 0 <= i < j < |s| :: s[i] != s[j]
    requires multiset(r) == multiset(s)
    ensures forall i, j | 0 <= i < j < |r| :: r[i] != r[j]
  {
    forall i, j | 0 <= i < j < |r| ensures r[i] != r[j] {
      CountAtMostOne(s, r[i]);
      TwoPositions(r, i, j);
    }
  }

  lemma TwoPositions(r: seq<Location>, i: int, j: int)
    requires 0 <= i < j < |r|
    ensures multiset(r)[r[i]] >= if r[i] == r[j] then 2 else 1
  {
    assert r == r[..i] + [r[i]] + r[i + 1..j] + [r[j]] + r[j + 1..];
  }

  lemma {:induction false} CountAtMostOne(s: seq<Location>, x: Location)
    requires forall i, j | 0 <= i < j < |s| :: s[i] != s[j]
    ensures multiset(s)[x] <= 1
  {
    if |s| > 0 {
      var n := |s| - 1;
      assert s == s[..n] + [s[n]];
      CountAtMostOne(s[..n], x);
      if s[n] == x {
        assert x !in s[..n];
      }
    }
  }

  /** A location is in the group of its own field value. */
  lemma InGroup(all: seq<Location>, field: string, i: int)
    requires 0 <= i < |all|
    ensures all[i] in GroupOf(all, field, FieldKey(field)(all[i]))
  {
  }

  /** A repeated value heads a non-empty group whose first member is the value's
      first occurrence. */
  lemma RepeatedGroupHead(all: seq<Location>, field: string, v: Result<JVal>)
    requires v in Repeats(all, FieldKey(field))
    ensures |GroupOf(all, field, v)| > 0
    ensures exists i | 0 <= i < |all| ::
      IsFirst(all, FieldKey(field), i) && FieldKey(field)(all[i]) == v && GroupOf(all, field, v)[0] == all[i]
  {
    var key := FieldKey(field);
    RepeatsIff(all, key, v);
    CountKeyPositive(all, key, v);
    var m :| 0 <= m < |all| && key(all[m]) == v;
    FirstOccurrence(all, key, m);
    var i :| 0 <= i <= m && key(all[i]) == key(all[m]) && IsFirst(all, key, i);
    FilterHead(HasKey(field, v), all, i);
  }

  /** The values met more than once, in the order of their second occurrence. */
  function RepeatedValues(all: seq<Location>, field: string): seq<Result<JVal>>
  {
    Distinct(Repeats(all, FieldKey(field)))
  }

  lemma RepeatedSignificanceFails(all: seq<Location>, field: string, i: int)
    requires 0 <= i < |all|
    requires CountKey(all, FieldKey(field), FieldKey(field)(all[i])) >= 2
    requires all[i].significance != JNull
    ensures MostSignificant(all, field, RepeatedValues(all, field)).Err?
  {
    var key := FieldKey(field);
    var vs := RepeatedValues(all, field);
    var v := key(all[i]);
    RepeatsIff(all, key, v);
    var k :| 0 <= k < |vs| && vs[k] == v;
    var g := GroupOf(all, field, v);
    InGroup(all, field, i);
    var m :| 0 <= m < |g| && g[m] == all[i];
    assert !MaxWithKey(g).Ok?;
  }

  lemma FailureHasWitness(all: seq<Location>, field: string)
    requires MostSignificant(all, field, RepeatedValues(all, field)).Err?
    ensures exists i | 0 <= i < |all| ::
      CountKey(all, FieldKey(field), FieldKey(field)(all[i])) >= 2 && all[i].significance != JNull
  {
    var key := FieldKey(field);
    var vs := RepeatedValues(all, field);
    var k :| 0 <= k < |vs| &&
      !(|GroupOf(all, field, vs[k])| > 0 && MaxBySignificance(GroupOf(all, field, vs[k])).Ok?);
    var g := GroupOf(all, field, vs[k]);
    RepeatedGroupHead(all, field, vs[k]);
    assert !MaxWithKey(g).Ok?;
    var m :| 0 <= m < |g| && g[m].significance != JNull;
    GroupMember(all, field, vs[k], g[m]);
    var i :| 0 <= i < |all| && all[i] == g[m];
    RepeatsIff(all, key, vs[k]);
  }

  lemma GroupMember(all: seq<Location>, field: string, v: Result<JVal>, l: Location)
    requires l in GroupOf(all, field, v)
    ensures l in all && FieldKey(field)(l) == v
  {
  }

  /** The field rule fails exactly when some location's field is missing or
      cannot key a dictionary, or a location whose value is repeated carries an
      explicit significance (whose lookup raises). */
  lemma UniqueByFieldFails(all: seq<Location>, field: string, reverse: bool)
    ensures UniqueLocationsByField(all, field, reverse).Err? <==>
      || (exists i | 0 <= i < |all| :: !FieldUsable(field, all[i]))
      || (exists i | 0 <= i < |all| ::
            CountKey(all, FieldKey(field), FieldKey(field)(all[i])) >= 2 && all[i].significance != JNull)
  {
    var ms := MostSignificant(all, field, RepeatedValues(all, field));
    assert FirstFieldError(all, field).None? ==>
      (UniqueLocationsByField(all, field, reverse).Err? <==> ms.Err?);
    if ms.Err? {
      FailureHasWitness(all, field);
    }
    if exists i | 0 <= i < |all| ::
         CountKey(all, FieldKey(field), FieldKey(field)(all[i])) >= 2 && all[i].significance != JNull {
      var i :| 0 <= i < |all| &&
        CountKey(all, FieldKey(field), FieldKey(field)(all[i])) >= 2 && all[i].significance != JNull;
      RepeatedSignificanceFails(all, field, i);
    }
  }

  /** The locations met once. */
  function Uniques(all: seq<Location>, field: string): seq<Location>
  {
    Filter(SingleTest(all, field), all)
  }

  lemma KeptAreCandidates(all: seq<Location>, field: string, reverse: bool, l: Location)
    requires UniqueLocationsByField(all, field, reverse).Ok?
    ensures MostSignificant(all, field, RepeatedValues(all, field)).Ok?
    ensures l in UniqueLocationsByField(all, field, reverse).value <==>
      l in Uniques(all, field) + MostSignificant(all, field, RepeatedValues(all, field)).value
  {
    var c := Uniques(all, field) + MostSignificant(all, field, RepeatedValues(all, field)).value;
    var r := UniqueLocationsByField(all, field, reverse).value;
    assert r == SortLocations(Distinct(c), reverse);
    assert l in r <==> l in multiset(r);
    assert l in Distinct(c) <==> l in multiset(Distinct(c));
  }

  lemma UniqueIsFirst(all: seq<Location>, field: string, l: Location)
    requires l in Uniques(all, field)
    ensures exists i | 0 <= i < |all| :: all[i] == l && IsFirst(all, FieldKey(field), i)
  {
    var key := FieldKey(field);
    var i :| 0 <= i < |all| && all[i] == l;
    forall j | 0 <= j < i ensures key(all[j]) != key(all[i]) {
      if key(all[j]) == key(all[i]) { CountKeyTwo(all, key, j, i); }
    }
  }

  lemma FirstIsCandidate(all: seq<Location>, field: string, i: int)
    requires 0 <= i < |all| && IsFirst(all, FieldKey(field), i)
    requires MostSignificant(all, field, RepeatedValues(all, field)).Ok?
    ensures all[i] in Uniques(all, field) + MostSignificant(all, field, RepeatedValues(all, field)).value
  {
    var key := FieldKey(field);
    var vs := RepeatedValues(all, field);
    var bests := MostSignificant(all, field, vs).value;
    var v := key(all[i]);
    CountKeyPositive(all, key, v);
    if CountKey(all, key, v) != 1 {
      RepeatsIff(all, key, v);
      var k :| 0 <= k < |vs| && vs[k] == v;
      FilterHead(HasKey(field, v), all, i);
      assert bests[k] == all[i];
    }
  }

  /** When it succeeds, the field rule keeps exactly the first location of each
      field value. */
  lemma UniqueByFieldMembers(all: seq<Location>, field: string, reverse: bool, l: Location)
    requires UniqueLocationsByField(all, field, reverse).Ok?
    ensures l in UniqueLocationsByField(all, field, reverse).value <==>
      exists i | 0 <= i < |all| :: all[i] == l && IsFirst(all, FieldKey(field), i)
  {
    KeptAreCandidates(all, field, reverse, l);
    var vs := RepeatedValues(all, field);
    var bests := MostSignificant(all, field, vs).value;
    if l in Uniques(all, field) {
      UniqueIsFirst(all, field, l);
    }
    if l in bests {
      var k :| 0 <= k < |bests| && bests[k] == l;
      RepeatedGroupHead(all, field, vs[k]);
    }
    if exists i | 0 <= i < |all| :: all[i] == l && IsFirst(all, FieldKey(field), i) {
      var i :| 0 <= i < |all| && all[i] == l && IsFirst(all, FieldKey(field), i);
      FirstIsCandidate(all, field, i);
    }
  }

  /** No two kept locations share a field value. */
  lemma UniqueByFieldDistinctValues(all: seq<Location>, field: string, reverse: bool)
    ensures var r := UniqueLocationsByField(all, field, reverse);
      r.Ok? ==> forall i, j | 0 <= i < j < |r.value| :: FieldKey(field)(r.value[i]) != FieldKey(field)(r.value[j])
  {
    var key := FieldKey(field);
    if UniqueLocationsByField(all, field, reverse).Ok? {
      var r := UniqueLocationsByField(all, field, reverse).value;
      forall i, j | 0 <= i < j < |r| ensures key(r[i]) != key(r[j]) {
        UniqueByFieldMembers(all, field, reverse, r[i]);
        UniqueByFieldMembers(all, field, reverse, r[j]);
        var a :| 0 <= a < |all| && all[a] == r[i] && IsFirst(all, key, a);
        var b :| 0 <= b < |all| && all[b] == r[j] && IsFirst(all, key, b);
        assert a != b;
      }
    }
  }

  /** `unique_locations_by_big_name()`: every place has a big name, so only an
      explicit significance on a location whose big name repeats can fail it. */
  function UniqueLocationsByBigName(all: seq<Location>): (r: Result<seq<Location>>)
    ensures r.Err? <==> exists i | 0 <= i < |all| ::
      CountKey(all, FieldKey("big_name"), FieldKey("big_name")(all[i])) >= 2 && all[i].significance != JNull
    ensures r.Ok? ==> forall i, j | 0 <= i < j < |r.value| :: r.value[i].place.bigName != r.value[j].place.bigName
  {
    assert forall i | 0 <= i < |all| :: FieldUsable("big_name", all[i]);
    UniqueByFieldFails(all, "big_name", false);
    UniqueByFieldDistinctValues(all, "big_name", false);
    UniqueLocationsByField(all, "big_name", false)
  }

  /** `unique_places_by_field(field)`: the places of the kept locations, which
      differ pairwise in that field. */
  function UniquePlacesByField(all: seq<Location>, field: string): (r: Result<seq<Place>>)
    ensures r.Ok? <==> UniqueLocationsByField(all, field, false).Ok?
    ensures r.Ok? ==> forall i, j | 0 <= i < j < |r.value| ::
      FieldValue(r.value[i], field) != FieldValue(r.value[j], field)
  {
    var ls :- UniqueLocationsByField(all, field, false);
    UniqueByFieldDistinctValues(all, field, false);
    Ok(MapSeq(PlaceOf, ls))
  }
}

=== FILE: images.dfy ===
/** Photos and video clips (thisisthesitebuilder/images/models.py).

    `Multimedia` is the base class, `Image` adds the original file name and `Clip`
    adds a start offset and duration, always stores the extension "webm" and keeps
    the authored extension in `former_extension`. Offsets and durations are kept as
    their `str()` forms, which is all the builder ever does with them.
 */
module Images {
  import opened Wrappers

  datatype Kind =
    | Base
    | Image(orig: string)
    | Clip(start: string, duration: string, formerExtension: string)

  datatype Multimedia = Multimedia(
    kind: Kind,
    caption: string,
    hash: string,
    slug: string,
    time: string,
    date: string,
    extension: string,
    tags: seq<string>)

  /** Which class a media collection instantiates. */
  datatype MediaClass = MultimediaClass | ImageClass | ClipClass

  /** One decoded metadata record: its string-valued keys, and its `tags` list
      (None when the key is absent or null). */
  datatype MetaRecord = MetaRecord(fields: map<string, string>, tags: Option<seq<string>>)

  function ClassName(m: Multimedia): string
  {
    match m.kind
    case Base => "Multimedia"
    case Image(_) => "Image"
    case Clip(_, _, _) => "Clip"
  }

  function ClassOf(m: Multimedia): MediaClass
  {
    match m.kind
    case Base => MultimediaClass
    case Image(_) => ImageClass
    case Clip(_, _, _) => ClipClass
  }

  /** The keyword arguments each class's constructor cannot do without, in the
      order Python reports them. `ext` of a clip is popped separately. */
  function RequiredKeys(cls: MediaClass): set<string>
  {
    match cls
    case MultimediaClass => {"caption", "hash", "slug", "time", "ext"}
    case ImageClass => {"orig", "caption", "hash", "slug", "time", "ext"}
    case ClipClass => {"start", "duration", "caption", "hash", "slug", "time"}
  }

  predicate HasAll(fields: map<string, string>, keys: set<string>)
  {
    keys <= fields.Keys
  }

  /** `cls(date=day, **metadata)`. A duplicate `date` keyword or a missing
      constructor argument raises TypeError; a clip without `ext` raises KeyError
      from `kwargs.pop('ext')`. Unknown keys are swallowed by `**kwargs`. */
  function Construct(cls: MediaClass, day: string, rec: MetaRecord): (r: Result<Multimedia>)
    ensures r.Ok? <==>
      && "date" !in rec.fields
      && HasAll(rec.fields, RequiredKeys(cls))
      && "ext" in rec.fields
    ensures r.Ok? ==> ClassOf(r.value) == cls && r.value.date == day
    ensures r.Ok? ==> r.value.hash == rec.fields["hash"] && r.value.slug == rec.fields["slug"]
    ensures r.Ok? ==> r.value.time == rec.fields["time"]
    ensures r.Ok? && cls == ClipClass ==>
      r.value.extension == "webm" && r.value.kind.formerExtension == rec.fields["ext"]
    ensures r.Ok? && cls != ClipClass ==> r.value.extension == rec.fields["ext"]
    ensures r.Ok? ==> r.value.tags == (if rec.tags.Some? then rec.tags.value else [])
    ensures (cls == ClipClass && "date" !in rec.fields && {"start", "duration"} <= rec.fields.Keys
             && "ext" !in rec.fields) ==> r == Err(KeyError("ext"))
  {
    var f := rec.fields;
    var tags := if rec.tags.Some? then rec.tags.value else [];
    if "date" in f then Err(TypeError("got multiple values for keyword argument 'date'"))
    else if cls == ClipClass && "start" in f && "duration" in f && "ext" !in f then Err(KeyError("ext"))
    else if !HasAll(f, RequiredKeys(cls)) || "ext" !in f then Err(TypeError("missing a required argument"))
    else
      var kind :=
        match cls
        case MultimediaClass => Base
        case ImageClass => Image(f["orig"])
        case ClipClass => Clip(f["start"], f["duration"], f["ext"]);
      var ext := if cls == ClipClass then "webm" else f["ext"];
      Ok(Multimedia(kind, f["caption"], f["hash"], f["slug"], f["time"], day, ext, tags))
  }

  /** `distinguisher()`: the hash for an image, hash plus cut for a clip; the base
      class raises RuntimeError. */
  function Distinguisher(m: Multimedia): (r: Result<string>)
    ensures r.Err? <==> m.kind.Base?
    ensures m.kind.Image? ==> r == Ok(m.hash)
    ensures m.kind.Clip? ==> r.Ok? && |r.value| > |m.hash| && r.value[..|m.hash|] == m.hash
  {
    match m.kind
    case Base => Err(RuntimeError("distinguisher hasn't been set on this class."))
    case Image(_) => Ok(m.hash)
    case Clip(start, duration, _) => Ok(m.hash + "__" + start + "-" + duration)
  }

  /** "__slug" when the slug is non-empty, nothing otherwise. */
  function SlugPart(slug: string): string
  {
    if |slug| > 0 then "__" + slug else ""
  }

  /** `filename(orig)`. A clip ignores `orig`; the base class has no `orig`
      attribute, so asking it for the original name raises AttributeError. */
  function Filename(m: Multimedia, orig: bool): (r: Result<string>)
    ensures r.Err? <==> orig && m.kind.Base?
    ensures r.Ok? && !m.kind.Clip? ==>
      r.value == (if orig then m.kind.orig else m.date) + SlugPart(m.slug) + "__" + m.hash + "." + m.extension
  {
    match m.kind
    case Clip(start, duration, _) =>
      Ok(m.date + SlugPart(m.slug) + "__" + m.hash + "__" + start + "-" + duration + "." + m.extension)
    case Image(o) =>
      Ok((if orig then o else m.date) + SlugPart(m.slug) + "__" + m.hash + "." + m.extension)
    case Base =>
      if orig then Err(AttributeError("orig"))
      else Ok(m.date + SlugPart(m.slug) + "__" + m.hash + "." + m.extension)
  }

  /** The name a file is published under is the date, the optional slug, the
      distinguisher and the extension, for images and clips alike. */
  lemma FilenameEmbedsDistinguisher(m: Multimedia)
    requires !m.kind.Base?
    ensures Distinguisher(m).Ok? && Filename(m, false).Ok?
    ensures Filename(m, false).value ==
      m.date + SlugPart(m.slug) + "__" + Distinguisher(m).value + "." + m.extension
  {
  }

  /** A clip's file name does not depend on the `orig` flag. */
  lemma ClipFilenameIgnoresOrig(m: Multimedia)
    requires m.kind.Clip?
    ensures Filename(m, true) == Filename(m, false)
    ensures Filename(m, true).Ok?
  {
  }

  /** `__str__`: "date distinguisher (slug)". */
  function Str(m: Multimedia): (r: Result<string>)
    ensures r.Ok? <==> Distinguisher(m).Ok?
    ensures r.Ok? ==> r.value == m.date + " " + Distinguisher(m).value + " (" + m.slug + ")"
  {
    var d :- Distinguisher(m);
    Ok(m.date + " " + d + " (" + m.slug + ")")
  }

  function DateAndTime(m: Multimedia): (r: string)
    ensures |r| == |m.date| + 1 + |m.time|
    ensures r[..|m.date|] == m.date && r[|m.date|] == 'T' && r[|m.date| + 1..] == m.time
  {
    m.date + "T" + m.time
  }

  /** `url_path()`: the class-wide storage path (unset raises AttributeError)
      followed by the class name. */
  function UrlPath(storage: Option<string>, m: Multimedia): (r: Result<string>)
    ensures r.Ok? <==> storage.Some?
    ensures r.Ok? ==> r.value == storage.value + "/" + ClassName(m)
  {
    if storage.None? then Err(AttributeError("_storage_url_path"))
    else Ok(storage.value + "/" + ClassName(m))
  }

  /** `full_url()`: the file name in the `full` directory under the class's
      storage path. */
  function FullUrl(storage: Option<string>, m: Multimedia): (r: Result<string>)
    ensures r.Ok? <==> storage.Some?
    ensures r.Ok? ==> r.value == UrlPath(storage, m).value + "/full/" + Filename(m, false).value
  {
    var base :- UrlPath(storage, m);
    Ok(base + "/full/" + Filename(m, false).value)
  }

  /** `thumb_url()`: the same file name in the `thumbs` directory. */
  function ThumbUrl(storage: Option<string>, m: Multimedia): (r: Result<string>)
    ensures r.Ok? <==> storage.Some?
    ensures r.Ok? ==> r.value == UrlPath(storage, m).value + "/thumbs/" + Filename(m, false).value
  {
    var base :- UrlPath(storage, m);
    Ok(base + "/thumbs/" + Filename(m, false).value)
  }

  /** The full-size and thumbnail URLs of a medium share the storage path and
      the file name and differ only in the directory between them, so they are
      never the same URL. */
  lemma FullAndThumbUrls(storage: Option<string>, m: Multimedia)
    requires storage.Some?
    ensures var full, thumb, base := FullUrl(storage, m).value, ThumbUrl(storage, m).value, UrlPath(storage, m).value;
      && full[..|base|] == base && thumb[..|base|] == base
      && full[|full| - |Filename(m, false).value|..] == Filename(m, false).value
      && thumb[|thumb| - |Filename(m, false).value|..] == Filename(m, false).value
      && full != thumb
  {
    var full, thumb, base := FullUrl(storage, m).value, ThumbUrl(storage, m).value, UrlPath(storage, m).value;
    assert full[|base| + 1] == 'f' && thumb[|base| + 1] == 't';
  }

  /** `full_file_path(subdir)`: an empty subdir adds no segment, and the
      original-name form is used exactly for the "unchanged" subdir. A missing
      attribute surfaces as TypeError. */
  function FullFilePath(storage: Option<string>, m: Multimedia, subdir: string): (r: Result<string>)
    ensures r.Err? <==> storage.None? || (subdir == "unchanged" && m.kind.Base?)
    ensures r.Err? ==> r.error.TypeError?
    ensures r.Ok? && |subdir| == 0 ==>
      r.value == UrlPath(storage, m).value + "/" + Filename(m, false).value
    ensures r.Ok? && |subdir| > 0 ==>
      r.value == UrlPath(storage, m).value + "/" + subdir + "/" + Filename(m, subdir == "unchanged").value
  {
    var base := UrlPath(storage, m);
    var fn := Filename(m, subdir == "unchanged");
    if base.Err? || fn.Err? then Err(TypeError("does not have an image_file_path"))
    else Ok(base.value + "/" + (if |subdir| > 0 then subdir + "/" else "") + fn.value)
  }

  /** The published full-size and thumbnail URLs are the file paths under the
      "full" and "thumbs" sub-directories. */
  lemma UrlsAreSubdirPaths(storage: Option<string>, m: Multimedia)
    requires storage.Some?
    ensures FullUrl(storage, m) == FullFilePath(storage, m, "full")
    ensures ThumbUrl(storage, m) == FullFilePath(storage, m, "thumbs")
    ensures FullUrl(storage, m).Ok? && ThumbUrl(storage, m).Ok?
  {
    var base := storage.value + "/" + ClassName(m);
    var fn := Filename(m, false).value;
    assert "full" != "unchanged" && "thumbs" != "unchanged";
    assert base + "/" + ("full" + "/") + fn == base + "/full/" + fn;
    assert base + "/" + ("thumbs" + "/") + fn == base + "/thumbs/" + fn;
  }
}

=== FILE: json.dfy ===
/** The persisted metadata store: one JSON document per path, read with
    `json.loads(open(path).read())` and written wholesale with `json.dumps`.
    A path absent from the store is a file that does not exist.
 */
module Json {
  import opened Wrappers

  datatype JVal =
    | JNull
    | JBool(b: bool)
    | JNum(n: int)
    | JStr(s: string)
    | JArr(items: seq<JVal>)
    | JObj(fields: map<string, JVal>)

  /** The content of one stored file: either parseable JSON or not. */
  datatype StoredFile = Malformed | Parsed(json: JVal)

  type Store = map<string, StoredFile>

  /** `json.loads(open(path).read())` */
  function Load(store: Store, path: string): (r: Result<JVal>)
    ensures r == Err(FileNotFound(path)) <==> path !in store
    ensures r == Err(JsonDecodeError(path)) <==> path in store && store[path].Malformed?
    ensures r.Ok? <==> path in store && store[path].Parsed?
    ensures r.Ok? ==> store[path] == Parsed(r.value)
  {
    if path !in store then Err(FileNotFound(path))
    else match store[path]
      case Malformed => Err(JsonDecodeError(path))
      case Parsed(v) => Ok(v)
  }

  /** `value[key]` on a decoded document: only an object can be indexed by a string. */
  function Index(v: JVal, key: string): (r: Result<JVal>)
    ensures r.Ok? <==> v.JObj? && key in v.fields
    ensures r.Ok? ==> r.value == v.fields[key]
    ensures r == Err(KeyError(key)) <==> v.JObj? && key !in v.fields
  {
    match v
    case JObj(fields) => if key in fields then Ok(fields[key]) else Err(KeyError(key))
    case _ => Err(TypeError("indices must be integers"))
  }

  /** `value.get(key)`: None (JSON null) when the key is absent. */
  function Get(fields: map<string, JVal>, key: string): JVal
  {
    if key in fields then fields[key] else JNull
  }

  /** Python truthiness of a decoded JSON value. */
  predicate Truthy(v: JVal)
  {
    match v
    case JNull => false
    case JBool(b) => b
    case JNum(n) => n != 0
    case JStr(s) => |s| > 0
    case JArr(items) => |items| > 0
    case JObj(fields) => |fields| > 0
  }

  /** `open(path, "w").write(json.dumps(v))`: the whole file is replaced. */
  function Write(store: Store, path: string, v: JVal): (r: Store)
    ensures Load(r, path) == Ok(v)
    ensures forall p | p != path :: (p in r <==> p in store) && (p in store ==> r[p] == store[p])
  {
    store[path := Parsed(v)]
  }
}

/** What the core consumes from libraries it does not implement. */
module Collaborators {
  import opened Wrappers

  /** The Python value whose `str()` (or, for `Bytes`, whose encoded text) is the
      input of an MD5 digest. Two equal values always give equal digests. */
  datatype Canon =
    | StrList(items: seq<string>)              // str([s1, s2, ...])
    | Bytes(text: string)                      // a.encode() + b.encode()
    | DictRepr(pairs: seq<(string, string)>)   // str({k1: v1, ...}) in insertion order
    | PairList(pairs: seq<(string, string)>)   // str([(k1, v1), ...])

  /** `md5` is hashlib's hex digest of the canonical text (RFC 1321); `parse` is
      maya's date parser, giving epoch seconds or None when it raises. */
  datatype Env = Env(md5: Canon -> string, parse: string -> Option<int>, utcOffset: string)

  /** The `build_meta` dictionary handed to every content unit. */
  datatype BuildMeta = BuildMeta(dataDir: string, datetimeIso: string, dataChecksum: string)
}

=== FILE: ledger.dfy ===
/** The change-detection ledger of an era (`absorb_happenings()` in
    thisisthesitebuilder/experiences/models.py): five digests of what the era
    absorbed, compared with the ones recorded in its meta file by the previous
    build, and a new record written whenever any of them differs.
 */
module Ledger {
  import opened Wrappers
  import opened Strings
  import opened Sorting
  import opened Json
  import opened Collaborators
  import opened MediaCollections
  import opened Experiences
  import opened ExperienceMedia
  import opened ExperienceLayout

  /** The five digests, in the order the record's `what_changed` lists them. */
  datatype Digests = Digests(locations: JVal, multimedia: JVal, summaries: JVal, subs: JVal, text: JVal)

  /** Which digest differs from the recorded one. */
  datatype Flags = Flags(locations: bool, multimedia: bool, summaries: bool, subs: bool, text: bool)

  const AllChanged := Flags(true, true, true, true, true)

  predicate AnyChanged(f: Flags)
  {
    f.locations || f.multimedia || f.summaries || f.subs || f.text
  }

  function DigestList(d: Digests): seq<JVal>
  {
    [d.locations, d.multimedia, d.summaries, d.subs, d.text]
  }

  function FlagList(f: Flags): seq<bool>
  {
    [f.locations, f.multimedia, f.summaries, f.subs, f.text]
  }

  /** The record's keys for the five digests, in `what_changed` order. */
  const DigestKeys: seq<string> := ["locations", "multimedia", "summaries", "subs", "text"]

  function MetaFilename(dataDir: string, slug: string): string
  {
    dataDir + "/compiled/experiences/" + slug + ".json"
  }

  function EraName(e: Era): string { e.name }

  /** The sub-experiences' names, in order, digested as `str()` of the list. */
  function SubsDigest(env: Env, era: Era): JVal
  {
    JStr(env.md5(StrList(MapSeq(EraName, era.subs))))
  }

  /** The description's bytes followed by the summary's. */
  function TextDigest(env: Env, era: Era): JVal
  {
    JStr(env.md5(Bytes(era.description + era.summary)))
  }

  /** Each digest against the recorded value under its key, reading the keys
      in order and stopping at the first that cannot be read. */
  function Compare(d: Digests, stored: JVal): (r: Result<Flags>)
    ensures r.Ok? <==> stored.JObj? && forall k | k in DigestKeys :: k in stored.fields
    ensures r.Ok? ==> forall i | 0 <= i < 5 :: FlagList(r.value)[i] == (DigestList(d)[i] != stored.fields[DigestKeys[i]])
    ensures !stored.JObj? ==> r.Err? && r.error.TypeError?
  {
    var l :- Index(stored, "locations");
    var m :- Index(stored, "multimedia");
    var s :- Index(stored, "summaries");
    var b :- Index(stored, "subs");
    var t :- Index(stored, "text");
    Ok(Flags(d.locations != l, d.multimedia != m, d.summaries != s, d.subs != b, d.text != t))
  }

  /** The first of `keys` the object lacks. */
  function FirstMissing(keys: seq<string>, fields: map<string, JVal>): (r: Option<string>)
    ensures r.None? <==> forall k | k in keys :: k in fields
    ensures r.Some? ==> exists i | 0 <= i < |keys| ::
      && r.value == keys[i] && keys[i] !in fields
      && forall j | 0 <= j < i :: keys[j] in fields
  {
    if |keys| == 0 then None
    else if keys[0] !in fields then Some(keys[0])
    else
      var r := FirstMissing(keys[1..], fields);
      assert forall k | k in keys :: k == keys[0] || k in keys[1..];
      assert forall j | 1 <= j < |keys| :: keys[j] == keys[1..][j - 1];
      r
  }

  /** A record lacking a digest key is reported by the first key it lacks. */
  lemma CompareMissingKey(d: Digests, stored: JVal)
    requires stored.JObj? && Compare(d, stored).Err?
    ensures Compare(d, stored).error == KeyError(FirstMissing(DigestKeys, stored.fields).value)
  {
    var f := stored.fields;
    var ks := DigestKeys;
    assert ks[1..] == ["multimedia", "summaries", "subs", "text"];
    assert ks[2..] == ks[1..][1..] == ["summaries", "subs", "text"];
    assert ks[3..] == ks[2..][1..] == ["subs", "text"];
    assert ks[4..] == ks[3..][1..] == ["text"];
    if "locations" !in f {
      assert FirstMissing(ks, f) == Some("locations");
    } else if "multimedia" !in f {
      assert FirstMissing(ks[1..], f) == Some("multimedia");
    } else if "summaries" !in f {
      assert FirstMissing(ks[2..], f) == Some("summaries");
    } else if "subs" !in f {
      assert FirstMissing(ks[3..], f) == Some("subs");
    } else {
      assert FirstMissing(ks[4..], f) == Some("text");
    }
  }

  function JBoolOf(b: bool): JVal { JBool(b) }

  /** The record written for a changed era: the digests, the build's time and
      data checksum, and the five flags. */
  function Record(d: Digests, f: Flags, meta: BuildMeta): (r: JVal)
    ensures r.JObj?
    ensures forall i | 0 <= i < 5 :: DigestKeys[i] in r.fields && r.fields[DigestKeys[i]] == DigestList(d)[i]
    ensures Index(r, "what_changed") == Ok(JArr(MapSeq(JBoolOf, FlagList(f))))
    ensures Index(r, "datetime") == Ok(JStr(meta.datetimeIso))
    ensures Index(r, "build") == Ok(JStr(meta.dataChecksum))
  {
    JObj(map[
      "locations" := d.locations,
      "multimedia" := d.multimedia,
      "summaries" := d.summaries,
      "subs" := d.subs,
      "text" := d.text,
      "datetime" := JStr(meta.datetimeIso),
      "build" := JStr(meta.dataChecksum),
      "what_changed" := JArr(MapSeq(JBoolOf, FlagList(f)))])
  }

  /** The era after `absorb_happenings()`. `flags`, `hasChanged` and
      `previousMeta` stay unset (None) for an era that does not persist. */
  datatype Absorbed = Absorbed(
    locations: LocationsApplied,
    images: ImagesApplied,
    summaries: SummariesApplied,
    digests: Digests,
    flags: Option<Flags>,
    hasChanged: Option<bool>,
    previousMeta: Option<JVal>,
    store: Store)

  /** The digests of what was absorbed, in absorption order. */
  function Absorb(env: Env, era: Era, entries: seq<LocEntry>, days: seq<DayMedia>, summaries: seq<(string, string)>)
    : (r: Result<(LocationsApplied, ImagesApplied, SummariesApplied)>)
    requires DistinctKeys(summaries)
    ensures ApplyLocations(env, era, entries).Err? ==> r == Err(ApplyLocations(env, era, entries).error)
    ensures ApplyLocations(env, era, entries).Ok? && ApplyImages(env, era, days).Err? ==>
      r == Err(ApplyImages(env, era, days).error)
    ensures ApplyLocations(env, era, entries).Ok? && ApplyImages(env, era, days).Ok? ==>
      (r.Ok? <==> ApplySummaries(env, era, summaries).Ok?)
  {
    var locs :- ApplyLocations(env, era, entries);
    var imgs :- ApplyImages(env, era, days);
    var sums :- ApplySummaries(env, era, summaries);
    Ok((locs, imgs, sums))
  }

  function DigestsOf(env: Env, era: Era, a: (LocationsApplied, ImagesApplied, SummariesApplied)): Digests
  {
    Digests(a.0.digest, a.1.digest, a.2.digest, SubsDigest(env, era), TextDigest(env, era))
  }

  /** Settles the flags against the meta file and, when anything changed,
      writes the new record. */
  function Settle(era: Era, meta: BuildMeta, d: Digests, store: Store)
    : (r: Result<(Option<Flags>, Option<bool>, Option<JVal>, Store)>)
    ensures !era.persist ==> r == Ok((None, None, None, store))
    ensures r.Err? ==> era.persist && MetaFilename(meta.dataDir, era.slug) in store
    ensures r.Ok? && era.persist ==> r.value.0.Some? && r.value.1 == Some(AnyChanged(r.value.0.value))
    ensures r.Ok? && era.persist && AnyChanged(r.value.0.value) ==>
      && r.value.2 == Some(Record(d, r.value.0.value, meta))
      && Load(r.value.3, MetaFilename(meta.dataDir, era.slug)) == Ok(r.value.2.value)
    ensures r.Ok? && era.persist && !AnyChanged(r.value.0.value) ==>
      r.value.3 == store && r.value.2.Some? && Load(store, MetaFilename(meta.dataDir, era.slug)) == Ok(r.value.2.value)
  {
    if !era.persist then Ok((None, None, None, store))
    else
      var path := MetaFilename(meta.dataDir, era.slug);
      var flags :- if path !in store then Ok(AllChanged) else
        var stored :- Load(store, path);
        Compare(d, stored);
      if AnyChanged(flags) then
        var rec := Record(d, flags, meta);
        Ok((Some(flags), Some(true), Some(rec), Write(store, path, rec)))
      else
        Ok((Some(flags), Some(false), Some(store[path].json), store))
  }

  /** `absorb_happenings()`: locations, media and summaries are absorbed in that
      order (the first failure is the result), then the ledger is settled. */
  function AbsorbHappenings(env: Env, era: Era, meta: BuildMeta, entries: seq<LocEntry>, days: seq<DayMedia>,
                            summaries: seq<(string, string)>, store: Store): (r: Result<Absorbed>)
    requires DistinctKeys(summaries)
    ensures r.Ok? ==> Absorb(env, era, entries, days, summaries).Ok?
    ensures Absorb(env, era, entries, days, summaries).Err? ==> r == Err(Absorb(env, era, entries, days, summaries).error)
    ensures r.Ok? ==> r.value.digests == DigestsOf(env, era, Absorb(env, era, entries, days, summaries).value)
    ensures r.Ok? ==> (r.value.flags.Some? <==> era.persist) && (r.value.hasChanged.Some? <==> era.persist)
    ensures r.Ok? && era.persist ==> r.value.hasChanged.value == AnyChanged(r.value.flags.value)
  {
    var a :- Absorb(env, era, entries, days, summaries);
    var d := DigestsOf(env, era, a);
    var s :- Settle(era, meta, d, store);
    Ok(Absorbed(a.0, a.1, a.2, d, s.0, s.1, s.2, s.3))
  }

  // ---------------------------------------------------------------------------
  // What the ledger promises
  // ---------------------------------------------------------------------------

  /** An era that does not persist reads and writes nothing. */
  lemma NoPersistLeavesStore(env: Env, era: Era, meta: BuildMeta, entries: seq<LocEntry>, days: seq<DayMedia>,
                             summaries: seq<(string, string)>, store: Store)
    requires DistinctKeys(summaries) && !era.persist
    ensures var r := AbsorbHappenings(env, era, meta, entries, days, summaries, store);
      r.Ok? <==> Absorb(env, era, entries, days, summaries).Ok?
    ensures var r := AbsorbHappenings(env, era, meta, entries, days, summaries, store);
      r.Ok? ==> r.value.store == store && r.value.previousMeta.None?
  {
  }

  /** Without a meta file every digest counts as changed, and the new record
      is written to the era's meta file and kept as its previous meta. */
  lemma FirstAbsorbRecordsAll(env: Env, era: Era, meta: BuildMeta, entries: seq<LocEntry>, days: seq<DayMedia>,
                              summaries: seq<(string, string)>, store: Store)
    requires DistinctKeys(summaries) && era.persist
    requires MetaFilename(meta.dataDir, era.slug) !in store
    requires Absorb(env, era, entries, days, summaries).Ok?
    ensures var r := AbsorbHappenings(env, era, meta, entries, days, summaries, store);
      && r.Ok?
      && r.value.flags == Some(AllChanged)
      && r.value.hasChanged == Some(true)
      && r.value.previousMeta == Some(Record(r.value.digests, AllChanged, meta))
      && r.value.store == Write(store, MetaFilename(meta.dataDir, era.slug), Record(r.value.digests, AllChanged, meta))
  {
  }

  /** With a meta file, each flag says whether its digest differs from the
      recorded one; the era has changed exactly when some flag is set; a
      changed era rewrites only its own meta file, an unchanged one keeps the
      loaded record and writes nothing. */
  lemma AbsorbComparesRecord(env: Env, era: Era, meta: BuildMeta, entries: seq<LocEntry>, days: seq<DayMedia>,
                             summaries: seq<(string, string)>, store: Store)
    requires DistinctKeys(summaries) && era.persist
    requires var path := MetaFilename(meta.dataDir, era.slug); path in store && store[path].Parsed?
    requires AbsorbHappenings(env, era, meta, entries, days, summaries, store).Ok?
    ensures var path := MetaFilename(meta.dataDir, era.slug);
      var r := AbsorbHappenings(env, era, meta, entries, days, summaries, store).value;
      var stored := store[path].json;
      && stored.JObj?
      && (forall i | 0 <= i < 5 ::
            FlagList(r.flags.value)[i] == (DigestList(r.digests)[i] != stored.fields[DigestKeys[i]]))
      && (r.hasChanged.value ==>
            r.previousMeta == Some(Record(r.digests, r.flags.value, meta)) && r.store == Write(store, path, r.previousMeta.value))
      && (!r.hasChanged.value ==> r.previousMeta == Some(stored) && r.store == store)
  {
    var path := MetaFilename(meta.dataDir, era.slug);
    var d := DigestsOf(env, era, Absorb(env, era, entries, days, summaries).value);
    var s := Settle(era, meta, d, store);
    assert s.Ok? && Load(store, path) == Ok(store[path].json);
    assert s.value.0 == Some(Compare(d, store[path].json).value);
  }

  /** A meta file that cannot be read as the record fails the absorption: a
      file that is not JSON, a document that is not an object, or a missing
      digest key, reported for the first key in `what_changed` order. */
  lemma AbsorbRejectsBadRecord(env: Env, era: Era, meta: BuildMeta, entries: seq<LocEntry>, days: seq<DayMedia>,
                               summaries: seq<(string, string)>, store: Store)
    requires DistinctKeys(summaries) && era.persist
    requires Absorb(env, era, entries, days, summaries).Ok?
    requires MetaFilename(meta.dataDir, era.slug) in store
    ensures var path := MetaFilename(meta.dataDir, era.slug);
      var r := AbsorbHappenings(env, era, meta, entries, days, summaries, store);
      && (store[path].Malformed? ==> r == Err(JsonDecodeError(path)))
      && (store[path].Parsed? && !store[path].json.JObj? ==> r.Err? && r.error.TypeError?)
      && (store[path].Parsed? && store[path].json.JObj? ==>
            (r.Err? <==> exists k | k in DigestKeys :: k !in store[path].json.fields))
  {
  }

  /** Comparing digests with the record written for them finds nothing changed. */
  lemma CompareOwnRecord(d: Digests, f: Flags, meta: BuildMeta)
    ensures Compare(d, Record(d, f, meta)) == Ok(Flags(false, false, false, false, false))
  {
    var r := Record(d, f, meta);
    assert forall i | 0 <= i < 5 :: DigestKeys[i] in r.fields;
    assert forall k | k in DigestKeys :: k in r.fields;
  }

  /** Settling the same digests again, against the store the first settling
      left, finds nothing changed, writes nothing and keeps the same previous
      meta. */
  lemma SettleAgain(era: Era, meta: BuildMeta, d: Digests, store: Store)
    requires era.persist && Settle(era, meta, d, store).Ok?
    ensures var first := Settle(era, meta, d, store).value;
      Settle(era, meta, d, first.3) == Ok((Some(Flags(false, false, false, false, false)), Some(false), first.2, first.3))
  {
    var first := Settle(era, meta, d, store).value;
    var path := MetaFilename(meta.dataDir, era.slug);
    if first.1.value {
      CompareOwnRecord(d, first.0.value, meta);
    } else {
      var stored := store[path].json;
      assert Compare(d, stored) == Ok(first.0.value);
      assert first.0.value == Flags(false, false, false, false, false);
    }
  }

  /** Absorbing the same happenings again, against the store the first
      absorption left, reports no change and writes nothing: the ledger is
      idempotent. */
  lemma AbsorbAgainUnchanged(env: Env, era: Era, meta: BuildMeta, entries: seq<LocEntry>, days: seq<DayMedia>,
                             summaries: seq<(string, string)>, store: Store)
    requires DistinctKeys(summaries) && era.persist
    requires AbsorbHappenings(env, era, meta, entries, days, summaries, store).Ok?
    ensures var first := AbsorbHappenings(env, era, meta, entries, days, summaries, store).value;
      var again := AbsorbHappenings(env, era, meta, entries, days, summaries, first.store);
      && again.Ok?
      && again.value.hasChanged == Some(false)
      && again.value.store == first.store
      && again.value.previousMeta == first.previousMeta
  {
    var a := Absorb(env, era, entries, days, summaries).value;
    SettleAgain(era, meta, DigestsOf(env, era, a), store);
  }

  /** `what_changed()` on the record just written names exactly the changed
      locations, text and media, in that order. */
  lemma RecordReportsChanges(d: Digests, f: Flags, meta: BuildMeta)
    ensures WhatChanged(Record(d, f, meta)) == Ok(Join(ChangedLabels(f.locations, f.text, f.multimedia), ", "))
  {
    var r := Record(d, f, meta);
    WhatChangedJoinsLabels(r);
  }

  /** `last_updated()`: the build time recorded in the previous meta. */
  function LastUpdated(env: Env, previousMeta: JVal): (r: Result<int>)
    ensures r.Ok? <==> Index(previousMeta, "datetime").Ok? && Index(previousMeta, "datetime").value.JStr?
                       && env.parse(Index(previousMeta, "datetime").value.s).Some?
  {
    var dt :- Index(previousMeta, "datetime");
    if !dt.JStr? then Err(TypeError("expected string"))
    else match env.parse(dt.s)
      case None => Err(ParseFailure(dt.s))
      case Some(t) => Ok(t)
  }

  /** After a change the era was last updated by this build. */
  lemma ChangedEraUpdatedNow(env: Env, d: Digests, f: Flags, meta: BuildMeta)
    ensures LastUpdated(env, Record(d, f, meta)) ==
      match env.parse(meta.datetimeIso)
      case None => Err(ParseFailure(meta.datetimeIso))
      case Some(t) => Ok(t)
  {
  }
}

=== FILE: media_collections.dfy ===
/** Loading a directory of per-day media metadata files and indexing it
    (thisisthesitebuilder/images/build.py): `MultimediaCollection.walk_files`,
    `by_date`, `lookup_by_hash`, `lookup_by_slug`, and `intertwine`, which merges
    several collections day by day.

    The directory listing is the sequence of files in listing order; each file is
    already decoded (or marked as not valid JSON).
 */
module MediaCollections {
  import opened Wrappers
  import opened Strings
  import opened Sorting
  import opened Images
  import opened Occurrences

  datatype DayFile = DayFile(name: string, records: Option<seq<MetaRecord>>)

  /** The media built from one day file, in the file's order. */
  datatype DayMedia = DayMedia(day: string, media: seq<Multimedia>)

  datatype Collection = Collection(
    mediaClass: MediaClass,
    byDateMap: map<string, seq<Multimedia>>,
    byHash: map<string, Multimedia>,
    bySlug: map<string, Multimedia>,
    nonUniqueHashes: seq<string>,
    nonUniqueSlugs: seq<string>,
    count: nat)

  function HashOf(m: Multimedia): string { m.hash }
  function SlugOf(m: Multimedia): string { m.slug }
  function TimeOf(m: Multimedia): string { m.time }

  /** `metadata_file.strip(".json")` strips any of the characters '.', 'j', 's',
      'o', 'n' from both ends. */
  function DayOf(filename: string): string
  {
    Strip(filename, {'.', 'j', 's', 'o', 'n'})
  }

  /** A day's media ordered by time of day; media with equal times keep their order. */
  function SortByTime(ms: seq<Multimedia>): (r: seq<Multimedia>)
    ensures multiset(r) == multiset(ms)
    ensures SortedBy(r, TimeOf, StrLt)
    ensures StableFor(r, ms, TimeOf)
  {
    StringOrder();
    SortBy(ms, TimeOf, StrLt)
  }

  // ---------------------------------------------------------------------------
  // Building the media of each file
  // ---------------------------------------------------------------------------

  /** Applies `f` to every item in order, stopping at the first failure. */
  function TryAll<T, U>(f: T -> Result<U>, xs: seq<T>): (r: Result<seq<U>>)
    ensures r.Ok? <==> forall i | 0 <= i < |xs| :: f(xs[i]).Ok?
    ensures r.Ok? ==> |r.value| == |xs|
    ensures r.Ok? ==> forall i | 0 <= i < |xs| :: f(xs[i]) == Ok(r.value[i])
  {
    if |xs| == 0 then Ok([])
    else
      var first := f(xs[0]);
      if first.Err? then Err(first.error)
      else
        var rest := TryAll(f, xs[1..]);
        Shifted(xs);
        if rest.Err? then Err(rest.error)
        else Ok([first.value] + rest.value)
  }

  lemma Shifted<T>(xs: seq<T>)
    requires |xs| > 0
    ensures forall i | 1 <= i < |xs| :: xs[i] == xs[1..][i - 1]
  {
  }

  /** A failure is the error of the first item that fails. */
  lemma {:induction false} TryAllFirstError<T, U>(f: T -> Result<U>, xs: seq<T>)
    requires TryAll(f, xs).Err?
    ensures exists i | 0 <= i < |xs| ::
      && f(xs[i]) == Err(TryAll(f, xs).error)
      && forall j | 0 <= j < i :: f(xs[j]).Ok?
  {
    var e := TryAll(f, xs).error;
    if f(xs[0]).Err? {
      assert f(xs[0]) == Err(e);
    } else {
      var tail := xs[1..];
      TryAllFirstError(f, tail);
      var i :| 0 <= i < |tail| && f(tail[i]) == Err(e) && forall j | 0 <= j < i :: f(tail[j]).Ok?;
      Shifted(xs);
      assert f(xs[i + 1]) == Err(e);
      assert forall j | 0 <= j < i + 1 :: f(xs[j]).Ok?;
    }
  }

  /** Constructs the records of one file in order, stopping at the first failure. */
  function ConstructAll(cls: MediaClass, day: string, recs: seq<MetaRecord>): (r: Result<seq<Multimedia>>)
    ensures r.Ok? <==> forall i | 0 <= i < |recs| :: Construct(cls, day, recs[i]).Ok?
    ensures r.Ok? ==> |r.value| == |recs|
    ensures r.Ok? ==> forall i | 0 <= i < |recs| :: Construct(cls, day, recs[i]) == Ok(r.value[i])
  {
    TryAll(rec => Construct(cls, day, rec), recs)
  }

  /** A failed file reports the error of its first record that does not fit. */
  lemma ConstructAllFirstError(cls: MediaClass, day: string, recs: seq<MetaRecord>)
    requires ConstructAll(cls, day, recs).Err?
    ensures exists i | 0 <= i < |recs| ::
      && Construct(cls, day, recs[i]) == Err(ConstructAll(cls, day, recs).error)
      && forall j | 0 <= j < i :: Construct(cls, day, recs[j]).Ok?
  {
    var f := rec => Construct(cls, day, rec);
    TryAllFirstError(f, recs);
    var i :| 0 <= i < |recs| && f(recs[i]) == Err(TryAll(f, recs).error) && forall j | 0 <= j < i :: f(recs[j]).Ok?;
    assert Construct(cls, day, recs[i]) == Err(ConstructAll(cls, day, recs).error);
  }

  /** Reads every file in listing order: an undecodable file raises ValueError
      naming it (the text leaves out the decoder's message, which Python appends
      after ": "), a record that does not fit the class raises TypeError (or, for a
      clip without `ext`, KeyError). */
  function ParseDays(cls: MediaClass, files: seq<DayFile>): (r: Result<seq<DayMedia>>)
    ensures |files| > 0 && files[0].records.None? ==>
      r == Err(ValueError("Problem with image metadata " + files[0].name))
  {
    if |files| == 0 then Ok([])
    else
      var f := files[0];
      if f.records.None? then Err(ValueError("Problem with image metadata " + f.name))
      else
        var media :- ConstructAll(cls, DayOf(f.name), f.records.value);
        var rest :- ParseDays(cls, files[1..]);
        Ok([DayMedia(DayOf(f.name), media)] + rest)
  }

  predicate FileFails(cls: MediaClass, f: DayFile)
  {
    f.records.None? || ConstructAll(cls, DayOf(f.name), f.records.value).Err?
  }

  /** Loading fails exactly when some file is undecodable or holds a record the
      class cannot be built from. */
  lemma {:induction false} ParseDaysFails(cls: MediaClass, files: seq<DayFile>)
    ensures ParseDays(cls, files).Err? <==> exists i | 0 <= i < |files| :: FileFails(cls, files[i])
  {
    if |files| > 0 {
      ParseDaysFails(cls, files[1..]);
      assert forall i | 1 <= i < |files| :: files[i] == files[1..][i - 1];
      if exists i | 0 <= i < |files| :: FileFails(cls, files[i]) {
        var i :| 0 <= i < |files| && FileFails(cls, files[i]);
        if i > 0 {
          assert FileFails(cls, files[1..][i - 1]);
        }
      }
    }
  }

  /** Day `d` is what file `f` loads as: the file decodes, the day is its
      stripped name, and the media are its records built in order. */
  predicate DayBuilt(cls: MediaClass, f: DayFile, d: DayMedia)
  {
    && f.records.Some?
    && d.day == DayOf(f.name)
    && ConstructAll(cls, DayOf(f.name), f.records.value) == Ok(d.media)
  }

  /** The first day of a successful load comes from the first file. */
  lemma ParseDaysHead(cls: MediaClass, files: seq<DayFile>, days: seq<DayMedia>)
    requires |files| > 0 && ParseDays(cls, files) == Ok(days)
    ensures |days| > 0 && DayBuilt(cls, files[0], days[0])
  {
  }

  /** The remaining days of a successful load are the load of the remaining
      files. */
  lemma ParseDaysTail(cls: MediaClass, files: seq<DayFile>, days: seq<DayMedia>)
    requires |files| > 0 && ParseDays(cls, files) == Ok(days)
    ensures |days| > 0 && ParseDays(cls, files[1..]) == Ok(days[1..])
  {
  }

  /** Each day is what the file at its position loads as. */
  predicate Loaded(cls: MediaClass, files: seq<DayFile>, days: seq<DayMedia>)
  {
    && |days| == |files|
    && (|files| > 0 ==> DayBuilt(cls, files[0], days[0]) && Loaded(cls, files[1..], days[1..]))
  }

  lemma {:induction false} ParseDaysLoaded(cls: MediaClass, files: seq<DayFile>, days: seq<DayMedia>)
    requires ParseDays(cls, files) == Ok(days)
    ensures Loaded(cls, files, days)
  {
    if |files| > 0 {
      ParseDaysHead(cls, files, days);
      ParseDaysTail(cls, files, days);
      ParseDaysLoaded(cls, files[1..], days[1..]);
    } else {
      assert days == [];
    }
  }

  lemma {:induction false} LoadedAt(cls: MediaClass, files: seq<DayFile>, days: seq<DayMedia>, i: nat)
    requires Loaded(cls, files, days) && i < |files|
    ensures i < |days| && DayBuilt(cls, files[i], days[i])
  {
    if i > 0 {
      LoadedAt(cls, files[1..], days[1..], i - 1);
      assert files[1..][i - 1] == files[i] && days[1..][i - 1] == days[i];
    }
  }

  /** A successful load has one day per file, named by the stripped file name and
      holding that file's media in order. */
  lemma ParseDaysShape(cls: MediaClass, files: seq<DayFile>, days: seq<DayMedia>)
    requires ParseDays(cls, files) == Ok(days)
    ensures |days| == |files|
    ensures forall i | 0 <= i < |files| ::
      && files[i].records.Some?
      && days[i].day == DayOf(files[i].name)
      && ConstructAll(cls, DayOf(files[i].name), files[i].records.value) == Ok(days[i].media)
  {
    ParseDaysLoaded(cls, files, days);
    forall i | 0 <= i < |files|
      ensures files[i].records.Some?
      ensures days[i].day == DayOf(files[i].name)
      ensures ConstructAll(cls, DayOf(files[i].name), files[i].records.value) == Ok(days[i].media)
    {
      LoadedAt(cls, files, days, i);
      assert DayBuilt(cls, files[i], days[i]);
    }
  }

  function Flatten(days: seq<DayMedia>): seq<Multimedia>
  {
    if |days| == 0 then []
    else Flatten(days[..|days| - 1]) + days[|days| - 1].media
  }

  lemma {:induction false} FlattenFront(days: seq<DayMedia>)
    requires |days| > 0
    ensures Flatten(days) == days[0].media + Flatten(days[1..])
  {
    var n := |days| - 1;
    if n > 0 {
      FlattenFront(days[..n]);
      assert days[..n][1..] == days[1..][..n - 1];
      assert days[..n][0] == days[0];
    }
  }

  /** Total number of records across all files: the collection's `count`. */
  function RecordCount(files: seq<DayFile>): nat
  {
    if |files| == 0 then 0
    else (if files[0].records.Some? then |files[0].records.value| else 0) + RecordCount(files[1..])
  }

  // ---------------------------------------------------------------------------
  // The by-date index: a file with no records leaves no entry; a later file for
  // the same day replaces an earlier one.
  // ---------------------------------------------------------------------------

  ghost predicate IsLastNonEmpty(days: seq<DayMedia>, i: int)
  {
    && 0 <= i < |days|
    && |days[i].media| > 0
    && forall j | i < j < |days| :: days[j].day == days[i].day ==> |days[j].media| == 0
  }

  function ByDateMap(days: seq<DayMedia>): (m: map<string, seq<Multimedia>>)
    ensures forall d | d in m :: |m[d]| > 0
  {
    if |days| == 0 then map[]
    else
      var last := days[|days| - 1];
      var m := ByDateMap(days[..|days| - 1]);
      if |last.media| > 0 then m[last.day := SortByTime(last.media)] else m
  }

  /** A day has an entry exactly when some file for it has records. */
  lemma {:induction false} ByDateMapKeys(days: seq<DayMedia>, d: string)
    ensures d in ByDateMap(days) <==> exists i | 0 <= i < |days| :: days[i].day == d && |days[i].media| > 0
  {
    if |days| > 0 {
      var n := |days| - 1;
      var pre := days[..n];
      ByDateMapKeys(pre, d);
      if days[n].day == d && |days[n].media| > 0 {
        assert d in ByDateMap(days);
      } else {
        assert d in ByDateMap(days) <==> d in ByDateMap(pre);
        if exists i | 0 <= i < |days| :: days[i].day == d && |days[i].media| > 0 {
          var i :| 0 <= i < |days| && days[i].day == d && |days[i].media| > 0;
          assert i != n;
          assert pre[i] == days[i];
        }
        if exists i | 0 <= i < n :: pre[i].day == d && |pre[i].media| > 0 {
          var i :| 0 <= i < n && pre[i].day == d && |pre[i].media| > 0;
          assert days[i] == pre[i];
        }
      }
    }
  }

  /** The entry of a day is the time-sorted media of the last file for it that has
      records. */
  lemma {:induction false} ByDateMapValues(days: seq<DayMedia>, i: int)
    requires IsLastNonEmpty(days, i)
    ensures days[i].day in ByDateMap(days)
    ensures ByDateMap(days)[days[i].day] == SortByTime(days[i].media)
  {
    var n := |days| - 1;
    if i < n {
      var pre := days[..n];
      LastNonEmptyInPrefix(days, i);
      ByDateMapValues(pre, i);
      assert days[n].day == days[i].day ==> |days[n].media| == 0;
      assert pre[i] == days[i];
    }
  }

  lemma LastNonEmptyInPrefix(days: seq<DayMedia>, i: int)
    requires IsLastNonEmpty(days, i) && i < |days| - 1
    ensures IsLastNonEmpty(days[..|days| - 1], i)
  {
    var pre := days[..|days| - 1];
    assert forall j | 0 <= j < |pre| :: pre[j] == days[j];
  }

  // ---------------------------------------------------------------------------
  // First-occurrence indexes with the list of repeated keys
  // ---------------------------------------------------------------------------

  ghost predicate IndexedFirst<V>(first: map<string, V>, items: seq<V>, key: V -> string)
  {
    && (forall k :: k in first <==> exists i | 0 <= i < |items| :: key(items[i]) == k)
    && (forall i | 0 <= i < |items| && IsFirst(items, key, i) :: first[key(items[i])] == items[i])
  }

  /** The indexing loop of `walk_files`: the first item wins a key, and every later
      item with that key appends the key to the repeated list. */
  method IndexFirst<V>(items: seq<V>, key: V -> string) returns (first: map<string, V>, repeats: seq<string>)
    ensures IndexedFirst(first, items, key)
    ensures repeats == Repeats(items, key)
  {
    first := map[];
    repeats := [];
    var i := 0;
    while i < |items|
      invariant 0 <= i <= |items|
      invariant forall k :: k in first <==> exists j | 0 <= j < i :: key(items[j]) == k
      invariant forall j | 0 <= j < i && IsFirst(items, key, j) :: first[key(items[j])] == items[j]
      invariant repeats == Repeats(items[..i], key)
    {
      var k := key(items[i]);
      RepeatsStep(items, key, i);
      if k !in first {
        assert IsFirst(items, key, i);
        first := first[k := items[i]];
      } else {
        assert !IsFirst(items, key, i);
        repeats := repeats + [k];
      }
      i := i + 1;
    }
    assert items[..i] == items;
  }

  // ---------------------------------------------------------------------------
  // The collection
  // ---------------------------------------------------------------------------

  /** What a loaded collection holds, stated against the media of its files. */
  ghost predicate Indexes(c: Collection, cls: MediaClass, days: seq<DayMedia>)
  {
    var all := Flatten(days);
    && c.mediaClass == cls
    && c.count == |all|
    && c.byDateMap == ByDateMap(days)
    && IndexedFirst(c.byHash, all, HashOf)
    && c.nonUniqueHashes == Repeats(all, HashOf)
    && IndexedFirst(c.bySlug, all, SlugOf)
    && c.nonUniqueSlugs == Repeats(all, SlugOf)
  }

  lemma {:induction false} FlattenCount(cls: MediaClass, files: seq<DayFile>, days: seq<DayMedia>)
    requires ParseDays(cls, files) == Ok(days)
    ensures |Flatten(days)| == RecordCount(files)
  {
    if |files| > 0 {
      var rest := ParseDays(cls, files[1..]);
      assert rest.Ok? && days == [days[0]] + rest.value;
      FlattenCount(cls, files[1..], rest.value);
      assert days[1..] == rest.value;
      FlattenFront(days);
    }
  }

  /** `MultimediaCollection(data_dir, cls)`: reads every day file and builds the
      by-date, by-hash and by-slug indexes. */
  method WalkFiles(cls: MediaClass, files: seq<DayFile>) returns (r: Result<Collection>)
    ensures r.Err? <==> ParseDays(cls, files).Err?
    ensures r.Err? ==> r.error == ParseDays(cls, files).error
    ensures r.Ok? ==> Indexes(r.value, cls, ParseDays(cls, files).value)
    ensures r.Ok? ==> r.value.count == RecordCount(files)
  {
    var parsed := ParseDays(cls, files);
    if parsed.Err? {
      return Err(parsed.error);
    }
    var days := parsed.value;
    var all := Flatten(days);
    var byHash, hashRepeats := IndexFirst(all, HashOf);
    var bySlug, slugRepeats := IndexFirst(all, SlugOf);
    FlattenCount(cls, files, days);
    r := Ok(Collection(cls, ByDateMap(days), byHash, bySlug, hashRepeats, slugRepeats, |all|));
  }

  /** `by_date()`: the days in ascending order with their media. */
  function ByDate(c: Collection): (r: seq<DayMedia>)
    ensures MapSeq(DayName, r) == SortedSet(c.byDateMap.Keys)
    ensures forall i | 0 <= i < |r| :: r[i].day in c.byDateMap && r[i].media == c.byDateMap[r[i].day]
  {
    var keys := SortedSet(c.byDateMap.Keys);
    assert forall i | 0 <= i < |keys| :: keys[i] in c.byDateMap;
    var r := seq(|keys|, i requires 0 <= i < |keys| => DayMedia(keys[i], c.byDateMap[keys[i]]));
    assert MapSeq(DayName, r) == keys;
    r
  }

  /** The by-date listing is strictly ascending and has exactly the indexed days. */
  lemma ByDateSpec(c: Collection)
    ensures StrictlyAscending(MapSeq(DayName, ByDate(c)))
    ensures forall d :: d in c.byDateMap <==> exists i | 0 <= i < |ByDate(c)| :: ByDate(c)[i].day == d
  {
    var r := ByDate(c);
    var keys := MapSeq(DayName, r);
    forall d ensures d in c.byDateMap <==> exists i | 0 <= i < |r| :: r[i].day == d {
      if d in c.byDateMap {
        assert d in keys;
        var i :| 0 <= i < |keys| && keys[i] == d;
        assert r[i].day == d;
      }
      if exists i | 0 <= i < |r| :: r[i].day == d {
        var i :| 0 <= i < |r| && r[i].day == d;
        assert keys[i] == d;
      }
    }
  }

  function DayName(d: DayMedia): string { d.day }

  /** `lookup_by_hash(h)`: a hash marked as repeated is refused before the
      index is consulted; an unindexed one is a KeyError. */
  function LookupByHash(c: Collection, h: string): (r: Result<Multimedia>)
    ensures h in c.nonUniqueHashes ==> r == Err(ValueError("The hash " + h + " is not unique."))
    ensures h !in c.nonUniqueHashes ==> (r.Ok? <==> h in c.byHash) && (r.Err? ==> r == Err(KeyError(h)))
    ensures r.Ok? ==> r.value == c.byHash[h]
  {
    if h !in c.nonUniqueHashes then
      if h in c.byHash then Ok(c.byHash[h]) else Err(KeyError(h))
    else Err(ValueError("The hash " + h + " is not unique."))
  }

  /** `lookup_by_slug(s)`: the same for slugs. */
  function LookupBySlug(c: Collection, s: string): (r: Result<Multimedia>)
    ensures s in c.nonUniqueSlugs ==> r == Err(ValueError("The slug " + s + " is not unique."))
    ensures s !in c.nonUniqueSlugs ==> (r.Ok? <==> s in c.bySlug) && (r.Err? ==> r == Err(KeyError(s)))
    ensures r.Ok? ==> r.value == c.bySlug[s]
  {
    if s !in c.nonUniqueSlugs then
      if s in c.bySlug then Ok(c.bySlug[s]) else Err(KeyError(s))
    else Err(ValueError("The slug " + s + " is not unique."))
  }

  /** Shared reasoning for both lookups: unseen key, repeated key, unique key. */
  lemma LookupIndexed(first: map<string, Multimedia>, repeats: seq<string>, all: seq<Multimedia>,
                      key: Multimedia -> string, k: string)
    requires IndexedFirst(first, all, key) && repeats == Repeats(all, key)
    ensures CountKey(all, key, k) == 0 <==> k !in first
    ensures k in repeats <==> CountKey(all, key, k) >= 2
    ensures CountKey(all, key, k) == 1 ==> exists i | 0 <= i < |all| :: key(all[i]) == k && first[k] == all[i]
  {
    CountKeyPositive(all, key, k);
    RepeatsIff(all, key, k);
    if CountKey(all, key, k) == 1 {
      var i :| 0 <= i < |all| && key(all[i]) == k;
      FirstOccurrence(all, key, i);
    }
  }

  /** A hash lookup fails with KeyError for a hash no medium has, with ValueError
      for a hash two or more media share, and otherwise returns the medium that
      carries it. */
  lemma LookupByHashSemantics(c: Collection, cls: MediaClass, days: seq<DayMedia>, h: string)
    requires Indexes(c, cls, days)
    ensures CountKey(Flatten(days), HashOf, h) == 0 <==> LookupByHash(c, h) == Err(KeyError(h))
    ensures CountKey(Flatten(days), HashOf, h) >= 2 <==>
      LookupByHash(c, h) == Err(ValueError("The hash " + h + " is not unique."))
    ensures CountKey(Flatten(days), HashOf, h) == 1 <==> LookupByHash(c, h).Ok?
    ensures LookupByHash(c, h).Ok? ==> LookupByHash(c, h).value.hash == h && LookupByHash(c, h).value in Flatten(days)
  {
    LookupIndexed(c.byHash, c.nonUniqueHashes, Flatten(days), HashOf, h);
  }

  /** The same three outcomes for a slug lookup. */
  lemma LookupBySlugSemantics(c: Collection, cls: MediaClass, days: seq<DayMedia>, s: string)
    requires Indexes(c, cls, days)
    ensures CountKey(Flatten(days), SlugOf, s) == 0 <==> LookupBySlug(c, s) == Err(KeyError(s))
    ensures CountKey(Flatten(days), SlugOf, s) >= 2 <==>
      LookupBySlug(c, s) == Err(ValueError("The slug " + s + " is not unique."))
    ensures CountKey(Flatten(days), SlugOf, s) == 1 <==> LookupBySlug(c, s).Ok?
    ensures LookupBySlug(c, s).Ok? ==> LookupBySlug(c, s).value.slug == s && LookupBySlug(c, s).value in Flatten(days)
  {
    LookupIndexed(c.bySlug, c.nonUniqueSlugs, Flatten(days), SlugOf, s);
  }

  // ---------------------------------------------------------------------------
  // intertwine(*collections)
  // ---------------------------------------------------------------------------

  function AllDays(cs: seq<Collection>): (r: set<string>)
    ensures forall d :: d in r <==> exists i | 0 <= i < |cs| :: d in cs[i].byDateMap
  {
    if |cs| == 0 then {}
    else
      var rest := AllDays(cs[1..]);
      assert forall i | 1 <= i < |cs| :: cs[i] == cs[1..][i - 1];
      cs[0].byDateMap.Keys + rest
  }

  /** The day's media of a collection, when `by_date().get(day)` is non-empty. */
  function DayList(c: Collection, day: string): seq<Multimedia>
  {
    if day in c.byDateMap && |c.byDateMap[day]| > 0 then c.byDateMap[day] else []
  }

  /** The day's media of all collections, concatenated in argument order. */
  function Concatenated(cs: seq<Collection>, day: string): (r: seq<Multimedia>)
    ensures |cs| > 0 ==> r == DayList(cs[0], day) + Concatenated(cs[1..], day)
    ensures forall m :: m in r <==> exists i | 0 <= i < |cs| :: m in DayList(cs[i], day)
  {
    if |cs| == 0 then []
    else
      var rest := Concatenated(cs[1..], day);
      assert forall i | 1 <= i < |cs| :: cs[i] == cs[1..][i - 1];
      DayList(cs[0], day) + rest
  }

  /** Every day any collection has, ascending; each day's media are the
      concatenation of the collections' lists in argument order, stably sorted by
      time of day. */
  function Intertwine(cs: seq<Collection>): (r: seq<DayMedia>)
    ensures MapSeq(DayName, r) == SortedSet(AllDays(cs))
    ensures forall i | 0 <= i < |r| :: r[i].media == SortByTime(Concatenated(cs, r[i].day))
  {
    var keys := SortedSet(AllDays(cs));
    var r := seq(|keys|, i requires 0 <= i < |keys| => DayMedia(keys[i], SortByTime(Concatenated(cs, keys[i]))));
    assert MapSeq(DayName, r) == keys;
    r
  }

  /** What the merge promises: ascending days covering every collection's days,
      and per day a stable time-ordering of the argument-order concatenation. */
  lemma IntertwineSpec(cs: seq<Collection>)
    ensures StrictlyAscending(MapSeq(DayName, Intertwine(cs)))
    ensures forall d :: d in MapSeq(DayName, Intertwine(cs)) <==> exists j | 0 <= j < |cs| :: d in cs[j].byDateMap
    ensures forall i | 0 <= i < |Intertwine(cs)| ::
      var day := Intertwine(cs)[i];
      && multiset(day.media) == multiset(Concatenated(cs, day.day))
      && SortedBy(day.media, TimeOf, StrLt)
      && StableFor(day.media, Concatenated(cs, day.day), TimeOf)
  {
  }
}

=== FILE: occurrences.dfy ===
/** First occurrences, repeats and counts of keys in a sequence: the bookkeeping
    behind Python's "first one wins, remember the duplicates" dictionary loops.
 */
module Occurrences {

  /** No earlier item has the same key as item `i`. */
  predicate IsFirst<V, K(==)>(items: seq<V>, key: V -> K, i: int)
    requires 0 <= i < |items|
  {
    forall j | 0 <= j < i :: key(items[j]) != key(items[i])
  }

  /** The keys of all items that are not the first with their key, in order. */
  function Repeats<V, K(==)>(items: seq<V>, key: V -> K): seq<K>
  {
    if |items| == 0 then []
    else
      var n := |items| - 1;
      Repeats(items[..n], key) + (if IsFirst(items, key, n) then [] else [key(items[n])])
  }

  /** How many items carry key `k`. */
  function CountKey<V, K(==)>(items: seq<V>, key: V -> K, k: K): nat
  {
    if |items| == 0 then 0
    else
      var n := |items| - 1;
      CountKey(items[..n], key, k) + (if key(items[n]) == k then 1 else 0)
  }

  lemma {:induction false} CountKeyPositive<V, K>(items: seq<V>, key: V -> K, k: K)
    ensures CountKey(items, key, k) > 0 <==> exists j | 0 <= j < |items| :: key(items[j]) == k
  {
    if |items| > 0 {
      var n := |items| - 1;
      CountKeyPositive(items[..n], key, k);
      assert forall j | 0 <= j < n :: items[..n][j] == items[j];
    }
  }

  /** A key is listed as repeated exactly when at least two items carry it. */
  lemma {:induction false} RepeatsIff<V, K>(items: seq<V>, key: V -> K, k: K)
    ensures k in Repeats(items, key) <==> CountKey(items, key, k) >= 2
  {
    if |items| > 0 {
      var n := |items| - 1;
      RepeatsIff(items[..n], key, k);
      CountKeyPositive(items[..n], key, k);
      assert forall j | 0 <= j < n :: items[..n][j] == items[j];
    }
  }

  lemma {:induction false} FirstOccurrence<V, K>(items: seq<V>, key: V -> K, i: int)
    requires 0 <= i < |items|
    ensures exists j | 0 <= j <= i :: key(items[j]) == key(items[i]) && IsFirst(items, key, j)
    decreases i
  {
    if !IsFirst(items, key, i) {
      var j :| 0 <= j < i && key(items[j]) == key(items[i]);
      FirstOccurrence(items, key, j);
    }
  }

  lemma RepeatsStep<V, K>(items: seq<V>, key: V -> K, i: int)
    requires 0 <= i < |items|
    ensures Repeats(items[..i + 1], key) ==
      Repeats(items[..i], key) + (if IsFirst(items, key, i) then [] else [key(items[i])])
  {
    assert items[..i + 1][..i] == items[..i];
    assert IsFirst(items[..i + 1], key, i) <==> IsFirst(items, key, i);
  }

  /** Each value once, at its first position: `list(dict.fromkeys(items))`, or
      the "append unless already seen" loop. */
  function Distinct<T(==,!new)>(items: seq<T>): (r: seq<T>)
    ensures forall x :: x in r <==> x in items
    ensures forall i, j | 0 <= i < j < |r| :: r[i] != r[j]
  {
    if |items| == 0 then []
    else
      var n := |items| - 1;
      var prefix := Distinct(items[..n]);
      assert forall x :: x in items <==> x in items[..n] || x == items[n];
      if items[n] in prefix then prefix else prefix + [items[n]]
  }

  /** Two different items with the same key make that key repeated. */
  lemma {:induction false} CountKeyTwo<V, K>(items: seq<V>, key: V -> K, i: int, j: int)
    requires 0 <= i < j < |items| && key(items[i]) == key(items[j])
    ensures CountKey(items, key, key(items[i])) >= 2
  {
    var n := |items| - 1;
    var k := key(items[i]);
    assert forall m | 0 <= m < n :: items[..n][m] == items[m];
    if j < n {
      CountKeyTwo(items[..n], key, i, j);
    } else {
      CountKeyPositive(items[..n], key, k);
    }
  }
}

=== FILE: pages.dfy ===
/** A page of the site and its change detection
    (thisisthesitebuilder/pages/models.py): the page is re-rendered only when the
    digest of its active context differs from the one its meta file recorded,
    and every re-render records the new digest.
 */
module Pages {
  import opened Wrappers
  import opened Strings
  import opened Sorting
  import opened Json
  import opened Collaborators

  /** What a page consumes from libraries outside the model: `str()` of a
      context value, the Markdown-and-Django body parser, the build time as a
      naive US/Eastern datetime, and the template engine. */
  datatype PageTools = PageTools(
    repr: JVal -> string,
    markdown: JVal -> JVal,
    localTime: string -> JVal,
    render: (string, map<string, JVal>) -> string)

  /** A page. `cachedMeta` and `cachedChecksum` are the memoised
      `_previous_meta` and `_previous_checksum` (None while not looked up;
      Some(None) for "no previous one"). */
  datatype Page = Page(
    pageName: string,
    root: bool,
    templateName: Option<string>,
    compact: bool,
    forceRebuild: bool,
    active: map<string, JVal>,
    passive: map<string, JVal>,
    contextIsBuilt: bool,
    cachedMeta: Option<Option<JVal>>,
    cachedChecksum: Option<Option<JVal>>,
    updated: bool,
    html: Option<string>)

  function NewPage(pageName: string, root: bool, templateName: Option<string>, active: map<string, JVal>,
                   passive: map<string, JVal>, compact: bool, forceRebuild: bool): Page
  {
    Page(pageName, root, templateName, compact, forceRebuild, active, passive, false, None, None, false, None)
  }

  // ---------------------------------------------------------------------------
  // Naming
  // ---------------------------------------------------------------------------

  function FullPageName(pageName: string, root: bool): string
  {
    if root then "root!" + pageName + ".html" else pageName + ".html"
  }

  function OutputFilename(pageName: string, root: bool): string
  {
    if root then pageName + ".html" else "pages/" + pageName + ".html"
  }

  /** A root page's full name is its output file marked "root!"; any other
      page's output file is its full name under "pages/". */
  lemma PageNames(pageName: string, root: bool)
    ensures root ==> FullPageName(pageName, root) == "root!" + OutputFilename(pageName, root)
    ensures !root ==> OutputFilename(pageName, root) == "pages/" + FullPageName(pageName, root)
    ensures FullPageName(pageName, true) != FullPageName(pageName, false)
  {
    var a := FullPageName(pageName, true);
    var b := FullPageName(pageName, false);
    assert |a| == |b| + 5;
  }

  /** The characters `rstrip(".html")` removes: a set, not a suffix. */
  const HtmlChars: set<char> := {'.', 'h', 't', 'm', 'l'}

  function JsonMetaFilename(dataDir: string, fullPageName: string): string
  {
    RStrip(dataDir + "/compiled/pages/" + fullPageName + ".json", HtmlChars)
  }

  function PageMetaFilename(dataDir: string, page: Page): string
  {
    JsonMetaFilename(dataDir, FullPageName(page.pageName, page.root))
  }

  /** The strip removes nothing, since the name ends in 'n': the meta file is
      the full page name with ".json" appended, and different pages have
      different meta files. */
  lemma JsonMetaFilenameKeepsSuffix(dataDir: string, fullPageName: string)
    ensures JsonMetaFilename(dataDir, fullPageName) == dataDir + "/compiled/pages/" + fullPageName + ".json"
  {
  }

  lemma JsonMetaFilenameInjective(dataDir: string, a: string, b: string)
    requires a != b
    ensures JsonMetaFilename(dataDir, a) != JsonMetaFilename(dataDir, b)
  {
    JsonMetaFilenameKeepsSuffix(dataDir, a);
    JsonMetaFilenameKeepsSuffix(dataDir, b);
    var p := dataDir + "/compiled/pages/";
    if |a| == |b| {
      var i :| 0 <= i < |a| && a[i] != b[i];
      assert (p + a + ".json")[|p| + i] == a[i];
      assert (p + b + ".json")[|p| + i] == b[i];
    }
  }

  // ---------------------------------------------------------------------------
  // current_checksum
  // ---------------------------------------------------------------------------

  /** `sorted(active_context.items())` with each value as its `str()`. Keys are
      distinct, so the order is that of the keys alone. */
  function SortedItems(ctx: map<string, JVal>, repr: JVal -> string): (r: seq<(string, string)>)
  {
    var ks := SortedSet(ctx.Keys);
    seq(|ks|, i requires 0 <= i < |ks| => (ks[i], repr(ctx[ks[i]])))
  }

  function ItemKey(p: (string, string)): string { p.0 }

  /** Every key exactly once, ascending, each with the `str()` of its value:
      the digest does not depend on the order the context was filled in. */
  lemma SortedItemsSpec(ctx: map<string, JVal>, repr: JVal -> string)
    ensures var r := SortedItems(ctx, repr);
      && StrictlyAscending(MapSeq(ItemKey, r))
      && (forall k :: k in ctx <==> k in MapSeq(ItemKey, r))
      && (forall i | 0 <= i < |r| :: r[i].0 in ctx && r[i].1 == repr(ctx[r[i].0]))
  {
    var r := SortedItems(ctx, repr);
    var ks := SortedSet(ctx.Keys);
    assert MapSeq(ItemKey, r) == ks;
  }

  function CurrentChecksum(env: Env, tools: PageTools, page: Page): (r: Result<string>)
    ensures r.Err? <==> !page.contextIsBuilt
    ensures r.Err? ==> r.error.RuntimeError?
    ensures r.Ok? ==> r.value == env.md5(PairList(SortedItems(page.active, tools.repr)))
  {
    if !page.contextIsBuilt then Err(RuntimeError("You need to build context for this page first."))
    else Ok(env.md5(PairList(SortedItems(page.active, tools.repr))))
  }

  // ---------------------------------------------------------------------------
  // previous_meta / previous_checksum
  // ---------------------------------------------------------------------------

  /** `previous_meta()`: the meta file's JSON, looked up once. A missing file,
      or one holding JSON `null`, gives None; a file that is not JSON raises. */
  function PreviousMeta(page: Page, store: Store, dataDir: string): (r: Result<(Page, Option<JVal>)>)
    ensures page.cachedMeta.Some? ==> r == Ok((page, page.cachedMeta.value))
    ensures r.Ok? ==> r.value.0 == page.(cachedMeta := Some(r.value.1))
    ensures page.cachedMeta.None? ==> var path := PageMetaFilename(dataDir, page);
      && (path !in store ==> r == Ok((page.(cachedMeta := Some(None)), None)))
      && (path in store && store[path].Malformed? ==> r == Err(JsonDecodeError(path)))
      && (path in store && store[path].Parsed? ==>
            r.Ok? && r.value.1 == (if store[path].json == JNull then None else Some(store[path].json)))
  {
    if page.cachedMeta.Some? then Ok((page, page.cachedMeta.value))
    else
      var path := PageMetaFilename(dataDir, page);
      if path !in store then Ok((page.(cachedMeta := Some(None)), None))
      else
        var v :- Load(store, path);
        var m := if v == JNull then None else Some(v);
        Ok((page.(cachedMeta := Some(m)), m))
  }

  /** `previous_checksum()`: the recorded `page_checksum`, looked up once. */
  function PreviousChecksum(page: Page, store: Store, dataDir: string): (r: Result<(Page, Option<JVal>)>)
    ensures page.cachedChecksum.Some? ==> r == Ok((page, page.cachedChecksum.value))
    ensures r.Ok? ==> r.value.0.cachedChecksum == Some(r.value.1)
    ensures r.Ok? ==> r.value.0 == page.(cachedMeta := r.value.0.cachedMeta, cachedChecksum := r.value.0.cachedChecksum)
  {
    if page.cachedChecksum.Some? then Ok((page, page.cachedChecksum.value))
    else
      var (p, m) :- PreviousMeta(page, store, dataDir);
      if m.None? then Ok((p.(cachedChecksum := Some(None)), None))
      else
        var c :- Index(m.value, "page_checksum");
        Ok((p.(cachedChecksum := Some(Some(c))), Some(c)))
  }

  /** What a page that has not looked yet finds: nothing without a meta file
      (or with a `null` one), the recorded checksum of an object holding one,
      and otherwise the exception Python raises. */
  lemma PreviousChecksumCases(page: Page, store: Store, dataDir: string)
    requires page.cachedMeta.None? && page.cachedChecksum.None?
    ensures var path := PageMetaFilename(dataDir, page);
      var r := PreviousChecksum(page, store, dataDir);
      && (path !in store ==> r.Ok? && r.value.1.None?)
      && (path in store && store[path].Malformed? ==> r == Err(JsonDecodeError(path)))
      && (path in store && store[path] == Parsed(JNull) ==> r.Ok? && r.value.1.None?)
      && (path in store && store[path].Parsed? && store[path].json.JObj? ==>
            var fields := store[path].json.fields;
            && ("page_checksum" in fields ==> r.Ok? && r.value.1 == Some(fields["page_checksum"]))
            && ("page_checksum" !in fields ==> r == Err(KeyError("page_checksum"))))
      && (path in store && store[path].Parsed? && !store[path].json.JObj? && store[path].json != JNull ==>
            r.Err? && r.error.TypeError?)
  {
  }

  /** The lookups are memoised: once made, later calls return the same answer
      whatever the files now hold. */
  lemma PreviousChecksumCached(page: Page, store: Store, later: Store, dataDir: string)
    requires PreviousChecksum(page, store, dataDir).Ok?
    ensures var (p, c) := PreviousChecksum(page, store, dataDir).value;
      PreviousChecksum(p, later, dataDir) == Ok((p, c))
  {
  }

  // ---------------------------------------------------------------------------
  // update_from_yaml
  // ---------------------------------------------------------------------------

  function GetOr(fields: map<string, JVal>, key: string, default: JVal): JVal
  {
    if key in fields then fields[key] else default
  }

  /** The context after a page YAML document was read: the page's flags, the
      title (the page name by default) under two keys, the parsed body, then
      every other key of the document, overriding what was there. */
  function YamlContext(tools: PageTools, page: Page, doc: map<string, JVal>, body: JVal): map<string, JVal>
  {
    var title := GetOr(doc, "title", JStr(page.pageName));
    var ctx := page.active["compact" := JBool(page.compact)]["page_name" := JStr(page.pageName)];
    var ctx := ctx["title" := title]["page_title" := title];
    ctx["body_content" := tools.markdown(body)] + (doc - {"title", "body_content"})
  }

  /** `dict.pop(key, default)` on what the YAML parser returned, when it is not
      a mapping. */
  function PopOnNonMapping(doc: JVal): Error
  {
    if doc.JArr? then TypeError("pop expected at most 1 argument, got 2") else AttributeError("pop")
  }

  function BodyFilename(dataDir: string, page: Page): string
  {
    Replace(dataDir + "/authored/pages/" + FullPageName(page.pageName, page.root), ".html", "-body.md")
  }

  /** `update_from_yaml()` as written: the body file's path is built from
      `self.data_dir`, which no page ever has, so a document without a truthy
      `body_content` raises AttributeError. `yaml` is None when the YAML file
      does not exist. */
  function UpdateFromYamlAsWritten(tools: PageTools, page: Page, yaml: Option<JVal>): (r: Result<Page>)
    ensures r.Ok? ==> r.value.contextIsBuilt
    ensures yaml.None? ==> r == Ok(page.(contextIsBuilt := true))
    ensures yaml.Some? && yaml.value.JObj? ==>
      (r.Err? <==> !Truthy(GetOr(yaml.value.fields, "body_content", JStr(""))))
  {
    if yaml.None? then Ok(page.(contextIsBuilt := true))
    else if !yaml.value.JObj? then Err(PopOnNonMapping(yaml.value))
    else
      var doc := yaml.value.fields;
      var body := GetOr(doc, "body_content", JStr(""));
      if !Truthy(body) then Err(AttributeError("data_dir"))
      else Ok(page.(active := YamlContext(tools, page, doc, body), contextIsBuilt := true))
  }

  /** `update_from_yaml()` with the body file looked up under the build's data
      directory, as the YAML file itself is: a document without a truthy body
      takes the body file's text when there is one. `texts` are the readable
      text files. */
  function UpdateFromYaml(tools: PageTools, page: Page, dataDir: string, yaml: Option<JVal>, texts: map<string, string>)
    : (r: Result<Page>)
    ensures r.Ok? ==> r.value.contextIsBuilt
    ensures yaml.None? ==> r == Ok(page.(contextIsBuilt := true))
    ensures yaml.Some? ==> (r.Ok? <==> yaml.value.JObj?)
    ensures yaml.Some? && !yaml.value.JObj? ==> r == Err(PopOnNonMapping(yaml.value))
  {
    if yaml.None? then Ok(page.(contextIsBuilt := true))
    else if !yaml.value.JObj? then Err(PopOnNonMapping(yaml.value))
    else
      var doc := yaml.value.fields;
      var given := GetOr(doc, "body_content", JStr(""));
      var path := BodyFilename(dataDir, page);
      var body := if !Truthy(given) && path in texts then JStr(texts[path]) else given;
      Ok(page.(active := YamlContext(tools, page, doc, body), contextIsBuilt := true))
  }

  /** What the document does to the context: the title defaults to the page
      name, the body is the document's when truthy and otherwise the body
      file's text (or the falsy value when there is no file), every other key
      of the document overrides, and keys the document does not mention keep
      their values. Only the context and the built flag change. */
  lemma UpdateFromYamlContext(tools: PageTools, page: Page, dataDir: string, doc: map<string, JVal>,
                              texts: map<string, string>)
    ensures var r := UpdateFromYaml(tools, page, dataDir, Some(JObj(doc)), texts);
      var given := GetOr(doc, "body_content", JStr(""));
      var path := BodyFilename(dataDir, page);
      && r.Ok?
      && r.value == page.(active := r.value.active, contextIsBuilt := true)
      && (forall k | k in doc && k != "title" && k != "body_content" :: r.value.active[k] == doc[k])
      && ("title" !in doc ==> r.value.active["title"] == JStr(page.pageName))
      && ("title" in doc ==> r.value.active["title"] == doc["title"])
      && ("page_title" !in doc ==> r.value.active["page_title"] == r.value.active["title"])
      && r.value.active["body_content"] ==
           tools.markdown(if !Truthy(given) && path in texts then JStr(texts[path]) else given)
  {
  }

  /** The context keeps every key it had, gains the document's keys and the
      five the method sets, and keys the document does not mention keep their
      values. */
  lemma UpdateFromYamlKeys(tools: PageTools, page: Page, dataDir: string, doc: map<string, JVal>,
                           texts: map<string, string>)
    ensures var r := UpdateFromYaml(tools, page, dataDir, Some(JObj(doc)), texts);
      && r.Ok?
      && r.value.active.Keys == page.active.Keys + (doc.Keys - {"body_content"}) + SetKeys
      && (forall k | k in page.active && k !in doc && k !in SetKeys :: r.value.active[k] == page.active[k])
  {
  }

  /** The keys `update_from_yaml()` always sets. */
  const SetKeys: set<string> := {"compact", "page_name", "title", "page_title", "body_content"}

  /** Wherever the written method succeeds, the corrected one agrees with it. */
  lemma UpdateFromYamlAgrees(tools: PageTools, page: Page, dataDir: string, yaml: Option<JVal>,
                             texts: map<string, string>)
    requires UpdateFromYamlAsWritten(tools, page, yaml).Ok?
    ensures UpdateFromYaml(tools, page, dataDir, yaml, texts) == UpdateFromYamlAsWritten(tools, page, yaml)
  {
  }

  /** The body file of the page "about" under "data". */
  lemma AboutBodyFilename()
    ensures BodyFilename("data", NewPage("about", false, None, map[], map[], false, false))
      == "data/authored/pages/" + "about" + "-body.md"
  {
    var x := "data/authored/pages/" + "about";
    assert "data" + "/authored/pages/" + FullPageName("about", false) == x + ".html";
    assert '.' !in x;
    NoMatchBefore(x, ".html");
    ReplaceSuffix(x, ".html", "-body.md");
  }

  /** The page YAML `{}` with a body file next to it: the method as written
      raises AttributeError, while the corrected one takes the file's text as
      the body. */
  lemma DataDirCounterexample(tools: PageTools)
    ensures var page := NewPage("about", false, None, map[], map[], false, false);
      var texts := map["data/authored/pages/" + "about" + "-body.md" := "Hello"];
      && UpdateFromYamlAsWritten(tools, page, Some(JObj(map[]))) == Err(AttributeError("data_dir"))
      && UpdateFromYaml(tools, page, "data", Some(JObj(map[])), texts).Ok?
      && UpdateFromYaml(tools, page, "data", Some(JObj(map[])), texts).value.active["body_content"]
           == tools.markdown(JStr("Hello"))
  {
    AboutBodyFilename();
  }

  // ---------------------------------------------------------------------------
  // render
  // ---------------------------------------------------------------------------

  const DefaultTemplate := "shared/generic-page.html"

  /** `page_specific/<full page name>` when it exists; otherwise the page's
      template name, the context's `template`, or the shared default, the first
      that is truthy. */
  function ChooseTemplate(page: Page, templates: set<string>): (r: Result<string>)
    ensures r.Ok? ==> r.value in templates
    ensures "page_specific/" + FullPageName(page.pageName, page.root) in templates ==>
      r == Ok("page_specific/" + FullPageName(page.pageName, page.root))
  {
    var specific := "page_specific/" + FullPageName(page.pageName, page.root);
    if specific in templates then Ok(specific)
    else
      var name :-
        if page.templateName.Some? && |page.templateName.value| > 0 then Ok(page.templateName.value)
        else if "template" in page.active && Truthy(page.active["template"]) then
          (if page.active["template"].JStr? then Ok(page.active["template"].s)
           else Err(TypeError("template name must be a string")))
        else Ok(DefaultTemplate);
      if name in templates then Ok(name) else Err(TemplateDoesNotExist(name))
  }

  /** The meta record a render writes. */
  function PageMeta(checksum: string, meta: BuildMeta): JVal
  {
    JObj(map["page_checksum" := JStr(checksum), "last_update" := JStr(meta.datetimeIso)])
  }

  datatype Rendered = Skipped | Rebuilt(html: string)

  /** The outcome of a render, with the page and the files as the call leaves
      them: a failing template lookup happens after the meta file was written. */
  datatype RenderStep = RenderStep(outcome: Result<Rendered>, page: Page, store: Store)

  /** The rebuilding half of `render()`: record the digest, merge the build
      time and the passive context, pick the template and render. */
  function Rebuild(tools: PageTools, meta: BuildMeta, page: Page, store: Store, checksum: string,
                   templates: set<string>): (r: RenderStep)
    ensures r.store == Write(store, PageMetaFilename(meta.dataDir, page), PageMeta(checksum, meta))
    ensures r.page.active == page.active["build_time" := tools.localTime(meta.datetimeIso)] + page.passive
    ensures r.outcome != Ok(Skipped)
    ensures r.outcome.Ok? ==>
      && r.page.updated && r.outcome.value.Rebuilt? && ChooseTemplate(r.page, templates).Ok?
      && r.outcome.value.html == tools.render(ChooseTemplate(r.page, templates).value, r.page.active)
  {
    var store' := Write(store, PageMetaFilename(meta.dataDir, page), PageMeta(checksum, meta));
    var ctx := page.active["build_time" := tools.localTime(meta.datetimeIso)] + page.passive;
    var p := page.(active := ctx);
    var name := ChooseTemplate(p, templates);
    if name.Err? then RenderStep(Err(name.error), p, store')
    else
      var html := tools.render(name.value, ctx);
      RenderStep(Ok(Rebuilt(html)), p.(html := Some(html), updated := true), store')
  }

  /** `render(force_rebuild)`: `force` None uses the page's own flag. Unless
      forced, the page is left alone when its current digest equals the
      recorded one. */
  function Render(env: Env, tools: PageTools, meta: BuildMeta, page: Page, store: Store, force: Option<bool>,
                  templates: set<string>): (r: RenderStep)
    ensures CurrentChecksum(env, tools, page).Err? ==> r == RenderStep(Err(CurrentChecksum(env, tools, page).error), page, store)
  {
    var forced := if force.Some? then force.value else page.forceRebuild;
    var cur := CurrentChecksum(env, tools, page);
    if cur.Err? then RenderStep(Err(cur.error), page, store)
    else if forced then Rebuild(tools, meta, page, store, cur.value, templates)
    else
      var prev := PreviousChecksum(page, store, meta.dataDir);
      if prev.Err? then RenderStep(Err(prev.error), page, store)
      else if prev.value.1 == Some(JStr(cur.value)) then RenderStep(Ok(Skipped), prev.value.0, store)
      else Rebuild(tools, meta, prev.value.0, store, cur.value, templates)
  }

  predicate Forced(page: Page, force: Option<bool>)
  {
    if force.Some? then force.value else page.forceRebuild
  }

  /** An unforced render of a built page skips exactly when the recorded
      checksum equals the current one. */
  lemma RenderSkipsIffUnchanged(env: Env, tools: PageTools, meta: BuildMeta, page: Page, store: Store,
                                force: Option<bool>, templates: set<string>)
    requires page.contextIsBuilt && !Forced(page, force)
    requires PreviousChecksum(page, store, meta.dataDir).Ok?
    ensures var r := Render(env, tools, meta, page, store, force, templates);
      r.outcome == Ok(Skipped) <==>
        PreviousChecksum(page, store, meta.dataDir).value.1 == Some(JStr(CurrentChecksum(env, tools, page).value))
  {
  }

  /** A skipped render writes nothing and leaves the page's context, flag and
      output as they were. */
  lemma SkipChangesNothing(env: Env, tools: PageTools, meta: BuildMeta, page: Page, store: Store,
                           force: Option<bool>, templates: set<string>)
    requires Render(env, tools, meta, page, store, force, templates).outcome == Ok(Skipped)
    ensures var r := Render(env, tools, meta, page, store, force, templates);
      && r.store == store
      && r.page == page.(cachedMeta := r.page.cachedMeta, cachedChecksum := r.page.cachedChecksum)
  {
    var cur := CurrentChecksum(env, tools, page);
    assert cur.Ok? && !Forced(page, force);
    var prev := PreviousChecksum(page, store, meta.dataDir);
    assert prev.Ok? && prev.value.1 == Some(JStr(cur.value));
  }

  /** A forced render never skips. */
  lemma ForcedRenderRebuilds(env: Env, tools: PageTools, meta: BuildMeta, page: Page, store: Store,
                             force: Option<bool>, templates: set<string>)
    requires page.contextIsBuilt && Forced(page, force)
    ensures Render(env, tools, meta, page, store, force, templates).outcome != Ok(Skipped)
  {
  }

  /** A render that does not skip records the digest of the active context as
      it was before the build time and the passive context were merged in,
      touches no other file, and renders the merged context. */
  lemma RenderRecordsChecksum(env: Env, tools: PageTools, meta: BuildMeta, page: Page, store: Store,
                              force: Option<bool>, templates: set<string>)
    requires page.contextIsBuilt
    requires var r := Render(env, tools, meta, page, store, force, templates);
      r.outcome != Ok(Skipped) && (Forced(page, force) || PreviousChecksum(page, store, meta.dataDir).Ok?)
    ensures var r := Render(env, tools, meta, page, store, force, templates);
      var path := PageMetaFilename(meta.dataDir, page);
      && r.store == Write(store, path, PageMeta(CurrentChecksum(env, tools, page).value, meta))
      && r.page.active == page.active["build_time" := tools.localTime(meta.datetimeIso)] + page.passive
      && (r.outcome.Ok? ==>
            && r.page.updated && r.outcome.value.Rebuilt? && ChooseTemplate(r.page, templates).Ok?
            && r.outcome.value.html == tools.render(ChooseTemplate(r.page, templates).value, r.page.active))
  {
    var cur := CurrentChecksum(env, tools, page).value;
    if Forced(page, force) {
      assert Render(env, tools, meta, page, store, force, templates) == Rebuild(tools, meta, page, store, cur, templates);
    } else {
      var prev := PreviousChecksum(page, store, meta.dataDir).value;
      assert Render(env, tools, meta, page, store, force, templates) == Rebuild(tools, meta, prev.0, store, cur, templates);
      assert PageMetaFilename(meta.dataDir, prev.0) == PageMetaFilename(meta.dataDir, page);
    }
  }

  /** Without a meta file the first render always rebuilds. */
  lemma FirstRenderRebuilds(env: Env, tools: PageTools, meta: BuildMeta, page: Page, store: Store,
                            force: Option<bool>, templates: set<string>)
    requires page.contextIsBuilt && page.cachedMeta.None? && page.cachedChecksum.None?
    requires PageMetaFilename(meta.dataDir, page) !in store
    ensures Render(env, tools, meta, page, store, force, templates).outcome != Ok(Skipped)
  {
  }

  /** The next build, with the same context, skips: a fresh page rendered
      against the files a render left behind finds its own checksum there. */
  lemma RenderAgainSkips(env: Env, tools: PageTools, meta: BuildMeta, page: Page, store: Store,
                         force: Option<bool>, templates: set<string>)
    requires page.contextIsBuilt && page.cachedMeta.None? && page.cachedChecksum.None?
    requires var r := Render(env, tools, meta, page, store, force, templates);
      r.outcome != Ok(Skipped) && (Forced(page, force) || PreviousChecksum(page, store, meta.dataDir).Ok?)
    ensures var r := Render(env, tools, meta, page, store, force, templates);
      Render(env, tools, meta, page, r.store, Some(false), templates) == RenderStep(Ok(Skipped),
        page.(cachedMeta := Some(Some(PageMeta(CurrentChecksum(env, tools, page).value, meta))),
              cachedChecksum := Some(Some(JStr(CurrentChecksum(env, tools, page).value)))),
        r.store)
  {
    RenderRecordsChecksum(env, tools, meta, page, store, force, templates);
    var cur := CurrentChecksum(env, tools, page).value;
    var written := Render(env, tools, meta, page, store, force, templates).store;
    ReadBackChecksum(page, store, meta, cur);
    assert PreviousChecksum(page, written, meta.dataDir).value.1 == Some(JStr(cur));
  }

  /** A page that has not looked yet finds, in the meta file a render wrote,
      the checksum that render recorded. */
  lemma ReadBackChecksum(page: Page, store: Store, meta: BuildMeta, checksum: string)
    requires page.cachedMeta.None? && page.cachedChecksum.None?
    ensures var written := Write(store, PageMetaFilename(meta.dataDir, page), PageMeta(checksum, meta));
      PreviousChecksum(page, written, meta.dataDir) == Ok((
        page.(cachedMeta := Some(Some(PageMeta(checksum, meta))), cachedChecksum := Some(Some(JStr(checksum)))),
        Some(JStr(checksum))))
  {
    var path := PageMetaFilename(meta.dataDir, page);
    var written := Write(store, path, PageMeta(checksum, meta));
    assert written[path] == Parsed(PageMeta(checksum, meta));
    assert PreviousMeta(page, written, meta.dataDir) == Ok((page.(cachedMeta := Some(Some(PageMeta(checksum, meta)))), Some(PageMeta(checksum, meta))));
  }
}

=== FILE: sorting.dfy ===
/** Python's `sorted(xs, key=...)`, `list.sort(key=...)` and `sorted(..., reverse=True)`:
    stable sorts by a key under a strict total order on keys. A reverse sort in Python
    is still stable (equal keys keep their order); it is a stable sort under the
    converse order, which is again a strict total order.
 */
module Sorting {
  import opened Strings

  ghost predicate StrictTotalOrder<K(!new)>(lt: (K, K) -> bool)
  {
    && (forall a :: !lt(a, a))
    && (forall a, b, c :: lt(a, b) && lt(b, c) ==> lt(a, c))
    && (forall a, b :: a != b ==> lt(a, b) || lt(b, a))
  }

  /** The converse order, used by `reverse=True`. */
  function Converse<K>(lt: (K, K) -> bool): (K, K) -> bool
  {
    (a, b) => lt(b, a)
  }

  lemma ConverseIsStrictTotal<K(!new)>(lt: (K, K) -> bool)
    requires StrictTotalOrder(lt)
    ensures StrictTotalOrder(Converse(lt))
  {
  }

  predicate IntLt(a: int, b: int)
  {
    a < b
  }

  lemma IntOrder()
    ensures StrictTotalOrder(IntLt)
  {
  }

  lemma StringOrder()
    ensures StrictTotalOrder(StrLt)
  {
    forall a: string ensures !StrLt(a, a) {
      StrLtIrreflexive(a);
    }
    forall a: string, b: string, c: string | StrLt(a, b) && StrLt(b, c)
      ensures StrLt(a, c)
    {
      StrLtTransitive(a, b, c);
    }
    forall a: string, b: string | a != b
      ensures StrLt(a, b) || StrLt(b, a)
    {
      StrLtTotal(a, b);
    }
  }

  // ---------------------------------------------------------------------------
  // Sortedness, key projection and per-key sub-sequences
  // ---------------------------------------------------------------------------

  /** No later element has a key strictly before an earlier one. */
  predicate SortedBy<T, K>(s: seq<T>, key: T -> K, lt: (K, K) -> bool)
  {
    forall i, j | 0 <= i < j < |s| :: !lt(key(s[j]), key(s[i]))
  }

  predicate Sorted<K>(s: seq<K>, lt: (K, K) -> bool)
  {
    forall i, j | 0 <= i < j < |s| :: !lt(s[j], s[i])
  }

  function MapSeq<T, K>(f: T -> K, s: seq<T>): (r: seq<K>)
    ensures |r| == |s|
    ensures forall i | 0 <= i < |s| :: r[i] == f(s[i])
  {
    if |s| == 0 then [] else [f(s[0])] + MapSeq(f, s[1..])
  }

  /** The elements whose key is `k`, in their original order. */
  function KeyFilter<T, K(==)>(s: seq<T>, key: T -> K, k: K): seq<T>
  {
    if |s| == 0 then []
    else if key(s[0]) == k then [s[0]] + KeyFilter(s[1..], key, k)
    else KeyFilter(s[1..], key, k)
  }

  /** Stability: every group of equal keys keeps its relative order. */
  ghost predicate StableFor<T, K(!new)>(r: seq<T>, s: seq<T>, key: T -> K)
  {
    forall k :: KeyFilter(r, key, k) == KeyFilter(s, key, k)
  }

  // ---------------------------------------------------------------------------
  // Stable insertion sort
  // ---------------------------------------------------------------------------

  /** Places `x` after every element whose key is strictly before its own. */
  function Insert<T, K>(x: T, s: seq<T>, key: T -> K, lt: (K, K) -> bool): seq<T>
  {
    if |s| == 0 then [x]
    else if lt(key(s[0]), key(x)) then [s[0]] + Insert(x, s[1..], key, lt)
    else [x] + s
  }

  lemma {:induction false} InsertPermutes<T, K>(x: T, s: seq<T>, key: T -> K, lt: (K, K) -> bool)
    ensures multiset(Insert(x, s, key, lt)) == multiset(s) + multiset{x}
  {
    if |s| > 0 && lt(key(s[0]), key(x)) {
      InsertPermutes(x, s[1..], key, lt);
      assert s == [s[0]] + s[1..];
    }
  }

  lemma {:induction false} InsertSorted<T, K(!new)>(x: T, s: seq<T>, key: T -> K, lt: (K, K) -> bool)
    requires StrictTotalOrder(lt)
    requires SortedBy(s, key, lt)
    ensures SortedBy(Insert(x, s, key, lt), key, lt)
  {
    if |s| > 0 {
      var s0 := s[0];
      if lt(key(s0), key(x)) {
        var rest := Insert(x, s[1..], key, lt);
        InsertSorted(x, s[1..], key, lt);
        InsertPermutes(x, s[1..], key, lt);
        assert !lt(key(x), key(s0));
        forall j | 0 <= j < |rest|
          ensures !lt(key(rest[j]), key(s0))
        {
          assert rest[j] in multiset(rest);
          if rest[j] != x {
            assert rest[j] in multiset(s[1..]);
            var k :| 0 <= k < |s[1..]| && s[1..][k] == rest[j];
            assert s[k + 1] == rest[j];
          }
        }
        var r := [s0] + rest;
        forall i, j | 0 <= i < j < |r|
          ensures !lt(key(r[j]), key(r[i]))
        {
          if i > 0 {
            assert r[i] == rest[i - 1] && r[j] == rest[j - 1];
          } else {
            assert r[j] == rest[j - 1];
          }
        }
      } else {
        var r := [x] + s;
        forall i, j | 0 <= i < j < |r|
          ensures !lt(key(r[j]), key(r[i]))
        {
          if i == 0 {
            assert !lt(key(s[j - 1]), key(s0));
          }
        }
      }
    }
  }

  lemma {:induction false} InsertStable<T, K(!new)>(x: T, s: seq<T>, key: T -> K, lt: (K, K) -> bool, k: K)
    requires StrictTotalOrder(lt)
    ensures KeyFilter(Insert(x, s, key, lt), key, k) ==
              if key(x) == k then [x] + KeyFilter(s, key, k) else KeyFilter(s, key, k)
  {
    if |s| > 0 && lt(key(s[0]), key(x)) {
      InsertStable(x, s[1..], key, lt, k);
      assert key(s[0]) != key(x);
    }
  }

  function SortBy<T(==), K(!new)>(s: seq<T>, key: T -> K, lt: (K, K) -> bool): (r: seq<T>)
    requires StrictTotalOrder(lt)
    ensures multiset(r) == multiset(s)
    ensures SortedBy(r, key, lt)
    ensures StableFor(r, s, key)
  {
    if |s| == 0 then []
    else
      var rest := SortBy(s[1..], key, lt);
      var r := Insert(s[0], rest, key, lt);
      assert s == [s[0]] + s[1..];
      InsertPermutes(s[0], rest, key, lt);
      InsertSorted(s[0], rest, key, lt);
      assert forall k :: KeyFilter(r, key, k) == KeyFilter(s, key, k) by {
        forall k ensures KeyFilter(r, key, k) == KeyFilter(s, key, k) {
          InsertStable(s[0], rest, key, lt, k);
        }
      }
      r
  }

  // ---------------------------------------------------------------------------
  // Sorted permutations are unique
  // ---------------------------------------------------------------------------

  lemma {:induction false} MapSeqConcat<T, K>(f: T -> K, a: seq<T>, b: seq<T>)
    ensures MapSeq(f, a + b) == MapSeq(f, a) + MapSeq(f, b)
  {
  }

  lemma {:induction false} MapSeqPermutation<T, K>(f: T -> K, s1: seq<T>, s2: seq<T>)
    requires multiset(s1) == multiset(s2)
    ensures multiset(MapSeq(f, s1)) == multiset(MapSeq(f, s2))
    decreases |s1|
  {
    if |s1| > 0 {
      var x := s1[0];
      var i := IndexOf(s2, x);
      var rest1 := s1[1..];
      var rest2 := s2[..i] + s2[i + 1..];
      RemovePermuted(s1, s2, i);
      assert multiset(MapSeq(f, s1)) == multiset{f(x)} + multiset(MapSeq(f, rest1)) by {
        assert MapSeq(f, s1) == [f(x)] + MapSeq(f, rest1);
      }
      assert multiset(MapSeq(f, s2)) == multiset{f(x)} + multiset(MapSeq(f, rest2)) by {
        MapSeqSplit(f, s2, i);
      }
      assert multiset(MapSeq(f, rest1)) == multiset(MapSeq(f, rest2)) by {
        MapSeqPermutation(f, rest1, rest2);
      }
    }
  }

  /** Mapping a list is mapping one item and the rest around it. */
  lemma MapSeqSplit<T, K>(f: T -> K, s: seq<T>, i: int)
    requires 0 <= i < |s|
    ensures multiset(MapSeq(f, s)) == multiset{f(s[i])} + multiset(MapSeq(f, s[..i] + s[i + 1..]))
  {
    var l := s[..i];
    var r := s[i + 1..];
    SplitAt(s, i);
    MapSeqConcat(f, l + [s[i]], r);
    MapSeqConcat(f, l, [s[i]]);
    MapSeqConcat(f, l, r);
    assert MapSeq(f, [s[i]]) == [f(s[i])];
    MultisetMiddle(MapSeq(f, l), MapSeq(f, [s[i]]), MapSeq(f, r));
  }

  /** A key occurs in the keys of a sequence exactly when some element of any
      permutation of it has that key. */
  lemma MapSeqMembers<T, K>(f: T -> K, s: seq<T>, t: seq<T>, y: K)
    requires multiset(s) == multiset(t)
    ensures y in MapSeq(f, s) <==> exists x | x in t :: f(x) == y
  {
    var ks := MapSeq(f, s);
    if y in ks {
      var i :| 0 <= i < |ks| && ks[i] == y;
      assert s[i] in multiset(t);
    }
    if exists x | x in t :: f(x) == y {
      var x :| x in t && f(x) == y;
      assert x in multiset(s);
      var i :| 0 <= i < |s| && s[i] == x;
      assert ks[i] == y;
    }
  }

  function Filter<T(!new)>(p: T -> bool, s: seq<T>): (r: seq<T>)
    ensures |r| <= |s|
    ensures forall x :: x in r <==> x in s && p(x)
  {
    if |s| == 0 then [] else (if p(s[0]) then [s[0]] else []) + Filter(p, s[1..])
  }

  lemma {:induction false} FilterConcat<T(!new)>(p: T -> bool, a: seq<T>, b: seq<T>)
    ensures Filter(p, a + b) == Filter(p, a) + Filter(p, b)
    decreases |a|
  {
    if |a| > 0 {
      assert (a + b)[1..] == a[1..] + b;
      FilterConcat(p, a[1..], b);
    } else {
      assert a + b == b;
    }
  }

  /** Filtering commutes with reordering: permuted inputs give permuted outputs. */
  lemma {:induction false} FilterPermutation<T(!new)>(p: T -> bool, s1: seq<T>, s2: seq<T>)
    requires multiset(s1) == multiset(s2)
    ensures multiset(Filter(p, s1)) == multiset(Filter(p, s2))
    decreases |s1|
  {
    if |s1| > 0 {
      var x := s1[0];
      var i := IndexOf(s2, x);
      var rest1 := s1[1..];
      var rest2 := s2[..i] + s2[i + 1..];
      RemovePermuted(s1, s2, i);
      assert multiset(Filter(p, s1)) == multiset(Filter(p, [x])) + multiset(Filter(p, rest1)) by {
        FilterSplit(p, s1, 0);
        assert s1[..0] + s1[1..] == rest1;
      }
      assert multiset(Filter(p, s2)) == multiset(Filter(p, [x])) + multiset(Filter(p, rest2)) by {
        FilterSplit(p, s2, i);
      }
      FilterPermutation(p, rest1, rest2);
    }
  }

  /** A position holding an element of a permutation of `s`. */
  lemma IndexOf<T>(s: seq<T>, x: T) returns (i: int)
    requires x in multiset(s)
    ensures 0 <= i < |s| && s[i] == x
  {
    assert x in s;
    i :| 0 <= i < |s| && s[i] == x;
  }

  /** Taking the head of one list and the same item out of a permutation of it
      leaves permutations. */
  lemma RemovePermuted<T>(s1: seq<T>, s2: seq<T>, i: int)
    requires multiset(s1) == multiset(s2) && |s1| > 0
    requires 0 <= i < |s2| && s2[i] == s1[0]
    ensures multiset(s1[1..]) == multiset(s2[..i] + s2[i + 1..])
  {
    MultisetRemove(s2, i);
    assert s1 == [s1[0]] + s1[1..];
    assert multiset(s1[1..]) == multiset(s1) - multiset{s1[0]};
  }

  /** Removing the item at `i` removes one occurrence of it. */
  lemma MultisetRemove<T>(s: seq<T>, i: int)
    requires 0 <= i < |s|
    ensures multiset(s[..i] + s[i + 1..]) == multiset(s) - multiset{s[i]}
  {
    assert s == s[..i] + [s[i]] + s[i + 1..];
    assert multiset(s) == multiset(s[..i]) + multiset{s[i]} + multiset(s[i + 1..]);
  }

  /** Filtering a list is filtering one item and the rest around it. */
  /** A filter keeps every copy of an item that satisfies it and none of the others. */
  lemma {:induction false} FilterCount<T(!new)>(p: T -> bool, s: seq<T>, x: T)
    ensures multiset(Filter(p, s))[x] == if p(x) then multiset(s)[x] else 0
    decreases |s|
  {
    if |s| > 0 {
      FilterCount(p, s[1..], x);
      assert s == [s[0]] + s[1..];
    }
  }

  /** Filtering a prefix gives a prefix of the filtered sequence: the kept items
      stay in their original order. */
  lemma FilterPrefix<T(!new)>(p: T -> bool, s: seq<T>, m: nat)
    requires m <= |s|
    ensures Filter(p, s[..m]) <= Filter(p, s)
  {
    var a, b := s[..m], s[m..];
    assert a + b == s;
    FilterConcat(p, a, b);
  }

  lemma FilterSplit<T(!new)>(p: T -> bool, s: seq<T>, i: int)
    requires 0 <= i < |s|
    ensures multiset(Filter(p, s)) == multiset(Filter(p, [s[i]])) + multiset(Filter(p, s[..i] + s[i + 1..]))
  {
    SplitAt(s, i);
    FilterThree(p, s[..i], [s[i]], s[i + 1..]);
    FilterConcat(p, s[..i], s[i + 1..]);
    MultisetMiddle(Filter(p, s[..i]), Filter(p, [s[i]]), Filter(p, s[i + 1..]));
  }

  lemma SplitAt<T>(s: seq<T>, i: int)
    requires 0 <= i < |s|
    ensures s == s[..i] + [s[i]] + s[i + 1..]
  {
  }

  lemma FilterThree<T(!new)>(p: T -> bool, l: seq<T>, x: seq<T>, r: seq<T>)
    ensures Filter(p, l + x + r) == Filter(p, l) + Filter(p, x) + Filter(p, r)
  {
    FilterConcat(p, l + x, r);
    FilterConcat(p, l, x);
  }

  lemma MultisetMiddle<T>(a: seq<T>, b: seq<T>, c: seq<T>)
    ensures multiset(a + b + c) == multiset(b) + multiset(a + c)
  {
  }

  /** The first item a filter keeps is the earliest item satisfying it. */
  lemma {:induction false} FilterHead<T(!new)>(p: T -> bool, s: seq<T>, i: int)
    requires 0 <= i < |s| && p(s[i])
    requires forall j | 0 <= j < i :: !p(s[j])
    ensures |Filter(p, s)| > 0 && Filter(p, s)[0] == s[i]
    decreases i
  {
    if i > 0 {
      FilterHead(p, s[1..], i - 1);
    }
  }

  /** Filtering the images of `f` is mapping `f` over a filter of the sources,
      for any source predicate `pf` that agrees with `p` after `f`. */
  lemma {:induction false} FilterMapSeq<T(!new), K(!new)>(p: K -> bool, f: T -> K, pf: T -> bool, s: seq<T>)
    requires forall x :: pf(x) == p(f(x))
    ensures Filter(p, MapSeq(f, s)) == MapSeq(f, Filter(pf, s))
  {
    if |s| > 0 {
      FilterMapSeq(p, f, pf, s[1..]);
      assert MapSeq(f, s)[1..] == MapSeq(f, s[1..]);
    }
  }

  /** Two filters in a row are one filter by the conjunction. */
  lemma {:induction false} FilterFilter<T(!new)>(p: T -> bool, q: T -> bool, pq: T -> bool, s: seq<T>)
    requires forall x :: pq(x) == (q(x) && p(x))
    ensures Filter(p, Filter(q, s)) == Filter(pq, s)
  {
    if |s| > 0 {
      FilterFilter(p, q, pq, s[1..]);
      FilterConcat(p, if q(s[0]) then [s[0]] else [], Filter(q, s[1..]));
    }
  }

  lemma {:induction false} SortedPermutationsEqual<K(!new)>(a: seq<K>, b: seq<K>, lt: (K, K) -> bool)
    requires StrictTotalOrder(lt)
    requires Sorted(a, lt) && Sorted(b, lt)
    requires multiset(a) == multiset(b)
    ensures a == b
    decreases |a|
  {
    if |a| == 0 {
      assert |b| == |multiset(b)| == 0;
    } else {
      SortedHeadsEqual(a, b, lt);
      TailsPermutation(a, b);
      SortedTail(a, lt);
      SortedTail(b, lt);
      SortedPermutationsEqual(a[1..], b[1..], lt);
      assert a == [a[0]] + a[1..];
      assert b == [b[0]] + b[1..];
    }
  }

  lemma TailsPermutation<K>(a: seq<K>, b: seq<K>)
    requires multiset(a) == multiset(b) && |a| > 0 && |b| > 0 && a[0] == b[0]
    ensures multiset(a[1..]) == multiset(b[1..])
  {
    MultisetRemove(a, 0);
    MultisetRemove(b, 0);
    assert a[..0] + a[1..] == a[1..];
    assert b[..0] + b[1..] == b[1..];
  }

  lemma SortedTail<K>(a: seq<K>, lt: (K, K) -> bool)
    requires Sorted(a, lt) && |a| > 0
    ensures Sorted(a[1..], lt)
  {
    forall i, j | 0 <= i < j < |a[1..]|
      ensures !lt(a[1..][j], a[1..][i])
    {
      assert a[1..][j] == a[j + 1] && a[1..][i] == a[i + 1];
    }
  }

  /** Two sorted permutations of a non-empty list start with the same item. */
  lemma SortedHeadsEqual<K(!new)>(a: seq<K>, b: seq<K>, lt: (K, K) -> bool)
    requires StrictTotalOrder(lt)
    requires Sorted(a, lt) && Sorted(b, lt)
    requires multiset(a) == multiset(b) && |a| > 0
    ensures |b| > 0 && a[0] == b[0]
  {
    assert a[0] in multiset(b);
    assert |b| > 0 && b[0] in multiset(a);
    var j :| 0 <= j < |b| && b[j] == a[0];
    var i :| 0 <= i < |a| && a[i] == b[0];
    assert !lt(a[0], b[0]) by {
      if j > 0 {
        assert !lt(b[j], b[0]);
      }
    }
    assert !lt(b[0], a[0]) by {
      if i > 0 {
        assert !lt(a[i], a[0]);
      }
    }
  }

  /** The key sequence of a stable sort depends only on which keys occur, and how
      often: sorting two permutations of one list yields the same keys, in the same
      order. */
  lemma SortedKeysDependOnlyOnMultiset<T, K(!new)>(s1: seq<T>, s2: seq<T>, key: T -> K, lt: (K, K) -> bool)
    requires StrictTotalOrder(lt)
    requires multiset(s1) == multiset(s2)
    ensures MapSeq(key, SortBy(s1, key, lt)) == MapSeq(key, SortBy(s2, key, lt))
  {
    var r1 := SortBy(s1, key, lt);
    var r2 := SortBy(s2, key, lt);
    MapSeqPermutation(key, r1, r2);
    SortedPermutationsEqual(MapSeq(key, r1), MapSeq(key, r2), lt);
  }

  // ---------------------------------------------------------------------------
  // The keys of a dict in ascending order: `sorted(d.items())`
  // ---------------------------------------------------------------------------

  predicate StrictlyAscending(s: seq<string>)
  {
    forall i, j | 0 <= i < j < |s| :: StrLt(s[i], s[j])
  }

  /** Every non-empty finite set has a least element under a strict total order. */
  lemma {:induction false} LeastExists<K(!new)>(s: set<K>, lt: (K, K) -> bool)
    requires s != {} && StrictTotalOrder(lt)
    ensures exists m :: m in s && forall y | y in s :: m == y || lt(m, y)
    decreases |s|
  {
    var x :| x in s;
    if s != {x} {
      LeastExists(s - {x}, lt);
      var m :| m in s - {x} && forall y | y in s - {x} :: m == y || lt(m, y);
      LeastWithOneMore(s, x, m, lt);
    } else {
      assert forall y | y in s :: x == y || lt(x, y);
    }
  }

  /** The least of `s` is the least of `s - {x}` or `x` itself. */
  lemma LeastWithOneMore<K(!new)>(s: set<K>, x: K, m: K, lt: (K, K) -> bool)
    requires StrictTotalOrder(lt) && x in s && m in s - {x}
    requires forall y | y in s - {x} :: m == y || lt(m, y)
    ensures exists least :: least in s && forall y | y in s :: least == y || lt(least, y)
  {
    if lt(m, x) {
      assert forall y | y in s :: m == y || lt(m, y);
    } else {
      assert lt(x, m);
      assert forall y | y in s :: x == y || lt(x, y);
    }
  }

  lemma MinimumExists(s: set<string>)
    requires s != {}
    ensures exists m :: m in s && forall y | y in s :: m == y || StrLt(m, y)
  {
    StringOrder();
    LeastExists(s, StrLt);
  }

  function Minimum(s: set<string>): (m: string)
    requires s != {}
    ensures m in s
    ensures forall y | y in s :: m == y || StrLt(m, y)
  {
    MinimumExists(s);
    StringOrder();
    var m :| m in s && forall y | y in s :: m == y || StrLt(m, y);
    m
  }

  function SortedSet(s: set<string>): (r: seq<string>)
    ensures forall x :: x in r <==> x in s
    ensures StrictlyAscending(r)
    ensures |r| == |s|
    decreases |s|
  {
    if s == {} then []
    else
      var m := Minimum(s);
      var rest := SortedSet(s - {m});
      assert forall x | x in rest :: StrLt(m, x);
      AscendingCons(m, rest);
      [m] + rest
  }

  lemma AscendingCons(m: string, rest: seq<string>)
    requires StrictlyAscending(rest) && forall x | x in rest :: StrLt(m, x)
    ensures StrictlyAscending([m] + rest)
  {
    var r := [m] + rest;
    forall i, j | 0 <= i < j < |r| ensures StrLt(r[i], r[j]) {
      assert r[j] == rest[j - 1];
      if i > 0 {
        assert r[i] == rest[i - 1];
      }
    }
  }
}

=== FILE: strings.dfy ===
/** Python string operations the builder relies on, with the semantics of CPython:
    code-point lexicographic comparison, character-SET strips (`str.strip(chars)`),
    left-to-right non-overlapping `str.replace`, `str(int)` and `", ".join`.
 */
module Strings {

  // ---------------------------------------------------------------------------
  // Ordering: Python compares strings lexicographically by code point.
  // ---------------------------------------------------------------------------

  predicate StrLt(a: string, b: string)
  {
    if |b| == 0 then false
    else if |a| == 0 then true
    else if a[0] != b[0] then a[0] < b[0]
    else StrLt(a[1..], b[1..])
  }

  lemma {:induction false} StrLtIrreflexive(a: string)
    ensures !StrLt(a, a)
  {
    if |a| > 0 {
      StrLtIrreflexive(a[1..]);
    }
  }

  lemma {:induction false} StrLtTransitive(a: string, b: string, c: string)
    requires StrLt(a, b) && StrLt(b, c)
    ensures StrLt(a, c)
  {
    if |a| > 0 && a[0] == b[0] && b[0] == c[0] {
      StrLtTransitive(a[1..], b[1..], c[1..]);
    }
  }

  lemma {:induction false} StrLtTotal(a: string, b: string)
    requires a != b
    ensures StrLt(a, b) || StrLt(b, a)
  {
    if |a| > 0 && |b| > 0 && a[0] == b[0] {
      StrLtTotal(a[1..], b[1..]);
    }
  }

  // ---------------------------------------------------------------------------
  // str.rstrip(chars) / str.lstrip(chars) / str.strip(chars): `chars` is a SET of
  // characters, not a suffix.
  // ---------------------------------------------------------------------------

  function RStrip(s: string, chars: set<char>): (r: string)
    ensures r <= s
    ensures |r| == 0 || r[|r| - 1] !in chars
    ensures forall i | |r| <= i < |s| :: s[i] in chars
  {
    if |s| == 0 || s[|s| - 1] !in chars then s
    else RStrip(s[..|s| - 1], chars)
  }

  function LStrip(s: string, chars: set<char>): (r: string)
    ensures |r| <= |s| && r == s[|s| - |r|..]
    ensures |r| == 0 || r[0] !in chars
    ensures forall i | 0 <= i < |s| - |r| :: s[i] in chars
  {
    if |s| == 0 || s[0] !in chars then s
    else LStrip(s[1..], chars)
  }

  function Strip(s: string, chars: set<char>): (r: string)
  {
    RStrip(LStrip(s, chars), chars)
  }

  /** Stripping a string whose ends lie outside the set changes nothing. */
  lemma StripKeepsCleanEnds(s: string, chars: set<char>)
    requires |s| > 0 && s[0] !in chars && s[|s| - 1] !in chars
    ensures Strip(s, chars) == s
  {
  }

  // ---------------------------------------------------------------------------
  // ASCII case folding (str.lower on ASCII text)
  // ---------------------------------------------------------------------------

  /** `str.lower()` on one character, for ASCII letters only: any other
      character is left as it is, although Python also lowers non-ASCII
      capitals (and may turn one into several characters). */
  function LowerChar(c: char): char
  {
    if 'A' <= c <= 'Z' then (c as int + 32) as char else c
  }

  /** An ASCII upper-case letter. */
  predicate IsUpper(c: char)
  {
    'A' <= c <= 'Z'
  }

  function Lower(s: string): (r: string)
    ensures |r| == |s|
    ensures forall i | 0 <= i < |s| :: r[i] == LowerChar(s[i])
    ensures forall i | 0 <= i < |r| :: !IsUpper(r[i])
  {
    if |s| == 0 then "" else [LowerChar(s[0])] + Lower(s[1..])
  }

  // ---------------------------------------------------------------------------
  // str.replace(old, new): left to right, non-overlapping, no re-scan.
  // ---------------------------------------------------------------------------

  predicate OccursAt(pat: string, s: string, i: int)
  {
    0 <= i && i + |pat| <= |s| && s[i..i + |pat|] == pat
  }

  predicate Occurs(pat: string, s: string)
  {
    exists i | 0 <= i <= |s| :: OccursAt(pat, s, i)
  }

  function Replace(s: string, pat: string, rep: string): (r: string)
    requires |pat| > 0
    ensures !Occurs(pat, s) ==> r == s
    decreases |s|
  {
    if |s| < |pat| then s
    else if s[..|pat|] == pat then
      assert OccursAt(pat, s, 0);
      rep + Replace(s[|pat|..], pat, rep)
    else
      OccursInTail(pat, s);
      [s[0]] + Replace(s[1..], pat, rep)
  }

  lemma OccursInTail(pat: string, s: string)
    requires |s| > 0
    ensures Occurs(pat, s[1..]) ==> Occurs(pat, s)
  {
    if Occurs(pat, s[1..]) {
      var i :| 0 <= i <= |s[1..]| && OccursAt(pat, s[1..], i);
      assert s[i + 1..i + 1 + |pat|] == s[1..][i..i + |pat|];
      assert OccursAt(pat, s, i + 1);
    }
  }

  /** Replacing one character by one character rewrites it in place. */
  lemma {:induction false} ReplaceCharPointwise(s: string, c: char, d: char)
    ensures |Replace(s, [c], [d])| == |s|
    ensures forall i | 0 <= i < |s| ::
      Replace(s, [c], [d])[i] == (if s[i] == c then d else s[i])
  {
    if |s| > 0 {
      ReplaceCharPointwise(s[1..], c, d);
    }
  }

  /** Every character other than `c`, in order. */
  function Without(s: string, c: char): (r: string)
    ensures c !in r
    ensures |r| <= |s|
    ensures forall x | x in r :: x in s
  {
    if |s| == 0 then ""
    else if s[0] == c then Without(s[1..], c)
    else [s[0]] + Without(s[1..], c)
  }

  /** Replacing one character by nothing deletes exactly its occurrences. */
  lemma {:induction false} ReplaceCharRemoves(s: string, c: char)
    ensures Replace(s, [c], "") == Without(s, c)
  {
    if |s| > 0 {
      ReplaceCharRemoves(s[1..], c);
      assert s[..1] == [s[0]];
    }
  }

  lemma NoMatchInTail(x: string, pat: string)
    requires |x| > 0
    requires forall i | 0 <= i < |x| :: !OccursAt(pat, x + pat, i)
    ensures forall i | 0 <= i < |x[1..]| :: !OccursAt(pat, x[1..] + pat, i)
  {
    var s := x + pat;
    var t := x[1..] + pat;
    forall i | 0 <= i < |x[1..]|
      ensures !OccursAt(pat, t, i)
    {
      assert !OccursAt(pat, s, i + 1);
      assert s[i + 1..i + 1 + |pat|] == t[i..i + |pat|];
    }
  }

  /** In `x + pat` with no earlier match of `pat`, only the trailing `pat` is
      replaced. */
  lemma {:induction false} ReplaceSuffix(x: string, pat: string, rep: string)
    requires |pat| > 0
    requires forall i | 0 <= i < |x| :: !OccursAt(pat, x + pat, i)
    ensures Replace(x + pat, pat, rep) == x + rep
    decreases |x|
  {
    var s := x + pat;
    if |x| == 0 {
      assert s[..|pat|] == pat;
      assert s[|pat|..] == "";
    } else {
      var t := x[1..] + pat;
      assert s[1..] == t;
      assert !OccursAt(pat, s, 0);
      assert Replace(s, pat, rep) == [s[0]] + Replace(t, pat, rep);
      NoMatchInTail(x, pat);
      ReplaceSuffix(x[1..], pat, rep);
      ConsTail(x, rep);
    }
  }

  /** A pattern whose first character `x` lacks cannot start inside `x`. */
  lemma NoMatchBefore(x: string, pat: string)
    requires |pat| > 0 && pat[0] !in x
    ensures forall i | 0 <= i < |x| :: !OccursAt(pat, x + pat, i)
  {
    forall i | 0 <= i < |x|
      ensures !OccursAt(pat, x + pat, i)
    {
      assert (x + pat)[i] == x[i];
      if i + |pat| <= |x + pat| {
        assert (x + pat)[i..i + |pat|][0] == x[i];
      }
    }
  }

  lemma ConsTail(x: string, y: string)
    requires |x| > 0
    ensures [x[0]] + (x[1..] + y) == x + y
  {
    assert x == [x[0]] + x[1..];
  }

  // ---------------------------------------------------------------------------
  // str(n) for a natural number, and its inverse
  // ---------------------------------------------------------------------------

  predicate IsDigit(c: char)
  {
    '0' <= c <= '9'
  }

  function DigitChar(d: nat): char
    requires d < 10
  {
    ('0' as int + d) as char
  }

  function NatToString(n: nat): (r: string)
    ensures |r| > 0
    ensures forall i | 0 <= i < |r| :: IsDigit(r[i])
    ensures |r| > 1 ==> r[0] != '0'
    ensures n < 10 <==> |r| == 1
    decreases n
  {
    if n < 10 then [DigitChar(n)]
    else NatToString(n / 10) + [DigitChar(n % 10)]
  }

  function DigitsValue(s: string): int
    requires forall i | 0 <= i < |s| :: IsDigit(s[i])
  {
    if |s| == 0 then 0
    else 10 * DigitsValue(s[..|s| - 1]) + (s[|s| - 1] as int - '0' as int)
  }

  /** Reading back the decimal digits of `str(n)` gives `n`. */
  lemma {:induction false} NatToStringRoundTrip(n: nat)
    ensures DigitsValue(NatToString(n)) == n
    decreases n
  {
    if n >= 10 {
      NatToStringRoundTrip(n / 10);
      var s := NatToString(n);
      assert s[..|s| - 1] == NatToString(n / 10);
    }
  }

  lemma NatToStringInjective(m: nat, n: nat)
    requires NatToString(m) == NatToString(n)
    ensures m == n
  {
    NatToStringRoundTrip(m);
    NatToStringRoundTrip(n);
  }

  // ---------------------------------------------------------------------------
  // sep.join(parts)
  // ---------------------------------------------------------------------------

  function Join(parts: seq<string>, sep: string): string
  {
    if |parts| == 0 then ""
    else if |parts| == 1 then parts[0]
    else parts[0] + sep + Join(parts[1..], sep)
  }
}

=== FILE: where.dfy ===
/** Places and the dated locations that refer to them
    (thisisthesitebuilder/where/models.py).

    A `Place` is what one authored place file describes. Python compares places
    by object identity; the model gives every place the name it is filed under
    (`id`), which is unique among the places of one build and stands for that
    identity. Attributes the decision logic never reads (coordinates, map style,
    zoom, bearing, pitch, link) are kept together in `attrs`, because
    `place.__dict__[field]` can still reach them.
 */
module Where {
  import opened Wrappers
  import opened Strings
  import opened Json

  datatype Place = Place(
    id: string,
    yamlChecksum: string,
    smallName: string,
    bigName: string,
    useBothNamesForSlug: bool,
    showOnTopLevelExperience: bool,
    attrs: map<string, JVal>,
    isUsedInLocation: bool,
    thumbFilename: Option<JVal>)

  /** `Place.significance`: the constructor stores 0 whatever it is given. */
  const PlaceSignificance: int := 0

  /** `Place(yaml_checksum, ..., significance=...)`: a new place is not yet used by
      any location and has no thumbnail name; the significance argument is
      dropped. */
  function NewPlace(id: string, yamlChecksum: string, smallName: string, bigName: string,
                    useBothNamesForSlug: bool, showOnTopLevelExperience: bool,
                    attrs: map<string, JVal>, significance: JVal): (p: Place)
    ensures !p.isUsedInLocation && p.thumbFilename.None?
    ensures p.smallName == smallName && p.bigName == bigName && p.yamlChecksum == yamlChecksum
  {
    Place(id, yamlChecksum, smallName, bigName, useBothNamesForSlug, showOnTopLevelExperience,
          attrs, false, None)
  }

  /** Two places built from the same file but different significance arguments
      are the same place. */
  lemma NewPlaceIgnoresSignificance(id: string, yamlChecksum: string, smallName: string, bigName: string,
                                    useBothNamesForSlug: bool, showOnTopLevelExperience: bool,
                                    attrs: map<string, JVal>, s1: JVal, s2: JVal)
    ensures NewPlace(id, yamlChecksum, smallName, bigName, useBothNamesForSlug, showOnTopLevelExperience, attrs, s1)
         == NewPlace(id, yamlChecksum, smallName, bigName, useBothNamesForSlug, showOnTopLevelExperience, attrs, s2)
  {
  }

  /** `place.__dict__[field]`: the instance attributes by their Python names. */
  function FieldValue(p: Place, field: string): (r: Result<JVal>)
    ensures field == "big_name" ==> r == Ok(JStr(p.bigName))
    ensures field == "small_name" ==> r == Ok(JStr(p.smallName))
    ensures r.Err? <==> r == Err(KeyError(field))
  {
    if field == "yaml_checksum" then Ok(JStr(p.yamlChecksum))
    else if field == "small_name" then Ok(JStr(p.smallName))
    else if field == "big_name" then Ok(JStr(p.bigName))
    else if field == "use_both_names_for_slug" then Ok(JBool(p.useBothNamesForSlug))
    else if field == "show_on_top_level_experience" then Ok(JBool(p.showOnTopLevelExperience))
    else if field == "significance" then Ok(JNum(PlaceSignificance))
    else if field == "is_used_in_location" then Ok(JBool(p.isUsedInLocation))
    else if field == "thumb_filename" && p.thumbFilename.Some? then Ok(p.thumbFilename.value)
    else if field in p.attrs then Ok(p.attrs[field])
    else Err(KeyError(field))
  }

  /** `str(place)` */
  function PlaceStr(p: Place): (r: string)
    ensures |r| == |p.smallName| + 3 + |p.bigName|
    ensures r[..|p.smallName|] == p.smallName
    ensures r[|p.smallName|..|p.smallName| + 3] == " - "
    ensures r[|p.smallName| + 3..] == p.bigName
  {
    p.smallName + " - " + p.bigName
  }

  /** One name's part of a slug: spaces become hyphens, then lower case. */
  function Slugify(name: string): string
  {
    Lower(Replace(name, " ", "-"))
  }

  /** The big name's part: spaces become hyphens, commas go, then lower case. */
  function SlugifyBig(name: string): string
  {
    Lower(Replace(Replace(name, " ", "-"), ",", ""))
  }

  /** `place.slug()`: the small name's part, followed directly (no separator) by
      the big name's part when the place asks for both names. */
  function Slug(p: Place): (r: string)
    ensures p.useBothNamesForSlug ==> r == Slugify(p.smallName) + SlugifyBig(p.bigName)
    ensures !p.useBothNamesForSlug ==> r == Slugify(p.smallName)
  {
    var slug := Slugify(p.smallName);
    if p.useBothNamesForSlug then slug + SlugifyBig(p.bigName) else slug
  }

  /** What slugging does to one character of the small name. */
  function SlugChar(c: char): char
  {
    LowerChar(if c == ' ' then '-' else c)
  }

  /** The small name's part rewrites each character in place; the big name's part
      is the same rewrite applied to the name with its commas removed. Neither
      contains a space or an upper-case letter, and the big part has no comma. */
  lemma SlugCharacters(p: Place)
    ensures |Slugify(p.smallName)| == |p.smallName|
    ensures forall i | 0 <= i < |p.smallName| :: Slugify(p.smallName)[i] == SlugChar(p.smallName[i])
    ensures var big := Without(p.bigName, ',');
      && |SlugifyBig(p.bigName)| == |big|
      && forall i | 0 <= i < |big| :: SlugifyBig(p.bigName)[i] == SlugChar(big[i])
    ensures ',' !in SlugifyBig(p.bigName)
    ensures Clean(Slug(p))
  {
    SmallSlugCharacters(p.smallName);
    BigSlugCharacters(p.bigName);
    if p.useBothNamesForSlug {
      CleanConcat(Slugify(p.smallName), SlugifyBig(p.bigName));
    }
  }

  /** No space and no upper-case letter. */
  predicate Clean(s: string)
  {
    forall i | 0 <= i < |s| :: s[i] != ' ' && !IsUpper(s[i])
  }

  lemma CleanConcat(a: string, b: string)
    requires Clean(a) && Clean(b)
    ensures Clean(a + b)
  {
    var s := a + b;
    forall i | 0 <= i < |s| ensures s[i] != ' ' && !IsUpper(s[i]) {
      if i >= |a| {
        assert s[i] == b[i - |a|];
      }
    }
  }

  /** The small name's part character by character. */
  lemma SmallSlugCharacters(name: string)
    ensures |Slugify(name)| == |name|
    ensures forall i | 0 <= i < |name| :: Slugify(name)[i] == SlugChar(name[i])
    ensures Clean(Slugify(name))
  {
    ReplaceCharPointwise(name, ' ', '-');
  }

  /** The big name's part character by character, without commas, spaces or
      upper-case letters. */
  lemma BigSlugCharacters(name: string)
    ensures var big := Without(name, ',');
      && |SlugifyBig(name)| == |big|
      && forall i | 0 <= i < |big| :: SlugifyBig(name)[i] == SlugChar(big[i])
    ensures ',' !in SlugifyBig(name) && Clean(SlugifyBig(name))
  {
    var dashed := Replace(name, " ", "-");
    ReplaceCharPointwise(name, ' ', '-');
    ReplaceCharRemoves(dashed, ',');
    ReplaceCharRemoves(name, ',');
    WithoutCommutesWithDash(name);
    var big := Without(name, ',');
    ReplaceCharPointwise(big, ' ', '-');
    assert Without(dashed, ',') == Replace(big, " ", "-");
    forall i | 0 <= i < |SlugifyBig(name)| ensures SlugifyBig(name)[i] != ',' {
      assert SlugifyBig(name)[i] == LowerChar(Without(dashed, ',')[i]);
      assert Without(dashed, ',')[i] in Without(dashed, ',');
    }
  }

  /** Removing commas and turning spaces into hyphens can be done in either order. */
  lemma {:induction false} WithoutCommutesWithDash(s: string)
    ensures Without(Replace(s, " ", "-"), ',') == Replace(Without(s, ','), " ", "-")
  {
    if |s| > 0 {
      WithoutCommutesWithDash(s[1..]);
      assert s[..1] == [s[0]];
      var w := Without(s, ',');
      if s[0] != ',' {
        assert w == [s[0]] + Without(s[1..], ',');
        assert w[..1] == [s[0]] && w[1..] == Without(s[1..], ',');
      }
    }
  }

  /** Where a place's compiled record is stored. */
  function CompiledPath(dataDir: string, p: Place): string
  {
    dataDir + "/compiled/places/" + Slug(p)
  }

  /** The verdict of `compiled_is_current`: the stored record, or False. */
  datatype Currency = Current(record: map<string, JVal>) | Stale

  /** `compiled_is_current()`: a missing file is stale; a stored record is current
      exactly when its `yaml_checksum` equals the place's. A file that is not
      JSON, or JSON without `.get`, raises. */
  function CompiledIsCurrent(store: Store, dataDir: string, p: Place): (r: Result<Currency>)
    ensures CompiledPath(dataDir, p) !in store ==> r == Ok(Stale)
    ensures r.Ok? && r.value.Current? <==>
      Load(store, CompiledPath(dataDir, p)).Ok? && Load(store, CompiledPath(dataDir, p)).value.JObj?
      && Get(Load(store, CompiledPath(dataDir, p)).value.fields, "yaml_checksum") == JStr(p.yamlChecksum)
    ensures r.Ok? && r.value.Current? ==>
      Load(store, CompiledPath(dataDir, p)) == Ok(JObj(r.value.record))
    ensures r.Err? <==>
      CompiledPath(dataDir, p) in store &&
      (store[CompiledPath(dataDir, p)].Malformed? || !store[CompiledPath(dataDir, p)].json.JObj?)
  {
    var loaded := Load(store, CompiledPath(dataDir, p));
    if loaded.Err? then
      if loaded.error.FileNotFound? then Ok(Stale) else Err(loaded.error)
    else match loaded.value
      case JObj(fields) =>
        if Get(fields, "yaml_checksum") == JStr(p.yamlChecksum) then Ok(Current(fields)) else Ok(Stale)
      case _ => Err(AttributeError("get"))
  }

  /** The characters of `s` before its first '/'. */
  function UpToSlash(s: string): (r: string)
    ensures r <= s && '/' !in r
    ensures |r| < |s| ==> s[|r|] == '/'
  {
    if |s| == 0 || s[0] == '/' then "" else [s[0]] + UpToSlash(s[1..])
  }

  /** `content_type.split('/')[1]`: the field between the first '/' and the
      next one (or the end); IndexError when there is no '/'. */
  function Subtype(contentType: string): (r: Result<string>)
    ensures r.Ok? <==> '/' in contentType
    ensures r.Err? ==> r.error == IndexError
    ensures r.Ok? ==> '/' !in r.value
  {
    if |contentType| == 0 then Err(IndexError)
    else if contentType[0] == '/' then Ok(UpToSlash(contentType[1..]))
    else Subtype(contentType[1..])
  }

  /** A media type "type/subtype", with or without further '/'-separated
      fields, gives its subtype. */
  lemma {:induction false} SubtypeOfMediaType(main: string, sub: string, rest: string)
    requires '/' !in main && '/' !in sub
    requires |rest| == 0 || rest[0] == '/'
    ensures Subtype(main + "/" + sub + rest) == Ok(sub)
    decreases |main|
  {
    var ct := main + "/" + sub + rest;
    if |main| == 0 {
      assert ct[0] == '/' && ct[1..] == sub + rest;
      UpToSlashOf(sub, rest);
    } else {
      assert ct[0] == main[0] && ct[1..] == main[1..] + "/" + sub + rest;
      SubtypeOfMediaType(main[1..], sub, rest);
    }
  }

  lemma {:induction false} UpToSlashOf(sub: string, rest: string)
    requires '/' !in sub
    requires |rest| == 0 || rest[0] == '/'
    ensures UpToSlash(sub + rest) == sub
    decreases |sub|
  {
    if |sub| > 0 {
      assert (sub + rest)[1..] == sub[1..] + rest;
      UpToSlashOf(sub[1..], rest);
    }
  }

  /** The fetch step of `compile`: the thumbnail is named after the slug and
      the subtype of the map response's Content-Type. */
  function Fetch(p: Place, contentType: string): (r: Result<(Place, bool)>)
    ensures r.Ok? <==> '/' in contentType
    ensures r.Err? ==> r.error == IndexError
    ensures r.Ok? ==> r.value.1 && r.value.0 == p.(thumbFilename := Some(JStr(ThumbName(p, Subtype(contentType).value))))
  {
    var sub :- Subtype(contentType);
    Ok((p.(thumbFilename := Some(JStr(ThumbName(p, sub)))), true))
  }

  /** `"%s.%s" % (slug, subtype)`. */
  function ThumbName(p: Place, subtype: string): string
  {
    Slug(p) + "." + subtype
  }

  /** `compile(force_update)` against the stored records, with `contentType` the
      Content-Type header of the map response a fetch would get. Returns the place
      (its thumbnail name read back from a current record, or set from the fetch)
      and whether it was fetched and written, which is the method's return value. */
  function Compile(store: Store, dataDir: string, p: Place, force: bool, contentType: string): (r: Result<(Place, bool)>)
    ensures force ==> r == Fetch(p, contentType)
    ensures r.Err? ==> !force || '/' !in contentType
    ensures r.Ok? ==> r.value.0 == p.(thumbFilename := r.value.0.thumbFilename)
    ensures r.Ok? && r.value.1 ==>
      '/' in contentType && r.value.0.thumbFilename == Some(JStr(ThumbName(p, Subtype(contentType).value)))
    ensures r.Ok? && !r.value.1 ==> r.value.0.thumbFilename.Some?
  {
    if force then Fetch(p, contentType)
    else
      var current :- CompiledIsCurrent(store, dataDir, p);
      // A current record holds `yaml_checksum`, so it is never an empty (falsy) dict.
      match current
      case Current(record) =>
        if "thumb_filename" in record then Ok((p.(thumbFilename := Some(record["thumb_filename"])), false))
        else Err(KeyError("thumb_filename"))
      case Stale => Fetch(p, contentType)
  }

  /** A forced compile always fetches. Otherwise the place is left alone (only its
      thumbnail name read back) exactly when its stored record is current and
      names the thumbnail; a stale or missing record means a fetch. */
  lemma CompileDecision(store: Store, dataDir: string, p: Place, force: bool, contentType: string)
    ensures force ==> Compile(store, dataDir, p, force, contentType) == Fetch(p, contentType)
    ensures !force ==> (Compile(store, dataDir, p, force, contentType).Ok? && !Compile(store, dataDir, p, force, contentType).value.1 <==>
      CompiledIsCurrent(store, dataDir, p).Ok? && CompiledIsCurrent(store, dataDir, p).value.Current?
      && "thumb_filename" in CompiledIsCurrent(store, dataDir, p).value.record)
    ensures !force && CompiledIsCurrent(store, dataDir, p) == Ok(Stale) ==>
      Compile(store, dataDir, p, force, contentType) == Fetch(p, contentType)
    ensures Compile(store, dataDir, p, force, contentType).Ok? && !Compile(store, dataDir, p, force, contentType).value.1 ==>
      Compile(store, dataDir, p, force, contentType).value.0 ==
        p.(thumbFilename := Some(CompiledIsCurrent(store, dataDir, p).value.record["thumb_filename"]))
  {
  }

  /** A fetch whose map comes back as "type/subtype" (an image/png, say) names
      the thumbnail "<slug>.<subtype>" and changes nothing else. */
  lemma FetchNamesThumbnail(p: Place, main: string, sub: string)
    requires '/' !in main && '/' !in sub
    ensures Fetch(p, main + "/" + sub) == Ok((p.(thumbFilename := Some(JStr(Slug(p) + "." + sub))), true))
  {
    SubtypeOfMediaType(main, sub, "");
    assert main + "/" + sub + "" == main + "/" + sub;
  }

  /** A location: a place visited at a day and time. `significance` is the
      optional override (JSON null when none was given). */
  datatype Location = Location(day: string, time: string, place: Place, significance: JVal)

  /** `Location(day, time, place, significance)`: marks the place as used. */
  function NewLocation(day: string, time: string, place: Place, significance: JVal): (l: Location)
    ensures l.place.isUsedInLocation
    ensures l.place == place.(isUsedInLocation := true)
    ensures l.day == day && l.time == time && l.significance == significance
  {
    Location(day, time, place.(isUsedInLocation := true), significance)
  }

  /** `str(location)`: "{day}T{time}: {place}". */
  function LocationStr(l: Location): (r: string)
    ensures r == l.day + "T" + l.time + ": " + PlaceStr(l.place)
    ensures |r| == |l.day| + |l.time| + |PlaceStr(l.place)| + 3
  {
    l.day + "T" + l.time + ": " + PlaceStr(l.place)
  }

  /** `location.significance()`: the place's (always 0) without an override; the
      override branch reads a misspelled attribute and raises AttributeError. */
  function Significance(l: Location): (r: Result<int>)
    ensures r.Ok? <==> l.significance == JNull
    ensures r.Ok? ==> r.value == 0
  {
    if l.significance == JNull then Ok(PlaceSignificance)
    else Err(AttributeError("_significacne"))
  }

  /** `location.most_significant_experience()` over the experiences that list the
      location: the only one if there is exactly one, None otherwise. */
  function MostSignificantExperience<E>(usedIn: seq<E>): (r: Option<E>)
    ensures r.Some? <==> |usedIn| == 1
    ensures r.Some? ==> r.value == usedIn[0]
  {
    if |usedIn| != 1 then None else Some(usedIn[0])
  }
}

=== FILE: where_build.dfy ===
/** Building the place registry and the day -> time -> location map from parsed
    YAML (thisisthesitebuilder/where/build.py).

    Directory listings are sequences in listing order; reading and parsing a
    file is done before the model starts, so each file arrives as its parsed
    content.
 */
module WhereBuild {
  import opened Wrappers
  import opened Strings
  import opened Json
  import opened Where

  // ---------------------------------------------------------------------------
  // process_places
  // ---------------------------------------------------------------------------

  /** One authored place file: its name and the place `Place.from_yaml` built. */
  datatype PlaceFile = PlaceFile(fileName: string, place: Place)

  datatype PlacesResult = PlacesResult(places: map<string, Place>, newPlaces: nat)

  /** `yaml_file.replace('.yaml', '')`: every occurrence goes, not only a suffix. */
  function PlaceKey(fileName: string): string
  {
    Replace(fileName, ".yaml", "")
  }

  /** A file named `x.yaml` whose stem does not itself contain ".yaml" is filed
      under `x`. */
  lemma PlaceKeyOfYamlFile(x: string)
    requires forall i | 0 <= i < |x| :: !OccursAt(".yaml", x + ".yaml", i)
    ensures PlaceKey(x + ".yaml") == x
  {
    ReplaceSuffix(x, ".yaml", "");
  }

  /** File `i` is the last among the first `n` files filed under its key. */
  ghost predicate IsLastWithKey(files: seq<PlaceFile>, n: int, i: int)
    requires n <= |files|
  {
    && 0 <= i < n
    && forall j | i < j < n :: PlaceKey(files[j].fileName) != PlaceKey(files[i].fileName)
  }

  /** `place.compile(force_update)` against the stored records, the map
      response for each place having the Content-Type `contentTypeOf(place)`. */
  function CompileWith(store: Store, dataDir: string, force: bool, contentTypeOf: Place -> string)
    : Place -> Result<(Place, bool)>
  {
    p => Compile(store, dataDir, p, force, contentTypeOf(p))
  }

  /** How many of the first `n` files' places `compile` reports as newly fetched. */
  ghost function Created(compile: Place -> Result<(Place, bool)>, files: seq<PlaceFile>, n: nat): nat
    requires n <= |files|
  {
    if n == 0 then 0
    else
      var c := compile(files[n - 1].place);
      Created(compile, files, n - 1) + (if c.Ok? && c.value.1 then 1 else 0)
  }

  /** The registry entry for a file: the compiled place, identified by its key. */
  function Entry(compile: Place -> Result<(Place, bool)>, f: PlaceFile): Place
    requires compile(f.place).Ok?
  {
    compile(f.place).value.0.(id := PlaceKey(f.fileName))
  }

  /** `process_places(force_update=...)`: compiles every place in listing order,
      files it under its key (a later file with the same key replaces an earlier
      one) and counts the places that had to be fetched. The first failing compile
      propagates. */
  method ProcessPlaces(store: Store, dataDir: string, files: seq<PlaceFile>, force: bool, contentTypeOf: Place -> string)
    returns (r: Result<PlacesResult>)
    ensures r.Ok? <==> forall i | 0 <= i < |files| :: Compile(store, dataDir, files[i].place, force, contentTypeOf(files[i].place)).Ok?
    ensures r.Ok? ==> forall k :: k in r.value.places <==> exists i | 0 <= i < |files| :: PlaceKey(files[i].fileName) == k
    ensures r.Ok? ==> forall i | IsLastWithKey(files, |files|, i) ::
      r.value.places[PlaceKey(files[i].fileName)] == Entry(CompileWith(store, dataDir, force, contentTypeOf), files[i])
    ensures r.Ok? ==> r.value.newPlaces == Created(CompileWith(store, dataDir, force, contentTypeOf), files, |files|)
  {
    r := RegisterPlaces(files, CompileWith(store, dataDir, force, contentTypeOf));
  }

  /** The loop of `process_places` for a given compile step. */
  method RegisterPlaces(files: seq<PlaceFile>, compile: Place -> Result<(Place, bool)>)
    returns (r: Result<PlacesResult>)
    ensures r.Ok? <==> forall i | 0 <= i < |files| :: compile(files[i].place).Ok?
    ensures r.Ok? ==> forall k :: k in r.value.places <==> exists i | 0 <= i < |files| :: PlaceKey(files[i].fileName) == k
    ensures r.Ok? ==> forall i | IsLastWithKey(files, |files|, i) ::
      PlaceKey(files[i].fileName) in r.value.places && r.value.places[PlaceKey(files[i].fileName)] == Entry(compile, files[i])
    ensures r.Ok? ==> r.value.newPlaces == Created(compile, files, |files|)
  {
    var places: map<string, Place> := map[];
    var newPlaces := 0;
    var i := 0;
    while i < |files|
      invariant 0 <= i <= |files|
      invariant forall j | 0 <= j < i :: compile(files[j].place).Ok?
      invariant Filed(places, files, compile, i)
      invariant newPlaces == Created(compile, files, i)
    {
      var compiled := compile(files[i].place);
      if compiled.Err? {
        return Err(compiled.error);
      }
      if compiled.value.1 {
        newPlaces := newPlaces + 1;
      }
      var key := PlaceKey(files[i].fileName);
      RegisterStep(files, compile, i, places);
      places := places[key := Entry(compile, files[i])];
      i := i + 1;
    }
    return Ok(PlacesResult(places, newPlaces));
  }

  /** The registry holds exactly the keys of the first `n` files, each with the
      entry of the last of them filed under it. */
  ghost predicate Filed(places: map<string, Place>, files: seq<PlaceFile>, compile: Place -> Result<(Place, bool)>, n: int)
    requires 0 <= n <= |files|
    requires forall j | 0 <= j < n :: compile(files[j].place).Ok?
  {
    && (forall k :: k in places <==> exists j | 0 <= j < n :: PlaceKey(files[j].fileName) == k)
    && EntriesFiled(places, files, compile, n)
  }

  /** Every file among the first `n` that is the last with its key has its
      entry in the registry. */
  ghost predicate EntriesFiled(places: map<string, Place>, files: seq<PlaceFile>, compile: Place -> Result<(Place, bool)>, n: int)
    requires 0 <= n <= |files|
    requires forall j | 0 <= j < n :: compile(files[j].place).Ok?
  {
    forall j | IsLastWithKey(files, n, j) ::
      PlaceKey(files[j].fileName) in places && places[PlaceKey(files[j].fileName)] == Entry(compile, files[j])
  }

  /** Filing file `i` keeps the registry's keys and last-wins entries in step
      with the files seen so far. */
  lemma RegisterStep(files: seq<PlaceFile>, compile: Place -> Result<(Place, bool)>, i: int,
                     places: map<string, Place>)
    requires 0 <= i < |files|
    requires forall j | 0 <= j <= i :: compile(files[j].place).Ok?
    requires Filed(places, files, compile, i)
    ensures Filed(places[PlaceKey(files[i].fileName) := Entry(compile, files[i])], files, compile, i + 1)
  {
    var after := places[PlaceKey(files[i].fileName) := Entry(compile, files[i])];
    RegisterStepKeys(files, i, places, after);
    RegisterStepEntries(files, compile, i, places);
  }

  /** Some file among the first `n` has key `k`. */
  ghost predicate KeySeen(files: seq<PlaceFile>, n: int, k: string)
    requires n <= |files|
  {
    exists j | 0 <= j < n :: PlaceKey(files[j].fileName) == k
  }

  lemma KeySeenStep(files: seq<PlaceFile>, i: int, k: string)
    requires 0 <= i < |files|
    ensures KeySeen(files, i + 1, k) <==> KeySeen(files, i, k) || PlaceKey(files[i].fileName) == k
  {
    if KeySeen(files, i + 1, k) && PlaceKey(files[i].fileName) != k {
      var j :| 0 <= j < i + 1 && PlaceKey(files[j].fileName) == k;
      assert j < i;
    }
  }

  lemma RegisterStepKeys(files: seq<PlaceFile>, i: int, places: map<string, Place>, after: map<string, Place>)
    requires 0 <= i < |files|
    requires forall k :: k in places <==> exists j | 0 <= j < i :: PlaceKey(files[j].fileName) == k
    requires after.Keys == places.Keys + {PlaceKey(files[i].fileName)}
    ensures forall k :: k in after <==> exists j | 0 <= j < i + 1 :: PlaceKey(files[j].fileName) == k
  {
    forall k ensures k in after <==> exists j | 0 <= j < i + 1 :: PlaceKey(files[j].fileName) == k {
      KeySeenStep(files, i, k);
    }
  }

  lemma RegisterStepEntries(files: seq<PlaceFile>, compile: Place -> Result<(Place, bool)>, i: int,
                            places: map<string, Place>)
    requires 0 <= i < |files|
    requires forall j | 0 <= j <= i :: compile(files[j].place).Ok?
    requires EntriesFiled(places, files, compile, i)
    ensures var after := places[PlaceKey(files[i].fileName) := Entry(compile, files[i])];
      forall j | IsLastWithKey(files, i + 1, j) :: after[PlaceKey(files[j].fileName)] == Entry(compile, files[j])
  {
    var after := places[PlaceKey(files[i].fileName) := Entry(compile, files[i])];
    forall j | IsLastWithKey(files, i + 1, j)
      ensures after[PlaceKey(files[j].fileName)] == Entry(compile, files[j])
    {
      StillFiled(files, compile, i, places, j);
    }
  }

  /** After filing file `i`, a file up to `i` that is the last with its key
      has its entry: file `i` itself, or an earlier file under a different key
      whose entry is left as it was. */
  lemma StillFiled(files: seq<PlaceFile>, compile: Place -> Result<(Place, bool)>, i: int,
                   places: map<string, Place>, j: int)
    requires 0 <= i < |files|
    requires forall k | 0 <= k <= i :: compile(files[k].place).Ok?
    requires EntriesFiled(places, files, compile, i)
    requires IsLastWithKey(files, i + 1, j)
    ensures var after := places[PlaceKey(files[i].fileName) := Entry(compile, files[i])];
      after[PlaceKey(files[j].fileName)] == Entry(compile, files[j])
  {
    if j < i {
      var kj := PlaceKey(files[j].fileName);
      assert kj != PlaceKey(files[i].fileName);
      assert IsLastWithKey(files, i, j);
      assert places[kj] == Entry(compile, files[j]);
    }
  }

  /** With `force_update` every place is fetched again: when every map
      response has a media type, all of them are counted as new. */
  lemma ForceCreatesAll(store: Store, dataDir: string, files: seq<PlaceFile>, n: nat,
                        contentTypeOf: Place -> string)
    requires n <= |files|
    ensures MediaTyped(files, n, contentTypeOf) ==>
      Created(CompileWith(store, dataDir, true, contentTypeOf), files, n) == n
  {
    if MediaTyped(files, n, contentTypeOf) {
      var compile := CompileWith(store, dataDir, true, contentTypeOf);
      forall i | 0 <= i < n ensures CreatesAt(compile, files, i) {
        CompileWithCreates(store, dataDir, true, contentTypeOf, files[i].place);
      }
      CreatedCountsAll(compile, files, n);
    }
  }

  /** The map responses for the first `n` places all have a media type. */
  predicate MediaTyped(files: seq<PlaceFile>, n: nat, contentTypeOf: Place -> string)
    requires n <= |files|
  {
    forall i | 0 <= i < n :: '/' in contentTypeOf(files[i].place)
  }

  /** Compiling file `i` succeeds and counts as new. */
  predicate CreatesAt(compile: Place -> Result<(Place, bool)>, files: seq<PlaceFile>, i: nat)
    requires i < |files|
  {
    var c := compile(files[i].place); c.Ok? && c.value.1
  }

  /** When every one of the first `n` files counts as new, the count is `n`;
      when none does, it is 0. */
  lemma {:induction false} CreatedCountsAll(compile: Place -> Result<(Place, bool)>, files: seq<PlaceFile>, n: nat)
    requires n <= |files|
    requires forall i | 0 <= i < n :: CreatesAt(compile, files, i)
    ensures Created(compile, files, n) == n
  {
    if n > 0 {
      CreatedCountsAll(compile, files, n - 1);
      assert CreatesAt(compile, files, n - 1);
    }
  }

  lemma {:induction false} CreatedCountsNone(compile: Place -> Result<(Place, bool)>, files: seq<PlaceFile>, n: nat)
    requires n <= |files|
    requires forall i | 0 <= i < n :: !CreatesAt(compile, files, i)
    ensures Created(compile, files, n) == 0
  {
    if n > 0 {
      CreatedCountsNone(compile, files, n - 1);
      assert !CreatesAt(compile, files, n - 1);
    }
  }

  /** The stored record of `p` is current and names a thumbnail. */
  predicate CurrentWithThumb(store: Store, dataDir: string, p: Place)
  {
    var c := CompiledIsCurrent(store, dataDir, p);
    c.Ok? && c.value.Current? && "thumb_filename" in c.value.record
  }

  /** What one compile decides: with `force_update` and a media type the place
      counts as new; without it, a current record naming a thumbnail is kept. */
  lemma CompileWithCreates(store: Store, dataDir: string, force: bool, contentTypeOf: Place -> string, p: Place)
    ensures var c := CompileWith(store, dataDir, force, contentTypeOf)(p);
      && (force && '/' in contentTypeOf(p) ==> c.Ok? && c.value.1)
      && (CurrentWithThumb(store, dataDir, p) && !force ==> c.Ok? && !c.value.1)
  {
    CompileDecision(store, dataDir, p, force, contentTypeOf(p));
  }

  /** Without `force_update`, places whose stored record is current and names
      a thumbnail are not fetched, so none of them counts as new. */
  lemma CurrentPlacesAreNotCreated(store: Store, dataDir: string, files: seq<PlaceFile>, n: nat,
                                   contentTypeOf: Place -> string)
    requires n <= |files|
    requires forall i | 0 <= i < n :: CurrentWithThumb(store, dataDir, files[i].place)
    ensures Created(CompileWith(store, dataDir, false, contentTypeOf), files, n) == 0
  {
    var compile := CompileWith(store, dataDir, false, contentTypeOf);
    forall i | 0 <= i < n ensures !CreatesAt(compile, files, i) {
      CompileWithCreates(store, dataDir, false, contentTypeOf, files[i].place);
    }
    CreatedCountsNone(compile, files, n);
  }

  // ---------------------------------------------------------------------------
  // process_locations
  // ---------------------------------------------------------------------------

  /** A location entry's value: a place name, a `[name, significance]` list, or
      any other YAML value (a number, null, a boolean or a mapping). */
  datatype LocMeta = Named(name: string) | Listed(items: seq<JVal>) | Other(v: JVal)

  /** No time is listed twice. */
  predicate DistinctTimes(es: seq<(string, LocMeta)>)
  {
    forall i, j | 0 <= i < j < |es| :: es[i].0 != es[j].0
  }

  /** The items of a loaded time -> meta mapping, in file order. A mapping holds
      each key once: a time repeated in the YAML text keeps only its last value,
      so the earlier one is never looked up. */
  type MappingItems = es: seq<(string, LocMeta)> | DistinctTimes(es)

  /** One authored location file: its name and its mapping's items (None when
      the document is empty, so `yaml.load` gives None). */
  datatype LocationFile = LocationFile(fileName: string, entries: Option<MappingItems>)

  /** `location_file.rstrip(".yaml")`: trailing '.', 'y', 'a', 'm', 'l'
      characters go, however many. */
  function DayOfFile(fileName: string): string
  {
    RStrip(fileName, {'.', 'y', 'a', 'm', 'l'})
  }

  /** A day-named file "2017-06-02.yaml" gives the day "2017-06-02": stripping
      stops at the first character outside the set, such as a digit. */
  lemma DayOfYamlFile(x: string)
    requires |x| > 0 && IsDigit(x[|x| - 1])
    ensures DayOfFile(x + ".yaml") == x
  {
    var s := x + ".yaml";
    var r := DayOfFile(s);
    assert s[|x|] == '.' && s[|x| + 1] == 'y' && s[|x| + 2] == 'a' && s[|x| + 3] == 'm' && s[|x| + 4] == 'l';
    assert s[|x| - 1] == x[|x| - 1];
    assert r == s[..|x|];
  }

  /** The text of a scalar JSON value used as a dictionary key, as `KeyError`
      shows it. */
  function KeyText(v: JVal): string
  {
    match v
    case JNull => "None"
    case JBool(b) => if b then "True" else "False"
    case JNum(n) => if n < 0 then "-" + NatToString(-n) else NatToString(n)
    case JStr(s) => s
    case _ => ""
  }

  /** A JSON value that can be a dictionary key: lists and objects cannot. */
  predicate Hashable(v: JVal)
  {
    !v.JArr? && !v.JObj?
  }

  /** The `except TypeError` path for a list: the name is the first element and
      the significance the second. Any hashable first element that names no
      place (a number, null or a boolean never does) is a KeyError on itself; a
      list or object there is unhashable again, a TypeError; a known name with
      no second element is an IndexError. */
  function ResolveListed(places: map<string, Place>, items: seq<JVal>): (r: Result<(string, JVal)>)
    ensures r.Ok? <==> |items| >= 2 && items[0].JStr? && items[0].s in places
    ensures r.Ok? ==> r.value == (items[0].s, items[1]) && r.value.0 in places
    ensures |items| == 0 ==> r == Err(IndexError)
    ensures |items| > 0 ==> (r.Err? && r.error.TypeError? <==> !Hashable(items[0]))
    ensures |items| > 0 && Hashable(items[0]) && !items[0].JStr? ==> r == Err(KeyError(KeyText(items[0])))
    ensures |items| > 0 && items[0].JStr? && items[0].s !in places ==> r == Err(KeyError(items[0].s))
    ensures |items| == 1 && items[0].JStr? && items[0].s in places ==> r == Err(IndexError)
  {
    if |items| == 0 then Err(IndexError)
    else if !Hashable(items[0]) then Err(TypeError("unhashable type"))
    else if !items[0].JStr? || items[0].s !in places then Err(KeyError(KeyText(items[0])))
    else if |items| < 2 then Err(IndexError)
    else Ok((items[0].s, items[1]))
  }

  /** Which place an entry refers to and its significance override (null for a
      plain name). The entry is first looked up directly: a name is found or is
      a KeyError, and so is any other hashable value (a number, null or a
      boolean names no place). Only an unhashable entry reaches the `except
      TypeError` path: a list resolves through `ResolveListed`, and a mapping's
      `meta[0]` looks up the integer key 0, which a mapping with string keys
      never has, so it is a KeyError for 0. */
  function Resolve(places: map<string, Place>, meta: LocMeta): (r: Result<(string, JVal)>)
    ensures meta.Named? ==> (r.Ok? <==> meta.name in places)
    ensures meta.Named? && r.Ok? ==> r.value == (meta.name, JNull)
    ensures meta.Named? && r.Err? ==> r.error == KeyError(meta.name)
    ensures meta.Listed? ==> r == ResolveListed(places, meta.items)
    ensures meta.Listed? ==> (r.Ok? <==>
      |meta.items| >= 2 && meta.items[0].JStr? && meta.items[0].s in places)
    ensures meta.Listed? && r.Ok? ==> r.value == (meta.items[0].s, meta.items[1])
    ensures r.Ok? ==> r.value.0 in places
    ensures meta.Listed? && |meta.items| == 0 ==> r == Err(IndexError)
    ensures meta.Listed? && |meta.items| > 0 ==>
      (r.Err? && r.error.TypeError? <==> !Hashable(meta.items[0]))
    ensures meta.Listed? && |meta.items| > 0 && Hashable(meta.items[0]) && !meta.items[0].JStr? ==>
      r == Err(KeyError(KeyText(meta.items[0])))
    ensures meta.Other? && meta.v.JStr? ==>
      r == (if meta.v.s in places then Ok((meta.v.s, JNull)) else Err(KeyError(meta.v.s)))
    ensures meta.Other? && meta.v.JArr? ==> r == ResolveListed(places, meta.v.items)
    ensures meta.Other? && meta.v.JObj? ==> r == Err(KeyError("0"))
    ensures meta.Other? && Hashable(meta.v) && !meta.v.JStr? ==> r == Err(KeyError(KeyText(meta.v)))
  {
    match meta
    case Named(name) =>
      if name in places then Ok((name, JNull)) else Err(KeyError(name))
    case Listed(items) => ResolveListed(places, items)
    case Other(v) =>
      match v
      case JStr(name) => if name in places then Ok((name, JNull)) else Err(KeyError(name))
      case JArr(items) => ResolveListed(places, items)
      case JObj(_) => Err(KeyError("0"))
      case _ => Err(KeyError(KeyText(v)))
  }

  predicate Resolves(places: map<string, Place>, e: (string, LocMeta))
  {
    Resolve(places, e.1).Ok?
  }

  /** The time -> location map of one file, every entry resolved in order. */
  function FileLocations(places: map<string, Place>, day: string, entries: MappingItems)
    : (r: Result<map<string, Location>>)
    ensures r.Ok? <==> forall i | 0 <= i < |entries| :: Resolves(places, entries[i])
    ensures r.Ok? ==> forall t :: t in r.value <==> exists i | 0 <= i < |entries| :: entries[i].0 == t
    ensures r.Ok? ==> forall t | t in r.value :: r.value[t].day == day && r.value[t].time == t
    ensures r.Ok? ==> forall t | t in r.value ::
      var l := r.value[t];
      exists i | 0 <= i < |entries| :: entries[i].0 == t && Resolves(places, entries[i]) &&
        l == NewLocation(day, t, places[Resolve(places, entries[i].1).value.0], Resolve(places, entries[i].1).value.1)
  {
    FileMapFails(places, day, entries);
    if FileMap(places, day, entries).Err? then FileMap(places, day, entries)
    else
      FileMapKeys(places, day, entries);
      FileMapValues(places, day, entries);
      FileMap(places, day, entries)
  }

  /** The loop of `process_locations` over one file's items. */
  function FileMap(places: map<string, Place>, day: string, entries: seq<(string, LocMeta)>)
    : Result<map<string, Location>>
  {
    if |entries| == 0 then Ok(map[])
    else
      var n := |entries| - 1;
      var prefix := FileMap(places, day, entries[..n]);
      if prefix.Err? then Err(prefix.error)
      else
        var (time, meta) := entries[n];
        var resolved := Resolve(places, meta);
        if resolved.Err? then Err(resolved.error)
        else
          var (key, significance) := resolved.value;
          Ok(prefix.value[time := NewLocation(day, time, places[key], significance)])
  }

  lemma {:induction false} FileMapFails(places: map<string, Place>, day: string, entries: seq<(string, LocMeta)>)
    ensures FileMap(places, day, entries).Ok? <==> forall i | 0 <= i < |entries| :: Resolves(places, entries[i])
  {
    if |entries| > 0 {
      var n := |entries| - 1;
      assert forall i | 0 <= i < n :: entries[..n][i] == entries[i];
      FileMapFails(places, day, entries[..n]);
    }
  }

  lemma {:induction false} FileMapKeys(places: map<string, Place>, day: string, entries: seq<(string, LocMeta)>)
    requires FileMap(places, day, entries).Ok?
    ensures forall t :: t in FileMap(places, day, entries).value <==> exists i | 0 <= i < |entries| :: entries[i].0 == t
  {
    if |entries| > 0 {
      var n := |entries| - 1;
      assert forall i | 0 <= i < n :: entries[..n][i] == entries[i];
      FileMapKeys(places, day, entries[..n]);
      forall t | exists i | 0 <= i < |entries| :: entries[i].0 == t
        ensures t in FileMap(places, day, entries).value
      {
        var i :| 0 <= i < |entries| && entries[i].0 == t;
        if i < n {
          assert entries[..n][i].0 == t;
        }
      }
    }
  }

  lemma {:induction false} FileMapDayTime(places: map<string, Place>, day: string, entries: seq<(string, LocMeta)>)
    requires FileMap(places, day, entries).Ok?
    ensures forall t | t in FileMap(places, day, entries).value ::
      FileMap(places, day, entries).value[t].day == day && FileMap(places, day, entries).value[t].time == t
  {
    if |entries| > 0 {
      FileMapDayTime(places, day, entries[..|entries| - 1]);
    }
  }

  /** Each time maps to the location its (only) entry builds. */
  lemma FileMapValues(places: map<string, Place>, day: string, entries: MappingItems)
    requires FileMap(places, day, entries).Ok?
    ensures forall t | t in FileMap(places, day, entries).value ::
      var l := FileMap(places, day, entries).value[t];
      exists i | 0 <= i < |entries| :: entries[i].0 == t && Resolves(places, entries[i]) &&
        l == NewLocation(day, t, places[Resolve(places, entries[i].1).value.0], Resolve(places, entries[i].1).value.1)
  {
    var m := FileMap(places, day, entries).value;
    FileMapKeys(places, day, entries);
    forall t | t in m
      ensures exists i | 0 <= i < |entries| ::
        entries[i].0 == t && Resolves(places, entries[i]) &&
        m[t] == NewLocation(day, t, places[Resolve(places, entries[i].1).value.0], Resolve(places, entries[i].1).value.1)
    {
      var i :| 0 <= i < |entries| && entries[i].0 == t;
      FileMapEntries(places, day, entries, i);
    }
  }

  /** Every entry of the file is in the map, as the location built from it:
      with each time listed once, no later entry overwrites it. */
  lemma {:induction false} FileMapEntries(places: map<string, Place>, day: string, entries: MappingItems, i: int)
    requires FileMap(places, day, entries).Ok?
    requires 0 <= i < |entries|
    ensures EntryFiled(places, day, entries[i], FileMap(places, day, entries).value)
  {
    var n := |entries| - 1;
    assert forall k | 0 <= k < n :: entries[..n][k] == entries[k];
    if i < n {
      FileMapEntries(places, day, entries[..n], i);
      assert entries[i].0 != entries[n].0;
    }
  }

  /** Every entry of a loaded file is in its map, as the location built from it. */
  lemma FileLocationsEntries(places: map<string, Place>, day: string, entries: MappingItems, i: int)
    requires FileLocations(places, day, entries).Ok?
    requires 0 <= i < |entries|
    ensures EntryFiled(places, day, entries[i], FileLocations(places, day, entries).value)
  {
    FileMapEntries(places, day, entries, i);
  }

  /** Entry `e` resolves, and its time maps to the location built from it. */
  predicate EntryFiled(places: map<string, Place>, day: string, e: (string, LocMeta), m: map<string, Location>)
  {
    && Resolves(places, e)
    && Resolve(places, e.1).value.0 in places
    && e.0 in m
    && m[e.0] == NewLocation(day, e.0, places[Resolve(places, e.1).value.0], Resolve(places, e.1).value.1)
  }

  /** `process_locations(places)` without the report: a file per day (a later
      file whose name strips to the same day replaces the earlier one's map), the
      first failing entry propagating. An empty document has no `.items()`. */
  function LocationsByDay(places: map<string, Place>, files: seq<LocationFile>)
    : (r: Result<map<string, map<string, Location>>>)
    ensures r.Ok? <==> forall i | 0 <= i < |files| :: FileResolves(places, files[i])
    ensures r.Ok? ==> forall d :: d in r.value <==> exists i | 0 <= i < |files| :: DayOfFile(files[i].fileName) == d
    ensures r.Ok? ==> forall d, t | d in r.value && t in r.value[d] ::
      r.value[d][t].day == d && r.value[d][t].time == t
  {
    DayMapsFails(places, files);
    if DayMaps(places, files).Err? then DayMaps(places, files)
    else
      DayMapsKeys(places, files);
      DayMapsDayTime(places, files);
      DayMaps(places, files)
  }

  /** The loop of `process_locations` over the files. */
  function DayMaps(places: map<string, Place>, files: seq<LocationFile>): Result<map<string, map<string, Location>>>
  {
    if |files| == 0 then Ok(map[])
    else
      var n := |files| - 1;
      var prefix := DayMaps(places, files[..n]);
      if prefix.Err? then Err(prefix.error)
      else
        var f := files[n];
        var day := DayOfFile(f.fileName);
        if f.entries.None? then Err(AttributeError("items"))
        else
          var m := FileMap(places, day, f.entries.value);
          if m.Err? then Err(m.error)
          else Ok(prefix.value[day := m.value])
  }

  lemma {:induction false} DayMapsFails(places: map<string, Place>, files: seq<LocationFile>)
    ensures DayMaps(places, files).Ok? <==> forall i | 0 <= i < |files| :: FileResolves(places, files[i])
  {
    if |files| > 0 {
      var n := |files| - 1;
      assert forall i | 0 <= i < n :: files[..n][i] == files[i];
      DayMapsFails(places, files[..n]);
      FileResolvesIff(places, files[n]);
      assert DayMaps(places, files).Ok? <==> DayMaps(places, files[..n]).Ok? && FileResolves(places, files[n]);
    }
  }

  /** One file resolves exactly when it is a mapping whose time map builds. */
  lemma FileResolvesIff(places: map<string, Place>, f: LocationFile)
    ensures FileResolves(places, f) <==>
      f.entries.Some? && FileMap(places, DayOfFile(f.fileName), f.entries.value).Ok?
  {
    if f.entries.Some? {
      FileMapFails(places, DayOfFile(f.fileName), f.entries.value);
    }
  }

  /** Some file's name strips to `d`. */
  predicate HasDayFile(files: seq<LocationFile>, d: string)
  {
    exists i | 0 <= i < |files| :: DayOfFile(files[i].fileName) == d
  }

  lemma {:induction false} DayMapsKeys(places: map<string, Place>, files: seq<LocationFile>)
    requires DayMaps(places, files).Ok?
    ensures forall d :: d in DayMaps(places, files).value <==> HasDayFile(files, d)
  {
    if |files| > 0 {
      var n := |files| - 1;
      var prefix := DayMaps(places, files[..n]).value;
      DayMapsKeys(places, files[..n]);
      var day := DayOfFile(files[n].fileName);
      var m := FileMap(places, day, files[n].entries.value).value;
      assert DayMaps(places, files).value == prefix[day := m];
      forall d ensures HasDayFile(files, d) <==> HasDayFile(files[..n], d) || d == day {
        HasDayFileStep(files, d);
      }
    }
  }

  /** One more file adds its own day to the days the files name. */
  lemma HasDayFileStep(files: seq<LocationFile>, d: string)
    requires |files| > 0
    ensures HasDayFile(files, d) <==> HasDayFile(files[..|files| - 1], d) || DayOfFile(files[|files| - 1].fileName) == d
  {
    var n := |files| - 1;
    if HasDayFile(files, d) && DayOfFile(files[n].fileName) != d {
      var i :| 0 <= i < |files| && DayOfFile(files[i].fileName) == d;
      assert files[..n][i] == files[i];
    }
    if HasDayFile(files[..n], d) {
      var i :| 0 <= i < n && DayOfFile(files[..n][i].fileName) == d;
      assert files[..n][i] == files[i];
    }
  }

  lemma {:induction false} DayMapsDayTime(places: map<string, Place>, files: seq<LocationFile>)
    requires DayMaps(places, files).Ok?
    ensures forall d, t | d in DayMaps(places, files).value && t in DayMaps(places, files).value[d] ::
      DayMaps(places, files).value[d][t].day == d && DayMaps(places, files).value[d][t].time == t
  {
    if |files| > 0 {
      var n := |files| - 1;
      DayMapsDayTime(places, files[..n]);
      var f := files[n];
      FileMapDayTime(places, DayOfFile(f.fileName), f.entries.value);
    }
  }

  predicate FileResolves(places: map<string, Place>, f: LocationFile)
  {
    f.entries.Some? && forall i | 0 <= i < |f.entries.value| :: Resolves(places, f.entries.value[i])
  }

  /** The places some entry of some file refers to, overwritten files included:
      their locations were constructed, so their places were marked. */
  ghost predicate Referenced(places: map<string, Place>, files: seq<LocationFile>, k: string)
  {
    exists i, j | 0 <= i < |files| :: RefersTo(places, files[i], j, k)
  }

  /** Entry `j` of file `f` resolves to the place filed under `k`. */
  predicate RefersTo(places: map<string, Place>, f: LocationFile, j: int, k: string)
  {
    && f.entries.Some? && 0 <= j < |f.entries.value|
    && Resolves(places, f.entries.value[j]) && Resolve(places, f.entries.value[j].1).value.0 == k
  }

  /** The places the entries of one file refer to. */
  function EntryKeys(places: map<string, Place>, es: seq<(string, LocMeta)>): set<string>
    requires forall j | 0 <= j < |es| :: Resolves(places, es[j])
  {
    if |es| == 0 then {}
    else
      var n := |es| - 1;
      assert Resolves(places, es[n]);
      EntryKeys(places, es[..n]) + {Resolve(places, es[n].1).value.0}
  }

  lemma {:induction false} EntryKeysIff(places: map<string, Place>, es: seq<(string, LocMeta)>, k: string)
    requires forall j | 0 <= j < |es| :: Resolves(places, es[j])
    ensures k in EntryKeys(places, es) <==> exists j | 0 <= j < |es| :: Resolve(places, es[j].1).value.0 == k
  {
    if |es| > 0 {
      var n := |es| - 1;
      assert forall j | 0 <= j < n :: es[..n][j] == es[j];
      EntryKeysIff(places, es[..n], k);
    }
  }

  /** The places the entries of all files refer to. */
  function UsedKeys(places: map<string, Place>, files: seq<LocationFile>): set<string>
    requires forall i | 0 <= i < |files| :: FileResolves(places, files[i])
  {
    if |files| == 0 then {}
    else
      var n := |files| - 1;
      assert FileResolves(places, files[n]);
      UsedKeys(places, files[..n]) + EntryKeys(places, files[n].entries.value)
  }

  lemma {:induction false} UsedKeysReferenced(places: map<string, Place>, files: seq<LocationFile>, k: string)
    requires forall i | 0 <= i < |files| :: FileResolves(places, files[i])
    ensures k in UsedKeys(places, files) <==> Referenced(places, files, k)
  {
    if |files| > 0 {
      var n := |files| - 1;
      var pre := files[..n];
      assert forall i | 0 <= i < n :: pre[i] == files[i];
      assert FileResolves(places, files[n]);
      UsedKeysReferenced(places, pre, k);
      EntryKeysIff(places, files[n].entries.value, k);
      if Referenced(places, files, k) {
        var i, j :| 0 <= i < |files| && RefersTo(places, files[i], j, k);
        if i < n {
          assert pre[i] == files[i];
          assert Referenced(places, pre, k);
        }
      }
      if Referenced(places, pre, k) {
        var i, j :| 0 <= i < n && RefersTo(places, pre[i], j, k);
        assert pre[i] == files[i];
        assert RefersTo(places, files[i], j, k);
      }
      var es := files[n].entries.value;
      if exists j | 0 <= j < |es| :: Resolve(places, es[j].1).value.0 == k {
        var j :| 0 <= j < |es| && Resolve(places, es[j].1).value.0 == k;
        assert RefersTo(places, files[n], j, k);
      }
    }
  }

  datatype LocationsResult = LocationsResult(
    locations: map<string, map<string, Location>>,
    places: map<string, Place>)

  /** `process_locations(places)`: the locations by day and time, and the places
      with `is_used_in_location` set on every place a location was built for. */
  function ProcessLocations(places: map<string, Place>, files: seq<LocationFile>): (r: Result<LocationsResult>)
    ensures r.Err? <==> LocationsByDay(places, files).Err?
    ensures r.Ok? ==> r.value.locations == LocationsByDay(places, files).value
    ensures r.Ok? ==> r.value.places.Keys == places.Keys
  {
    var locations :- LocationsByDay(places, files);
    var used := UsedKeys(places, files);
    Ok(LocationsResult(locations, map k | k in places :: if k in used then places[k].(isUsedInLocation := true) else places[k]))
  }

  /** The places reported as "not used as a location". */
  function Unused(places: map<string, Place>): set<string>
  {
    set k | k in places && !places[k].isUsedInLocation
  }

  /** After processing, a place is reported unused exactly when it was not used
      before and no entry of any file refers to it; every other attribute of the
      places is unchanged. */
  lemma UnusedIffUnreferenced(places: map<string, Place>, files: seq<LocationFile>, k: string)
    requires ProcessLocations(places, files).Ok?
    ensures k in Unused(ProcessLocations(places, files).value.places) <==>
      k in places && !places[k].isUsedInLocation && !Referenced(places, files, k)
    ensures k in places ==>
      ProcessLocations(places, files).value.places[k] ==
        places[k].(isUsedInLocation := ProcessLocations(places, files).value.places[k].isUsedInLocation)
  {
    assert forall i | 0 <= i < |files| :: FileResolves(places, files[i]);
    UsedKeysReferenced(places, files, k);
  }

  /** File `i` is for day `d` and its entry named `t` is the location the result
      holds for `t` on that day. */
  ghost predicate LocationFrom(places: map<string, Place>, files: seq<LocationFile>, d: string, t: string, i: int)
  {
    && 0 <= i < |files|
    && files[i].entries.Some?
    && DayOfFile(files[i].fileName) == d
    && FileLocations(places, d, files[i].entries.value).Ok?
    && t in FileLocations(places, d, files[i].entries.value).value
    && LocationsByDay(places, files).Ok?
    && d in LocationsByDay(places, files).value
    && t in LocationsByDay(places, files).value[d]
    && LocationsByDay(places, files).value[d][t] == FileLocations(places, d, files[i].entries.value).value[t]
  }

  /** Every location in the result comes from an entry of some file for its day. */
  lemma {:induction false} LocationOrigin(places: map<string, Place>, files: seq<LocationFile>, d: string, t: string)
    requires LocationsByDay(places, files).Ok?
    requires d in LocationsByDay(places, files).value && t in LocationsByDay(places, files).value[d]
    ensures exists i :: LocationFrom(places, files, d, t, i)
  {
    var n := |files| - 1;
    if DayOfFile(files[n].fileName) != d {
      LocationsByDayOther(places, files, d);
      LocationOrigin(places, files[..n], d, t);
      var i :| LocationFrom(places, files[..n], d, t, i);
      LocationFromPrefix(places, files, d, t, i);
    } else {
      LocationFromLast(places, files, d, t);
    }
  }

  /** A location on the last file's day comes from that file. */
  lemma LocationFromLast(places: map<string, Place>, files: seq<LocationFile>, d: string, t: string)
    requires |files| > 0 && DayOfFile(files[|files| - 1].fileName) == d
    requires LocationsByDay(places, files).Ok?
    requires d in LocationsByDay(places, files).value && t in LocationsByDay(places, files).value[d]
    ensures LocationFrom(places, files, d, t, |files| - 1)
  {
    var n := |files| - 1;
    var prefix := LocationsByDay(places, files[..n]).value;
    var f := files[n];
    var m := FileLocations(places, d, f.entries.value).value;
    assert LocationsByDay(places, files).value == prefix[d := m];
  }

  /** A location that the last file does not override keeps its origin. */
  lemma LocationFromPrefix(places: map<string, Place>, files: seq<LocationFile>, d: string, t: string, i: int)
    requires |files| > 0 && DayOfFile(files[|files| - 1].fileName) != d
    requires LocationsByDay(places, files).Ok?
    requires LocationFrom(places, files[..|files| - 1], d, t, i)
    ensures LocationFrom(places, files, d, t, i)
  {
    var n := |files| - 1;
    LocationsByDayOther(places, files, d);
    assert files[..n][i] == files[i];
  }

  /** The last file only replaces the map of its own day. */
  lemma LocationsByDayOther(places: map<string, Place>, files: seq<LocationFile>, d: string)
    requires |files| > 0 && DayOfFile(files[|files| - 1].fileName) != d
    requires LocationsByDay(places, files).Ok?
    ensures LocationsByDay(places, files[..|files| - 1]).Ok?
    ensures d in LocationsByDay(places, files).value <==> d in LocationsByDay(places, files[..|files| - 1]).value
    ensures d in LocationsByDay(places, files).value ==>
      LocationsByDay(places, files).value[d] == LocationsByDay(places, files[..|files| - 1]).value[d]
  {
    var n := |files| - 1;
    var prefix := LocationsByDay(places, files[..n]).value;
    var f := files[n];
    var m := FileLocations(places, DayOfFile(f.fileName), f.entries.value).value;
    MapUpdateOther(prefix, DayOfFile(f.fileName), m, d);
  }

  lemma MapUpdateOther<K, V>(m: map<K, V>, k: K, v: V, other: K)
    requires other != k
    ensures other in m[k := v] <==> other in m
    ensures other in m ==> m[k := v][other] == m[other]
  {
  }

  /** Every location holds its place already marked as used: the very place the
      returned registry holds under the name the entry gave. */
  lemma LocationsHoldRegisteredPlaces(places: map<string, Place>, files: seq<LocationFile>, d: string, t: string)
    requires ProcessLocations(places, files).Ok?
    requires d in ProcessLocations(places, files).value.locations
    requires t in ProcessLocations(places, files).value.locations[d]
    ensures var r := ProcessLocations(places, files).value;
      exists k | k in r.places :: r.locations[d][t].place == r.places[k] && r.places[k].isUsedInLocation
  {
    var r := ProcessLocations(places, files).value;
    LocationOrigin(places, files, d, t);
    var i :| LocationFrom(places, files, d, t, i);
    var es := files[i].entries.value;
    var j :| 0 <= j < |es| && es[j].0 == t && Resolves(places, es[j]) &&
      r.locations[d][t] == NewLocation(d, t, places[Resolve(places, es[j].1).value.0], Resolve(places, es[j].1).value.1);
    var k := Resolve(places, es[j].1).value.0;
    assert RefersTo(places, files[i], j, k);
    assert forall i | 0 <= i < |files| :: FileResolves(places, files[i]);
    UsedKeysReferenced(places, files, k);
    assert r.locations[d][t].place == r.places[k];
  }
}

=== FILE: wrappers.dfy ===
/** Failure-compatible result types for the site builder model.

    The builder signals failure by raising Python exceptions; the model returns a
    `Result` whose `Error` names the exception class that would have been raised.
 */
module Wrappers {

  datatype Option<+T> = None | Some(value: T) {
    predicate IsFailure() {
      None?
    }

    function PropagateFailure<U>(): Option<U>
      requires None?
    {
      None
    }

    function Extract(): T
      requires Some?
    {
      value
    }
  }

  /** The exception classes the builder raises or lets propagate. */
  datatype Error =
    | FileNotFound(path: string)
    | JsonDecodeError(path: string)
    | KeyError(key: string)
    | TypeError(message: string)
    | ValueError(message: string)
    | RuntimeError(message: string)
    | AttributeError(attribute: string)
    | IndexError
    | ParseFailure(text: string)
    | TemplateDoesNotExist(name: string)

  datatype Result<+T> = Ok(value: T) | Err(error: Error) {
    predicate IsFailure() {
      Err?
    }

    function PropagateFailure<U>(): Result<U>
      requires Err?
    {
      Err(error)
    }

    function Extract(): T
      requires Ok?
    {
      value
    }
  }
}
